=== FILE: README.md ===
# EdgeCoach interview-intel backend in Dafny

This project models the deterministic core of the EdgeCoach interview assistant, and proves properties of that model:

- **Retrieval** (`lambda/tavily_retrieval.py`):
  - the text cleaner `_clean_text`;
  - the per-URL content selection `_fetch_url_content`, with its PDF/HTML dispatch, extractor fallback, offline fallbacks and 300/10000 character bounds;
  - host derivation;
  - candidate collection in `fetch_interview_sources`: the clamp of `max_sources`, five search queries, de-duplication by URL and the cap;
  - the acceptance loop, which numbers sources `S1..Sk`.
- **Intent heuristics** (`lambda/bedrock_intent.py`):
  - hour clamping;
  - string, boolean and hour coercion;
  - phrase-table and "in N hours/days/weeks" time inference;
  - the intel-keyword and role-hint tests;
  - history formatting and the text blob;
  - intent parsing, the fallback and the enrichment merge.
- **Synthesis preparation** (`lambda/analysis_engine.py`):
  - bounded source formatting and the context string;
  - history formatting;
  - time-window tiers;
  - integer coercion;
  - extraction of the model's text;
  - the early exit and fallbacks of `synthesize_interview_answer`.
- **The Lambda handler** (`lambda/handler.py`):
  - parsing the event body;
  - request validation;
  - separating the cached agent state from the message history;
  - the state message written back;
  - the concept-question override;
  - the fallback to the cached company and role;
  - the source refresh rule;
  - the general-chat answer extraction;
  - the routing of a turn.
- **Front-end helpers** (`app.py`): `strip_system_messages`, `normalize_lambda_payload` and `md_to_html`.

Each Python module is a Dafny module in a file of its own:

| file | module | models |
|---|---|---|
| `wrappers.dfy` | `Wrappers` | `Option` and `Result` |
| `text.dfy` | `Text` | Python's `str` operations |
| `pyvalue.dfy` | `PyValue` | JSON-shaped Python values |
| `cleaning.dfy` | `Cleaning` | `_clean_text` |
| `fetching.dfy` | `Fetching` | `_fetch_url_content`, `_load_pdf`, `_derive_source` |
| `aggregation.dfy` | `Aggregation` | `fetch_interview_sources` |
| `intent.dfy` | `Intents` | `lambda/bedrock_intent.py` |
| `analysis.dfy` | `Analysis` | `lambda/analysis_engine.py` |
| `handler.dfy` | `Handler` | `lambda/handler.py` |
| `frontend.dfy` | `Frontend` | `app.py` |

`Text` holds `isspace`, `strip`, `lower`/`upper`, `in`, slicing, `join` and decimal rendering and parsing. `PyValue` holds truthiness, `dict.get`, item assignment, `str` and `repr`.

Everything outside the program's own logic is a parameter:

- the search API (`World.search`), the URL fetch (`World.fetch`) and the host parser (`World.netloc`);
- the Bedrock model calls (`invoke` in `Analysis.Synthesize`, and `generalModel` in the handler);
- in the handler, the program's own `extract_intent`, `fetch_interview_sources` and `synthesize_interview_answer` (`detectIntent`, `fetchSources`, `synthesize`). These are modelled on their own as `Intents.ExtractIntent`, `Aggregation.FetchInterviewSources` and `Analysis.Synthesize`. In the handler they are inputs, and `None` from one of them stands for an exception, which the handler reports as a 500;
- JSON decoding and encoding (`Handler.Json`, `loads`, `dumps`);
- the regex company/role guesser (`guess`).

Where a round trip depends on JSON, the lemma assumes `loads(dumps(v)) == Some(v)` for the value concerned. The concurrent acceptance loop is a fold over an arbitrary permutation `order` of the candidates. So everything proved about it holds for every completion order.

Where the documented behaviour and the code disagree, the model follows the code:

- A whitespace-only search-result title strips to the empty string (`lambda/tavily_retrieval.py:107`), so titles are not always non-empty.
- The offline fallbacks of `_fetch_url_content` are consulted only when the live text is exactly empty, not when it is merely short (`lambda/tavily_retrieval.py:199`). A short live page therefore yields "" even when a fallback is long enough (`Fetching.FetchUsesLiveText`).
- The handler asks for `max_sources=5`, which retrieval clamps to 3 (`Aggregation.HandlerCapIsClamped`).
- In `_prepare_sources`, a whitespace-only `source` strips to "" rather than defaulting to "web"; only a missing or empty one becomes "web".

## Model

| member | source | states |
|---|---|---|
| Cleaning.Clean | lambda/tavily_retrieval.py:265-279 | the cleaned text is never longer than its input, so empty input gives "" |
| Cleaning.CleanIsClean | lambda/tavily_retrieval.py:268-279 | the output holds only printable characters, has no two adjacent spaces and no space at either end |
| Cleaning.BlankShape | lambda/tavily_retrieval.py:268 | the first pass turns every non-printable character into a space and keeps every printable one |
| Cleaning.CollapseShape | lambda/tavily_retrieval.py:269-278 | after collapsing, every whitespace character is a plain space and no two spaces are adjacent |
| Cleaning.CleanFixedPoints | lambda/tavily_retrieval.py:265-279 | a text is left unchanged by cleaning exactly when it is already clean |
| Cleaning.CleanFixesClean | lambda/tavily_retrieval.py:265-279 | clean text is returned unchanged |
| Cleaning.CleanIdempotent | lambda/tavily_retrieval.py:265-279 | cleaning twice equals cleaning once |
| Cleaning.CleanKeepsVisible | lambda/tavily_retrieval.py:268-279 | the visible (printable, non-whitespace) characters survive cleaning, in order, and nothing else visible appears |
| Cleaning.TakeClean | lambda/tavily_retrieval.py:210 | cutting a clean text keeps it printable, single-spaced and without a leading space |
| Cleaning.CleanExample | lambda/tavily_retrieval.py:265-279 | "a\n\n\tb   c" cleans to "a b c" |
| Fetching.LoadPdf | lambda/tavily_retrieval.py:213-230 | with no reader or an unreadable PDF the text is "" |
| Fetching.LiveText | lambda/tavily_retrieval.py:178-197 | a failed request gives ""; PDFs go to the PDF loader; HTML uses the structured extractor and the markup extractor only when that is empty |
| Fetching.FirstQualifying | lambda/tavily_retrieval.py:199-204 | finds the first fallback whose cleaned length reaches 300, and finds none exactly when no fallback does |
| Fetching.FetchUrlContent | lambda/tavily_retrieval.py:164-210 | the content is "" or between 300 and 10000 characters; an empty URL gives "" |
| Fetching.FetchUsesLiveText | lambda/tavily_retrieval.py:199-210 | non-empty live text is used even when too short: the cleaned text cut to 10000, or "" under 300 |
| Fetching.FetchFallsBack | lambda/tavily_retrieval.py:172-176 | with no live text the result comes from the first qualifying of raw content, content, snippet, and is "" when none qualifies |
| Fetching.FetchPdf | lambda/tavily_retrieval.py:188-189 | a PDF response whose pages clean to at least 300 characters yields that cleaned text cut to 10000 |
| Fetching.FetchContentShape | lambda/tavily_retrieval.py:206-210 | fetched content is printable, single-spaced and has no leading space |
| Fetching.DeriveSource | lambda/tavily_retrieval.py:254-262 | the source is the lowercased host without a leading "www.", or "web" when that is empty or parsing fails; never empty, no upper-case letters |
| Aggregation.ClampMaxSources | lambda/tavily_retrieval.py:55 | the cap lies in [1,3]: in-range values are kept, larger ones become 3, missing, zero or negative ones become 1 |
| Aggregation.HandlerCapIsClamped | lambda/tavily_retrieval.py:55 | the handler's request for 5 sources is clamped to 3 |
| Aggregation.QueriesMentionCompany | lambda/tavily_retrieval.py:63-69 | every one of the five queries mentions a non-blank company |
| Aggregation.LeadQueriesMentionCompany | lambda/tavily_retrieval.py:64-65 | the experience and process queries mention a non-blank company |
| Aggregation.SiteQueriesMentionCompany | lambda/tavily_retrieval.py:66-68 | the glassdoor, reddit and tips queries mention the company |
| Aggregation.QueriesMentionRole | lambda/tavily_retrieval.py:64-65 | the experience and process queries mention a non-blank role |
| Aggregation.CandidateTitle | lambda/tavily_retrieval.py:106-107 | the title is the stripped item title, or the URL when the item has none |
| Aggregation.BlankTitleGivesEmptyTitle | lambda/tavily_retrieval.py:107 | a whitespace-only item title yields an empty candidate title |
| Aggregation.CollectItems | lambda/tavily_retrieval.py:97-125 | the results of one search only extend the candidates, never past the cap; URLs stay non-empty, stripped and distinct |
| Aggregation.FreshFromItems | lambda/tavily_retrieval.py:98-104 | every fresh candidate has a URL not seen before and is built from one of the items, with that item's stripped URL |
| Aggregation.FreshCoversItems | lambda/tavily_retrieval.py:98-104 | every item with a non-empty stripped URL is either already seen or gives a fresh candidate |
| Aggregation.WellFormedSnoc | lambda/tavily_retrieval.py:101-125 | adding a candidate built from an item whose stripped URL is non-empty and new keeps the URLs distinct, non-empty and stripped |
| Aggregation.FreshTakeCons | lambda/tavily_retrieval.py:99-125 | taking the first fresh item below the cap and then continuing with the rest equals taking one more fresh candidate from the whole list |
| Aggregation.CollectItemsIsFreshTake | lambda/tavily_retrieval.py:97-125 | the items loop equals its reference: the candidates so far followed by the first `cap - |cands|` items whose stripped URL is non-empty and unseen, in result order, each built by the candidate constructor |
| Aggregation.SearchStep | lambda/tavily_retrieval.py:77-125 | a failed search adds nothing; a successful one appends the first fresh results up to the cap, in result order |
| Aggregation.CollectQueries | lambda/tavily_retrieval.py:74-76 | queries are issued in order, and the plan stops early only once the cap is reached |
| Aggregation.CollectQueriesIsRun | lambda/tavily_retrieval.py:74-125 | the candidates are those of sending the issued queries in order, and before the last issued query fewer than the cap were held |
| Aggregation.Candidates | lambda/tavily_retrieval.py:55-125 | at most `max_sources` candidates, with distinct, non-empty, stripped URLs; none and no query for a blank company and role; at most five queries |
| Aggregation.CandidatesAreRun | lambda/tavily_retrieval.py:57-125 | the candidates are those of sending, in order, the queries that were issued, each appending its first fresh results |
| Aggregation.QueryIssuing | lambda/tavily_retrieval.py:57-76 | no query is sent for a blank company and role; otherwise a prefix of the five queries, cut short only at the cap, and each issued query was sent while fewer than the cap were held |
| Aggregation.WorkerContent | lambda/tavily_retrieval.py:136-145 | a worker's content is "" (also when it crashed) or between 300 and 10000 characters |
| Aggregation.Completed | lambda/tavily_retrieval.py:132-140 | the completed results are the candidates in the given completion order, each with its fetched content |
| Aggregation.LabelCons | lambda/tavily_retrieval.py:149 | numbering a list numbers its head next and its tail after it |
| Aggregation.AcceptIsFilterTake | lambda/tavily_retrieval.py:136-159 | the acceptance loop equals its reference: the non-empty results in completion order, the first up to the cap, numbered densely after those already accepted |
| Aggregation.UsableMembers | lambda/tavily_retrieval.py:144-145 | every accepted result comes from the completed ones and has content |
| Aggregation.UsableDistinct | lambda/tavily_retrieval.py:101-104 | skipping empty results keeps the URLs distinct |
| Aggregation.CompletedGood | lambda/tavily_retrieval.py:132-140 | every completion order yields distinct candidate URLs with bounded content |
| Aggregation.UsableGood | lambda/tavily_retrieval.py:144-145 | the non-empty results keep those properties |
| Aggregation.LabelGood | lambda/tavily_retrieval.py:147-156 | labelled sources carry ids S1..Sk, distinct URLs from the candidates and bounded content |
| Aggregation.AcceptedShape | lambda/tavily_retrieval.py:130-159 | for any completion order the reference result (the first non-empty completed results up to the cap, numbered S1..) has those properties |
| Aggregation.AcceptFromNothing | lambda/tavily_retrieval.py:143-159 | the acceptance loop started from nothing gives the first non-empty completed results up to the cap, numbered S1.. |
| Aggregation.AcceptedSources | lambda/tavily_retrieval.py:130-159 | for any completion order the accepted sources are that reference result and have those properties |
| Aggregation.FetchInterviewSources | lambda/tavily_retrieval.py:43-161 | [] without an API key or with blank company and role; with a key, exactly the first non-empty fetched candidates in completion order, up to the clamped cap, numbered S1..Sk; so content of 300 to 10000 characters and distinct URLs drawn from the candidates |
| Intents.ClampHours | lambda/bedrock_intent.py:416-417 | the result lies in [1,336] and equals the input when that is in range |
| Intents.CoerceStr | lambda/bedrock_intent.py:316-323 | None gives the default; a string gives its strip, or the default when blank; anything else gives its non-empty `str` |
| Intents.CoerceBool | lambda/bedrock_intent.py:326-337 | bools pass through, integers are true when non-zero, the true and false words (trimmed, case-insensitive) map accordingly, anything else gives the default |
| Intents.CoerceBoolOfText | lambda/bedrock_intent.py:331-336 | "True" and "False" coerce back to the booleans they render |
| Intents.CoerceHours | lambda/bedrock_intent.py:340-347 | None, bools and unparsable values give the default; numbers and numeric strings give the clamped hours |
| Intents.CoerceHoursOfText | lambda/bedrock_intent.py:340-347 | a rendered integer coerces to its clamped value |
| Intents.CoerceHoursInRange | lambda/bedrock_intent.py:340-347 | hours already in [1,336] are kept |
| Intents.FirstIn | lambda/bedrock_intent.py:391-393 | finds the first table entry contained in the text, and none exactly when no entry is contained |
| Intents.SearchIn | lambda/bedrock_intent.py:395-405 | the pattern search returns the leftmost match, and none exactly when no position matches |
| Intents.InferTimeHours | lambda/bedrock_intent.py:389-407 | the inferred hours always lie in [1,336] |
| Intents.InferTimeFromPhrase | lambda/bedrock_intent.py:390-393 | the first phrase in table order that the lowercased text contains decides the hours |
| Intents.DayAfterTomorrow | lambda/bedrock_intent.py:68-74 | "day after tomorrow" gives 48, although the text also contains "tomorrow" |
| Intents.InThreeDays | lambda/bedrock_intent.py:399-401 | "in 3 days" gives 72 hours |
| Intents.InferTimeDefault | lambda/bedrock_intent.py:407 | with no phrase and no pattern match the result is 24 |
| Intents.InferWantsIntel | lambda/bedrock_intent.py:410-413 | intel is wanted exactly when the lowercased text contains one of the eight keywords |
| Intents.LooksLikeRole | lambda/bedrock_intent.py:382-386 | "" is no role; otherwise a role exactly when the lowercased text contains a hint |
| Intents.SoftwareEngineerIsRole | lambda/bedrock_intent.py:41-67 | "Software Engineer" looks like a role |
| Intents.HistoryLines | lambda/bedrock_intent.py:200-205 | one "ROLE: content" line for each of the last (at most 10) turns, in order |
| Intents.FormatHistory | lambda/bedrock_intent.py:196-198 | an empty history gives "None." |
| Intents.FormatHistoryNonEmpty | lambda/bedrock_intent.py:200-206 | a non-empty history never gives "None." |
| Intents.NonEmpty | lambda/bedrock_intent.py:313 | a part is kept exactly when it is one of the parts and non-empty |
| Intents.NonEmptyAppend | lambda/bedrock_intent.py:313 | filtering two runs of parts keeps those of the first, then those of the second, so the kept parts stay in order |
| Intents.NonEmptyLast | lambda/bedrock_intent.py:311-313 | a non-empty last part survives the filter, last |
| Intents.BlobEndsWithQuery | lambda/bedrock_intent.py:306-313 | a non-empty query with no surrounding whitespace always appears in the text blob |
| Intents.ParseIntent | lambda/bedrock_intent.py:238-254 | an intent comes out exactly for an object; each of its six fields is that field of the object coerced, with hours in range |
| Intents.ParseIntentRoundTrip | lambda/bedrock_intent.py:238-254 | parsing the object form of an intent with stripped texts and in-range hours gives that intent back |
| Intents.IntentObjectFields | lambda/bedrock_intent.py:242-253 | each of the six keys of an intent's object form reads back its field |
| Intents.FallbackIntent | lambda/bedrock_intent.py:257-272 | the guesser's company and role on the whole blob, hours inferred from the blob, the intel flag from the current query's keywords, empty level and location |
| Intents.EnrichWithContext | lambda/bedrock_intent.py:277-301 | a non-empty company or role is kept and an empty one is taken from the guesser; 0 hours are inferred from the blob and other hours clamped; the intel flag is never cleared |
| Intents.EnrichIdempotent | lambda/bedrock_intent.py:277-301 | enriching twice with the same context equals enriching once |
| Intents.EnrichIntelFlag | lambda/bedrock_intent.py:293-294 | the flag ends true exactly when it was true or the query has an intel keyword |
| Intents.ExtractIntent | lambda/bedrock_intent.py:151-182 | hours in range, a keyword in the query always asks for intel, a non-blank company from the model is kept (except for the hours literals listed under "Left out") |
| Analysis.ContextBlock | lambda/analysis_engine.py:135-140 | a block starts with its header and carries at most 2500 characters of content |
| Analysis.Format | lambda/analysis_engine.py:115-133 | the snippet has at most 300 characters; a missing id becomes S{n}; the title falls back to the URL, then "Untitled source"; a missing source becomes "web" |
| Analysis.UsableDocs | lambda/analysis_engine.py:115-118 | only documents with non-blank content are kept |
| Analysis.PrepareLoopIsFilterTake | lambda/analysis_engine.py:111-140 | the loop equals its reference: the first three usable documents in input order, formatted at positions 1.. |
| Analysis.PrepareSources | lambda/analysis_engine.py:107-143 | at most 3 sources, a context of at most 9000 characters, and no source exactly when no document is usable |
| Analysis.PrepareSourcesOrder | lambda/analysis_engine.py:111-133 | the sources are the first usable documents in input order; skipped documents take no id |
| Analysis.HistoryLinesOf | lambda/analysis_engine.py:221-226 | each line is "ROLE: content" of a turn with non-blank content |
| Analysis.HistoryLinesOfOne | lambda/analysis_engine.py:222-226 | one turn gives its "ROLE: content" line when its stripped content is non-empty, and nothing otherwise |
| Analysis.HistoryLinesOfAppend | lambda/analysis_engine.py:221-226 | the lines of two runs of turns are those of the first followed by those of the second, so the lines follow the turns' order |
| Analysis.FormatHistory | lambda/analysis_engine.py:216-228 | "No prior conversation." for no messages; never more than 2000 characters; only the last 8 turns need be well-typed |
| Analysis.FormatHistoryUsable | lambda/analysis_engine.py:219-228 | only the last 8 turns count; "No usable history." exactly when none of them has content |
| Analysis.HistoryLineNotBlank | lambda/analysis_engine.py:226 | a history line is never blank |
| Analysis.Tier | lambda/analysis_engine.py:231-236 | tier 0 exactly up to 24 hours, tier 2 exactly beyond 48 |
| Analysis.TimeWindowGuidance | lambda/analysis_engine.py:231-236 | the guidance is one of the three texts |
| Analysis.TierMonotone | lambda/analysis_engine.py:231-236 | more time never gives a more urgent tier |
| Analysis.GuidanceIdentifiesTier | lambda/analysis_engine.py:232-236 | two inputs get the same guidance exactly when they fall in the same tier |
| Analysis.CoerceInt | lambda/analysis_engine.py:239-243 | integers pass through, bools become 0/1, numeric strings parse, anything else gives the default |
| Analysis.CoerceIntOfText | lambda/analysis_engine.py:239-243 | a rendered integer coerces back to itself |
| Analysis.ConcatTextsOne | lambda/analysis_engine.py:211-212 | a single block contributes exactly its own text: a text block its text (or "" when falsy), any other block "" |
| Analysis.ConcatTextsAppend | lambda/analysis_engine.py:210-213 | the texts of two runs of blocks are joined in order; the join raises when either run does |
| Analysis.ConcatOfTextBlocks | lambda/analysis_engine.py:208-213 | for any blocks whose texts are `texts`, the join is the texts concatenated in order |
| Analysis.ConcatTextsRaises | lambda/analysis_engine.py:212-213 | one text block with a truthy non-string text makes the join raise |
| Analysis.CollectTextOfBlocks | lambda/analysis_engine.py:207-213 | for any reply object whose "content" is a list (empty included) of blocks carrying `texts`, the collected answer is the stripped concatenation of those texts |
| Analysis.CollectTextRaises | lambda/analysis_engine.py:207-213 | any reply object whose content list holds a text block with a truthy non-string text raises |
| Analysis.DefaultResponse | lambda/analysis_engine.py:246-251 | the apology answer, no sections, and the given sources unchanged |
| Analysis.ProfileField | lambda/analysis_engine.py:40-41 | the stripped company or role when it is not blank, and exactly the placeholder when it is; never empty |
| Analysis.SynthesisPrompt | lambda/analysis_engine.py:40-54 | the prompt has a company and role, one of the guidance texts, history and context within their bounds; only the last 8 turns need be well-typed |
| Analysis.Synthesize | lambda/analysis_engine.py:30-104 | no usable source gives the default answer with no sources, whatever the history; otherwise the sources are the formatted ones, and the answer is the model's non-empty text or the default |
| Handler.Kept | lambda/handler.py:252-253 | no kept message is a state message |
| Handler.ExtractAgentState | lambda/handler.py:224-255 | the history is exactly the non-state messages in order; the state is that of the last valid state message, or the empty one |
| Handler.ExtractLoopIsReference | lambda/handler.py:232-253 | the loop equals the filter and last-valid reference definitions |
| Handler.KeptExactly | lambda/handler.py:232-253 | a message is kept exactly when it occurs in the input and is not a state message |
| Handler.KeptAppend | lambda/handler.py:232-253 | the filter distributes over concatenation |
| Handler.LastValidAppend | lambda/handler.py:240-249 | a later valid state message overrides every earlier one |
| Handler.NoStateGivesDefault | lambda/handler.py:226-230 | without a valid state message the state is company "", role "", sources [] |
| Handler.LaterStateWins | lambda/handler.py:243-249 | a valid state message followed by no other valid one decides the state |
| Handler.MalformedStateIgnored | lambda/handler.py:240-251 | a state message with an undecodable or non-object payload is removed and leaves the state unchanged |
| Handler.BuildAgentStateMessage | lambda/handler.py:258-267 | the message built is always recognised as a state message, and its payload is the encoded state |
| Handler.StateOfPayloadReadsBack | lambda/handler.py:243-249 | reading an encoded state's fields gives back company, role and sources |
| Handler.StateMessageRoundTrip | lambda/handler.py:189-194 | a state message written at the end of a turn is removed and restores its state on the next turn |
| Handler.ParseEventBody | lambda/handler.py:212-221 | a missing, falsy, undecodable or non-string, non-object body gives {}; an object is used as is |
| Handler.TextField | lambda/handler.py:67 | `(v or "").strip()`, failing exactly on a truthy non-string |
| Handler.ReadRequest | lambda/handler.py:66-74 | a blank query fails with 400 before the messages are checked; non-list messages fail with 400; a non-object body fails with 500 |
| Handler.InterviewIsNeverConcept | lambda/handler.py:101-105 | a query mentioning "interview" is never a concept question |
| Handler.ConceptExample | lambda/handler.py:87-105 | "explain a heap" is a concept question |
| Handler.InterviewExample | lambda/handler.py:101-105 | "what is the interview format" is not |
| Handler.NoPrefixExample | lambda/handler.py:101-102 | "Tell me about Amazon" is not |
| Handler.ApplyOverride | lambda/handler.py:110-121 | a concept question sets the intel flag False, clears company, role and cached state, and touches no other key; otherwise nothing changes |
| Handler.ResolveProfile | lambda/handler.py:148-154 | the intent's non-empty company is never replaced; with intel wanted and no company the cached company is used, and the cached role only fills an empty role |
| Handler.NextSources | lambda/handler.py:156-175 | without a refresh the cached sources are kept; a refresh takes a non-empty fetch, and on an empty fetch keeps the cached sources or `[]`; a fetch that raises propagates; non-empty sources are never lost |
| Handler.CachedSourcesReused | lambda/handler.py:156-175 | repeating the company and role of the previous intel turn reuses its non-empty sources without fetching, so the fetch cannot fail the turn |
| Handler.GeneralAnswer | lambda/handler.py:48-61 | the general answer is never empty; it is the stripped model text, or the friendly fallback when the call fails, the reply is not an object or its content is not a list |
| Handler.JoinChunksAppend | lambda/handler.py:53-58 | the chunks of two runs of blocks are joined in order; the join raises when either run does |
| Handler.JoinChunksOfBlocks | lambda/handler.py:53-58 | for any blocks whose chunks are `texts`, the join is the texts concatenated in order |
| Handler.JoinChunksRaises | lambda/handler.py:53-58 | one text block whose text is not a string makes the join raise |
| Handler.GeneralAnswerOfBlocks | lambda/handler.py:47-60 | for every reply whose content is a list of blocks with chunks `texts`, the answer is their stripped concatenation, or the fallback when that is empty |
| Handler.GeneralAnswerRaises | lambda/handler.py:53-61 | a reply with a text block whose text is not a string gets the fallback |
| Handler.IntelReply | lambda/handler.py:147-209 | a non-string company or role, a raising fetch or a raising synthesis gives 500, and with services that do not raise it is answered; an answer carries the intent, the synthesized answer and sources, and appends the assistant turn and the state message of the resolved company and role with the sources used |
| Handler.IntelReplyCarriesState | lambda/handler.py:184-194 | on the next turn an answered intel reply's history comes back without its state message, and the state is the resolved company and role with the sources used |
| Handler.RepeatedProfileReusesSources | lambda/handler.py:150-175 | a following turn with the same company and role reuses the non-empty sources of an answered intel turn without fetching |
| Handler.Respond | lambda/handler.py:76-177 | the reply history starts with the non-state messages and the user turn; intent detection that raises gives 500; a concept question is answered as general chat with no sources and the intel flag False; a turn without the intel flag gets the general answer with no sources, and one with it the intel reply |
| Handler.Handle | lambda/handler.py:64-209 | the status is 200, 400 or 500; validation errors are returned as they are; no old state message reaches the reply history |
| Frontend.UiEntryLookups | app.py:124 | the display entry keeps the role and content and has no other key |
| Frontend.StripSystemMessages | app.py:115-125 | never more messages than given; every one a user or assistant turn with truthy content, reduced to exactly role and content |
| Frontend.StripSystemMessagesOne | app.py:119-125 | one message is kept in its display form when shown and dropped otherwise |
| Frontend.StripSystemMessagesAppend | app.py:118-125 | stripping two runs of messages strips each and keeps them in order, so shown messages keep their relative order |
| Frontend.StripSystemMessagesMembers | app.py:119-125 | every shown input turn appears in its display form, and every output is the display form of a shown input turn |
| Frontend.UiEntryFixed | app.py:124 | a display entry is its own display form |
| Frontend.StripSystemMessagesIdempotent | app.py:119-125 | filtering the filtered messages changes nothing |
| Frontend.SystemMessagesHidden | app.py:123 | system messages, such as the agent state, are never shown |
| Frontend.Unwrap | app.py:47-56 | only a dict with a "body" key and at most three keys is unwrapped: a string body is decoded (an undecodable one is the JSON error), an object body is taken as it is, a body of another type leaves the envelope as it was |
| Frontend.UnwrapEnvelope | app.py:47-56 | an object wrapped as an encoded string body or as a direct body unwraps to that object |
| Frontend.NormalizeLambdaPayload | app.py:37-65 | it succeeds exactly when the unwrapped value is an object with an "answer", and then gives that object; a non-object gives the object error, a missing answer the answer error, an undecodable body the JSON error |
| Frontend.NormalizesHandlerReply | app.py:47-65 | the handler's answered reply in its HTTP envelope unwraps to exactly the handler's response object |
| Frontend.RejectsHandlerError | app.py:58-63 | the handler's error reply is rejected for lacking an answer |
| Frontend.Escape | app.py:33 | escaped text contains no <, >, " or ' |
| Frontend.ReplaceNewlines | app.py:34 | the output contains no newline |
| Frontend.MdToHtml | app.py:27-34 | None and "" give ""; the HTML contains no newline |
| Frontend.MdToHtmlRoundTrip | app.py:33-34 | decoding the HTML (line breaks and entities) gives back the original text, so no information is lost |

## Left out

- Network and services: Tavily search, the URL fetch and the Bedrock calls are inputs. So are the Lambda call in `call_backend` and the HTTP response metadata. Timeouts and `raise_for_status` appear only as a failed outcome.
- Concurrency: the thread pool is a sequential fold over an arbitrary permutation of the per-candidate results.
- Third-party extractors and parsers are inputs: trafilatura, BeautifulSoup, PyPDF2 page texts and `urlparse`.
- `_guess_company_role`, `_clean_company`, `_clean_role` and the company/role regexes are the `guess` input; regex semantics are out of scope.
- Intents.SearchIn: the "in N hours/days/weeks" patterns are scanned, after ASCII lowercasing, for "in", whitespace (`\s`, which matches what `str.isspace` accepts), ASCII digits and the unit word. Non-ASCII decimal digits, which `\d` and `int` accept, are not modelled. Nor are the non-ASCII case-insensitive matches of `re.IGNORECASE`, such as the Kelvin sign for "k" or the long s for "s".
- Text.Lower: `lower`/`upper` are ASCII-only; other scripts are left unchanged.
- Text.IsPrintable: `isprintable` is approximated as a space, or a character that is neither whitespace nor a C0/C1 control. Python also rejects format, private-use and unassigned characters.
- JSON encoding and decoding are inputs. Round trips assume `loads(dumps(v)) == Some(v)` for the value involved. `repr` does not escape quotes inside strings.
- Floats: values have no float variant. `_coerce_hours`' `int(float(...))` and `_coerce_int` are modelled on integers, bools and integer literals only. `int()`'s underscores are not modelled.
- Intents.CoerceHours: a float value, or a float literal such as "2.5" or "1e3" that Python truncates, gives the default in the model. An integer or integer literal of magnitude at least 2^1024 - 2^970 makes `int(float(...))` raise `OverflowError`; the model clamps such a value instead. The infinite and out-of-range float literals "inf", "infinity", "-inf" and "1e999" are accepted by `float()`, after which `int()` raises `OverflowError` ("nan" raises `ValueError` instead, which is caught and gives the default, as in the model). `_coerce_hours` does not catch `OverflowError` in either case, so `extract_intent` falls back to its heuristic intent; the model parses no such literal and gives the default hours.
- Intents.ExtractIntent: for the same reason, a model reply whose `time_to_interview_hours` is an infinite or out-of-range float literal, or an integer too large for a float, such as `{"company":"Acme","time_to_interview_hours":"inf"}`, makes the source fall back to the heuristic intent, whose company is whatever the regex guesser finds in the query rather than "Acme". The model keeps the reply's company with the default hours, so its "non-blank company from the model is kept" does not hold in the source for such replies.
- Intents.Intent: the intent is a typed record, as `_parse_intent_json` and `_fallback_intent` always produce one. The handler works on the raw dict, since it takes intent detection as an input.
- Analysis.SourceDoc: documents have optional string fields. A truthy non-string content, title (or url standing in for it) or source makes `.strip()` raise out of `synthesize_interview_answer`, and the handler reports that as a 500. That path is not modelled here; the handler's `synthesize` input returning `None` stands for it.
- Analysis.FormatHistory: it requires each of the last eight turns to have a string or missing role and a string or falsy content (`Analysis.RecentTurnsTyped`). Earlier turns are never read. Another turn makes `.upper()` or `.strip()` raise out of `synthesize_interview_answer`, and the handler reports that as a 500. That path is not modelled here; the handler's `synthesize` input returning `None` stands for it. `Analysis.Synthesize` asks this only when some source is usable, since otherwise the history is never read.
- Aggregation.SearchItem: the search reply is taken to be well-shaped: an object whose "results" list holds objects with string or missing fields. A reply of another shape, or a truthy non-string url, title or snippet, makes `fetch_interview_sources` raise. The handler reports that as a 500, and its `fetchSources` input returning `None` stands for it.
- Analysis.Synthesize: the prompt text, the system prompt and the model parameters are not modelled. The model call receives the prompt's fields and returns the decoded response or `None`. The exception text of the 500 reply is not modelled.
- Handler.Handle: the handler's Python equality between values is modelled as structural equality. `1 == True` is therefore not identified.
- Logging, Streamlit rendering, CSS and the UI script code of `app.py` (`render_sources_block`, session state, chat widgets) are out of scope.

=== FILE: aggregation.dfy ===
/**
 * The source aggregator `fetch_interview_sources`: clamp the source cap, plan
 * five search queries, collect de-duplicated candidates until the cap is
 * reached, fetch every candidate, and accept usable results in completion
 * order with dense ids `S1..Sk`.
 *
 * The search API, URL parsing and the per-URL fetches are inputs (`World`).
 * The thread pool is modelled by its only observable effect: results arrive
 * in some order, given as a permutation of the candidates' indices.
 */
module Aggregation {
  import opened Wrappers
  import opened Text
  import opened Cleaning
  import opened Fetching

  /** Upper bound of the caller-supplied source cap. */
  const MaxSourcesLimit: nat := 3

  /** One entry of the search API's `results`; `None` for a missing or null field. */
  datatype SearchItem = SearchItem(
    url: Option<string>,
    title: Option<string>,
    snippet: Option<string>,
    content: Option<string>,
    answer: Option<string>,
    rawContent: Option<string>)

  /** How a pooled fetch ended: with the fetcher's outcome, or with an exception. */
  datatype WorkerResult = Finished(http: HttpOutcome) | Crashed

  /**
   * The outside world of one retrieval call: whether the search credential is
   * configured, the search API (query and requested result count to the
   * results, `None` on a network or decode failure), `urlparse(url).netloc`
   * (`None` when parsing raises), and the live fetch of each URL.
   */
  datatype World = World(
    apiKeyPresent: bool,
    search: (string, nat) -> Option<seq<SearchItem>>,
    netloc: string -> Option<string>,
    fetch: string -> WorkerResult)

  /** An accepted source, as returned to the caller. */
  datatype EnrichedSource = EnrichedSource(
    id: string,
    url: string,
    title: string,
    source: string,
    snippet: string,
    content: string)

  /** The candidates collected so far and the queries sent to the search API. */
  datatype Collection = Collection(candidates: seq<Candidate>, issued: seq<string>)

  /** Python's `value or fallback` for an optional string. */
  function PyOr(value: Option<string>, fallback: string): string {
    if value.Some? && value.value != "" then value.value else fallback
  }

  // ---------------------------------------------------------------------
  // the cap

  /** `max(1, min(max_sources or 1, 3))`, with `None` for a missing cap. */
  function ClampMaxSources(maxSources: Option<int>): (r: nat)
    ensures 1 <= r <= MaxSourcesLimit
    ensures maxSources.Some? && 1 <= maxSources.value <= MaxSourcesLimit ==> r == maxSources.value
    ensures maxSources.Some? && maxSources.value > MaxSourcesLimit ==> r == MaxSourcesLimit
    ensures maxSources.None? || maxSources.value < 1 ==> r == 1
  {
    var n := if maxSources.None? || maxSources.value == 0 then 1 else maxSources.value;
    var m := if n < MaxSourcesLimit then n else MaxSourcesLimit;
    if m < 1 then 1 else m
  }

  /** The request handler asks for five sources and gets at most three. */
  lemma HandlerCapIsClamped()
    ensures ClampMaxSources(Some(5)) == 3
  {
  }

  // ---------------------------------------------------------------------
  // query plan

  /** The five search queries, highest signal first. */
  function Queries(company: string, role: string): seq<string> {
    [ Strip(company + " " + role + " interview experience"),
      Strip(company + " " + role + " interview process"),
      Strip("glassdoor " + company + " interview questions"),
      Strip("reddit " + company + " interview questions"),
      Strip("interview tips for " + company) ]
  }

  /** A name occurring in a raw query survives the query's strip. */
  lemma QueryMentions(q: string, x: string, k: nat)
    requires OccursAt(q, x, k)
    requires x != [] && !IsSpace(x[0]) && !IsSpace(x[|x| - 1])
    ensures Contains(Strip(q), x)
  {
    StripKeepsOccurrence(q, x, k);
    OccursContains(Strip(q), x, k - StripOffset(q));
  }

  /** Every query names the company when one is given. */
  lemma QueriesMentionCompany(company: string, role: string)
    requires Strip(company) == company && company != ""
    ensures forall i :: 0 <= i < 5 ==> Contains(Queries(company, role)[i], company)
  {
    StripShape(company);
    LeadQueriesMentionCompany(company, role);
    SiteQueriesMentionCompany(company);
  }

  /** The experience and process queries start with the company. */
  lemma LeadQueriesMentionCompany(company: string, role: string)
    requires company != [] && !IsSpace(company[0]) && !IsSpace(company[|company| - 1])
    ensures Contains(Strip(company + " " + role + " interview experience"), company)
    ensures Contains(Strip(company + " " + role + " interview process"), company)
  {
    LeadOccurs(company, " ", role, " interview experience");
    QueryMentions(company + " " + role + " interview experience", company, 0);
    LeadOccurs(company, " ", role, " interview process");
    QueryMentions(company + " " + role + " interview process", company, 0);
  }

  /** The three site and tips queries name the company. */
  lemma SiteQueriesMentionCompany(company: string)
    requires company != [] && !IsSpace(company[0]) && !IsSpace(company[|company| - 1])
    ensures Contains(Strip("glassdoor " + company + " interview questions"), company)
    ensures Contains(Strip("reddit " + company + " interview questions"), company)
    ensures Contains(Strip("interview tips for " + company), company)
  {
    MentionsMiddle("glassdoor ", company, " interview questions");
    MentionsMiddle("reddit ", company, " interview questions");
    TrailOccurs("interview tips for ", company);
    QueryMentions("interview tips for " + company, company, |"interview tips for "|);
  }

  /** A name between two texts survives the strip of the whole. */
  lemma MentionsMiddle(pre: string, x: string, post: string)
    requires x != [] && !IsSpace(x[0]) && !IsSpace(x[|x| - 1])
    ensures Contains(Strip(pre + x + post), x)
  {
    MiddleOccurs(pre, x, post);
    QueryMentions(pre + x + post, x, |pre|);
  }

  lemma MiddleOccurs(pre: string, x: string, post: string)
    ensures OccursAt(pre + x + post, x, |pre|)
  {
    assert (pre + x + post)[|pre|..|pre| + |x|] == x;
  }

  lemma LeadOccurs(x: string, a: string, b: string, c: string)
    ensures OccursAt(x + a + b + c, x, 0)
  {
    assert (x + a + b + c)[..|x|] == x;
  }

  lemma TrailOccurs(pre: string, x: string)
    ensures OccursAt(pre + x, x, |pre|)
  {
    assert (pre + x)[|pre|..] == x;
  }

  /** The first two queries name the role when one is given. */
  lemma QueriesMentionRole(company: string, role: string)
    requires Strip(role) == role && role != ""
    ensures Contains(Queries(company, role)[0], role) && Contains(Queries(company, role)[1], role)
  {
    StripShape(role);
    MentionsMiddle(company + " ", role, " interview experience");
    MentionsMiddle(company + " ", role, " interview process");
  }

  // ---------------------------------------------------------------------
  // candidate collection

  /** Candidate URLs are present, stripped and pairwise distinct. */
  predicate WellFormed(cs: seq<Candidate>) {
    && (forall i :: 0 <= i < |cs| ==> cs[i].url != "" && Strip(cs[i].url) == cs[i].url)
    && (forall i, j :: 0 <= i < j < |cs| ==> cs[i].url != cs[j].url)
  }

  function UrlsOf(cs: seq<Candidate>): set<string> {
    set i | 0 <= i < |cs| :: cs[i].url
  }

  /** The candidate built from a search result whose stripped URL is `url`. */
  function MakeCandidate(item: SearchItem, url: string, company: string, role: string, world: World): Candidate {
    var fallbackTitle := PyOr(Some(Strip(company + " " + role)), "Interview source");
    var title := Strip(PyOr(item.title, PyOr(Some(url), fallbackTitle)));
    var snippet := Strip(PyOr(item.snippet, PyOr(item.content, PyOr(item.answer, PyOr(Some(title), "")))));
    Candidate(
      url,
      title,
      snippet,
      DeriveSource(world.netloc(url)),
      PyOr(item.rawContent, ""),
      PyOr(item.content, ""))
  }

  /**
   * The title of a candidate is its result's stripped title, or its URL when
   * the result has no title: the synthesized fallback title is never used.
   */
  lemma CandidateTitle(item: SearchItem, url: string, company: string, role: string, world: World)
    requires url != "" && Strip(url) == url
    ensures item.title.None? || item.title.value == "" ==>
              MakeCandidate(item, url, company, role, world).title == url
    ensures item.title.Some? && item.title.value != "" ==>
              MakeCandidate(item, url, company, role, world).title == Strip(item.title.value)
  {
  }

  /** A whitespace-only title is truthy, so it is kept and strips to "". */
  lemma BlankTitleGivesEmptyTitle(url: string, company: string, role: string, world: World)
    requires url != "" && Strip(url) == url
    ensures MakeCandidate(SearchItem(Some(url), Some("  "), None, None, None, None), url, company, role, world).title == ""
  {
    assert IsSpace(' ');
  }

  /** The stripped URL of a search result, "" when it has none. */
  function ItemUrl(item: SearchItem): string {
    Strip(PyOr(item.url, ""))
  }

  /**
   * The reference for the inner loop without its cap: in order, one
   * candidate for each result whose stripped URL is non-empty and neither in
   * `seen` nor the URL of an earlier such result.
   */
  function Fresh(items: seq<SearchItem>, seen: set<string>, company: string, role: string, world: World): seq<Candidate>
    decreases |items|
  {
    if items == [] then []
    else
      var url := ItemUrl(items[0]);
      if url == "" || url in seen then Fresh(items[1..], seen, company, role, world)
      else [MakeCandidate(items[0], url, company, role, world)] + Fresh(items[1..], seen + {url}, company, role, world)
  }

  /** `c` is the candidate built from one of `items`. */
  predicate BuiltFrom(c: Candidate, items: seq<SearchItem>, company: string, role: string, world: World) {
    exists j :: 0 <= j < |items| && c == MakeCandidate(items[j], ItemUrl(items[j]), company, role, world)
  }

  /** A candidate built from a later result is built from one of the results. */
  lemma BuiltFromTail(c: Candidate, items: seq<SearchItem>, company: string, role: string, world: World)
    requires items != [] && BuiltFrom(c, items[1..], company, role, world)
    ensures BuiltFrom(c, items, company, role, world)
  {
    var j :| 0 <= j < |items[1..]| && c == MakeCandidate(items[1..][j], ItemUrl(items[1..][j]), company, role, world);
    assert items[j + 1] == items[1..][j];
  }

  /** Every fresh candidate is built from one of the results, and its URL was not seen. */
  lemma {:induction false} FreshFromItems(items: seq<SearchItem>, seen: set<string>, company: string, role: string, world: World)
    ensures forall i :: 0 <= i < |Fresh(items, seen, company, role, world)| ==>
              && Fresh(items, seen, company, role, world)[i].url !in seen
              && BuiltFrom(Fresh(items, seen, company, role, world)[i], items, company, role, world)
    decreases |items|
  {
    if items != [] {
      var url := ItemUrl(items[0]);
      var tail := items[1..];
      var f := Fresh(items, seen, company, role, world);
      if url == "" || url in seen {
        FreshFromItems(tail, seen, company, role, world);
        assert f == Fresh(tail, seen, company, role, world);
        forall i | 0 <= i < |f|
          ensures BuiltFrom(f[i], items, company, role, world)
        {
          BuiltFromTail(f[i], items, company, role, world);
        }
      } else {
        var c := MakeCandidate(items[0], url, company, role, world);
        var rest := Fresh(tail, seen + {url}, company, role, world);
        FreshFromItems(tail, seen + {url}, company, role, world);
        assert f == [c] + rest;
        forall i | 0 <= i < |f|
          ensures f[i].url !in seen && BuiltFrom(f[i], items, company, role, world)
        {
          if i > 0 {
            assert f[i] == rest[i - 1];
            BuiltFromTail(f[i], items, company, role, world);
          } else {
            assert f[0] == MakeCandidate(items[0], ItemUrl(items[0]), company, role, world);
          }
        }
      }
    }
  }

  /** Every result with a non-empty URL was either seen or yields a fresh candidate with that URL. */
  lemma {:induction false} FreshCoversItems(items: seq<SearchItem>, seen: set<string>, company: string, role: string, world: World)
    ensures forall j :: 0 <= j < |items| && ItemUrl(items[j]) != "" ==>
              ItemUrl(items[j]) in seen + UrlsOf(Fresh(items, seen, company, role, world))
    decreases |items|
  {
    if items != [] {
      var url := ItemUrl(items[0]);
      var tail := items[1..];
      var f := Fresh(items, seen, company, role, world);
      if url == "" || url in seen {
        FreshCoversItems(tail, seen, company, role, world);
        forall j | 0 < j < |items|
          ensures items[j] == tail[j - 1]
        {
        }
      } else {
        var rest := Fresh(tail, seen + {url}, company, role, world);
        FreshCoversItems(tail, seen + {url}, company, role, world);
        assert f == [MakeCandidate(items[0], url, company, role, world)] + rest;
        assert UrlsOf(f) == {url} + UrlsOf(rest) by {
          UrlsOfCons(MakeCandidate(items[0], url, company, role, world), rest);
        }
        forall j | 0 < j < |items|
          ensures items[j] == tail[j - 1]
        {
        }
      }
    }
  }

  /** The URLs of a list with a head are the head's URL and those of the rest. */
  lemma UrlsOfCons(c: Candidate, cs: seq<Candidate>)
    ensures UrlsOf([c] + cs) == {c.url} + UrlsOf(cs)
  {
    var l := [c] + cs;
    forall u | u in UrlsOf(l)
      ensures u in {c.url} + UrlsOf(cs)
    {
      var i :| 0 <= i < |l| && l[i].url == u;
      if i > 0 {
        assert l[i] == cs[i - 1];
      }
    }
    forall u | u in UrlsOf(cs)
      ensures u in UrlsOf(l)
    {
      var i :| 0 <= i < |cs| && cs[i].url == u;
      assert l[i + 1] == cs[i];
    }
    assert l[0] == c;
  }

  /** The URLs of a list with a last element are those of the list and the last one's. */
  lemma UrlsOfSnoc(cs: seq<Candidate>, c: Candidate)
    ensures UrlsOf(cs + [c]) == UrlsOf(cs) + {c.url}
  {
    var l := cs + [c];
    forall u | u in UrlsOf(l)
      ensures u in UrlsOf(cs) + {c.url}
    {
      var i :| 0 <= i < |l| && l[i].url == u;
      if i < |cs| {
        assert l[i] == cs[i];
      }
    }
    forall u | u in UrlsOf(cs)
      ensures u in UrlsOf(l)
    {
      var i :| 0 <= i < |cs| && cs[i].url == u;
      assert l[i] == cs[i];
    }
    assert l[|cs|] == c;
  }

  /** The inner loop over one query's results. */
  function CollectItems(items: seq<SearchItem>, cap: nat, company: string, role: string,
                        world: World, cands: seq<Candidate>): (r: seq<Candidate>)
    requires |cands| <= cap && WellFormed(cands)
    ensures |cands| <= |r| <= cap && r[..|cands|] == cands
    ensures WellFormed(r)
    ensures |cands| == cap ==> r == cands
    decreases |items|
  {
    if items == [] || |cands| >= cap then cands
    else
      var url := ItemUrl(items[0]);
      if url == "" || url in UrlsOf(cands) then
        CollectItems(items[1..], cap, company, role, world, cands)
      else
        var next := cands + [MakeCandidate(items[0], url, company, role, world)];
        WellFormedSnoc(cands, items[0], company, role, world);
        assert next[..|cands|] == cands;
        CollectItems(items[1..], cap, company, role, world, next)
  }

  /** A candidate with a fresh, non-empty URL extends well-formed candidates. */
  lemma WellFormedSnoc(cands: seq<Candidate>, item: SearchItem, company: string, role: string, world: World)
    requires WellFormed(cands) && ItemUrl(item) != "" && ItemUrl(item) !in UrlsOf(cands)
    ensures WellFormed(cands + [MakeCandidate(item, ItemUrl(item), company, role, world)])
  {
    StripIdempotent(PyOr(item.url, ""));
    var next := cands + [MakeCandidate(item, ItemUrl(item), company, role, world)];
    forall i | 0 <= i < |cands|
      ensures next[i].url != next[|cands|].url
    {
      assert next[i] == cands[i];
    }
  }

  /**
   * The inner loop equals its reference: after the candidates already held,
   * the first `cap - |cands|` fresh candidates of `items`.
   */
  lemma {:induction false} CollectItemsIsFreshTake(items: seq<SearchItem>, cap: nat, company: string, role: string,
                                                   world: World, cands: seq<Candidate>)
    requires |cands| <= cap && WellFormed(cands)
    ensures CollectItems(items, cap, company, role, world, cands)
              == cands + Take(Fresh(items, UrlsOf(cands), company, role, world), cap - |cands|)
    decreases |items|
  {
    if items == [] || |cands| >= cap {
      assert cands + [] == cands;
    } else {
      var url := ItemUrl(items[0]);
      if url == "" || url in UrlsOf(cands) {
        CollectItemsIsFreshTake(items[1..], cap, company, role, world, cands);
      } else {
        var c := MakeCandidate(items[0], url, company, role, world);
        var next := cands + [c];
        WellFormedSnoc(cands, items[0], company, role, world);
        assert CollectItems(items, cap, company, role, world, cands) == CollectItems(items[1..], cap, company, role, world, next);
        CollectItemsIsFreshTake(items[1..], cap, company, role, world, next);
        FreshTakeCons(items, cap, company, role, world, cands);
      }
    }
  }

  /** Taking a result with a fresh URL moves its candidate from the reference to the held candidates. */
  lemma FreshTakeCons(items: seq<SearchItem>, cap: nat, company: string, role: string, world: World, cands: seq<Candidate>)
    requires items != [] && |cands| < cap
    requires ItemUrl(items[0]) != "" && ItemUrl(items[0]) !in UrlsOf(cands)
    ensures var c := MakeCandidate(items[0], ItemUrl(items[0]), company, role, world);
      (cands + [c]) + Take(Fresh(items[1..], UrlsOf(cands + [c]), company, role, world), cap - |cands| - 1)
        == cands + Take(Fresh(items, UrlsOf(cands), company, role, world), cap - |cands|)
  {
    var url := ItemUrl(items[0]);
    var c := MakeCandidate(items[0], url, company, role, world);
    UrlsOfSnoc(cands, c);
    var tail := Fresh(items[1..], UrlsOf(cands + [c]), company, role, world);
    assert Fresh(items, UrlsOf(cands), company, role, world) == [c] + tail;
    TakeCons(c, tail, cap - |cands|);
    AppendAssoc(cands, [c], Take(tail, cap - |cands| - 1));
  }

  /**
   * The candidates after one query: the first fresh candidates of its
   * results up to the cap; a failed query adds nothing.
   */
  function SearchStep(query: string, cap: nat, company: string, role: string,
                      world: World, cands: seq<Candidate>): (r: seq<Candidate>)
    requires |cands| <= cap && WellFormed(cands)
    ensures |cands| <= |r| <= cap && r[..|cands|] == cands && WellFormed(r)
    ensures world.search(query, cap).None? ==> r == cands
    ensures world.search(query, cap).Some? ==>
              r == cands + Take(Fresh(world.search(query, cap).value, UrlsOf(cands), company, role, world), cap - |cands|)
  {
    match world.search(query, cap)
    case None => cands
    case Some(items) =>
      CollectItemsIsFreshTake(items, cap, company, role, world, cands);
      CollectItems(items, cap, company, role, world, cands)
  }

  /** The reference for the outer loop: every query of `queries` sent in turn, with no stopping rule. */
  function RunAll(queries: seq<string>, cap: nat, company: string, role: string,
                  world: World, cands: seq<Candidate>): (r: seq<Candidate>)
    requires |cands| <= cap && WellFormed(cands)
    ensures |cands| <= |r| <= cap && WellFormed(r)
    decreases |queries|
  {
    if queries == [] then cands
    else RunAll(queries[1..], cap, company, role, world, SearchStep(queries[0], cap, company, role, world, cands))
  }

  /**
   * The outer loop over the query plan: a query is sent only while fewer
   * than `cap` candidates are held; a failed query is skipped. The issued
   * queries are a prefix of the plan, their candidates are those of sending
   * that prefix, the last one was sent below the cap, and the plan is cut
   * short only at the cap.
   */
  function CollectQueries(queries: seq<string>, cap: nat, company: string, role: string,
                          world: World, acc: Collection): (r: Collection)
    requires |acc.candidates| <= cap && WellFormed(acc.candidates)
    ensures |acc.candidates| <= |r.candidates| <= cap && WellFormed(r.candidates)
    ensures r.candidates[..|acc.candidates|] == acc.candidates
    ensures |acc.issued| <= |r.issued| <= |acc.issued| + |queries|
    ensures r.issued == acc.issued + queries[..|r.issued| - |acc.issued|]
    ensures |r.issued| - |acc.issued| < |queries| ==> |r.candidates| == cap
    ensures |acc.candidates| == cap ==> r == acc
    decreases |queries|
  {
    if queries == [] || |acc.candidates| >= cap then acc
    else
      var next := Collection(
        SearchStep(queries[0], cap, company, role, world, acc.candidates),
        acc.issued + [queries[0]]);
      var r := CollectQueries(queries[1..], cap, company, role, world, next);
      IssuedPrefix(queries, acc.issued, r.issued);
      assert r.candidates[..|acc.candidates|] == next.candidates[..|acc.candidates|];
      r
  }

  /**
   * The outer loop against its reference: the candidates are those of
   * sending the issued prefix of the plan, and the last issued query was
   * sent while fewer than `cap` candidates were held, so no query follows
   * the one that reached the cap.
   */
  lemma {:induction false} CollectQueriesIsRun(queries: seq<string>, cap: nat, company: string, role: string,
                                               world: World, acc: Collection)
    requires |acc.candidates| <= cap && WellFormed(acc.candidates)
    ensures var r := CollectQueries(queries, cap, company, role, world, acc);
      var n := |r.issued| - |acc.issued|;
      && r.candidates == RunAll(queries[..n], cap, company, role, world, acc.candidates)
      && (n > 0 ==> |RunAll(queries[..n - 1], cap, company, role, world, acc.candidates)| < cap)
    decreases |queries|
  {
    if queries == [] || |acc.candidates| >= cap {
      assert queries[..0] == [];
    } else {
      var next := Collection(
        SearchStep(queries[0], cap, company, role, world, acc.candidates),
        acc.issued + [queries[0]]);
      CollectQueriesIsRun(queries[1..], cap, company, role, world, next);
      var r := CollectQueries(queries, cap, company, role, world, acc);
      assert r == CollectQueries(queries[1..], cap, company, role, world, next);
      var n := |r.issued| - |acc.issued|;
      assert n == |r.issued| - |next.issued| + 1;
      RunAllStep(queries, n, cap, company, role, world, acc.candidates);
    }
  }

  /** Sending the first `n` queries is sending the first, then the next `n - 1`. */
  lemma RunAllStep(queries: seq<string>, n: nat, cap: nat, company: string, role: string,
                   world: World, cands: seq<Candidate>)
    requires 0 < n <= |queries| && |cands| <= cap && WellFormed(cands)
    ensures var next := SearchStep(queries[0], cap, company, role, world, cands);
      && RunAll(queries[..n], cap, company, role, world, cands) == RunAll(queries[1..][..n - 1], cap, company, role, world, next)
      && (n > 1 ==> RunAll(queries[..n - 1], cap, company, role, world, cands)
                      == RunAll(queries[1..][..n - 2], cap, company, role, world, next))
      && (n == 1 ==> RunAll(queries[..n - 1], cap, company, role, world, cands) == cands)
  {
    assert queries[..n][0] == queries[0] && queries[..n][1..] == queries[1..][..n - 1];
    if n > 1 {
      assert queries[..n - 1][0] == queries[0] && queries[..n - 1][1..] == queries[1..][..n - 2];
    } else {
      assert queries[..n - 1] == [];
    }
  }

  /** Issuing the head of the plan and then a prefix of its tail issues a prefix of the plan. */
  lemma IssuedPrefix(queries: seq<string>, before: seq<string>, after: seq<string>)
    requires queries != []
    requires |before| + 1 <= |after| <= |before| + 1 + |queries[1..]|
    requires after == (before + [queries[0]]) + queries[1..][..|after| - |before| - 1]
    ensures after == before + queries[..|after| - |before|]
  {
    assert queries[..|after| - |before|] == [queries[0]] + queries[1..][..|after| - |before| - 1];
  }

  /** Candidate collection of one call, after the credential check. */
  function Candidates(world: World, company: Option<string>, role: Option<string>,
                      maxSources: Option<int>): (r: Collection)
    ensures |r.candidates| <= ClampMaxSources(maxSources) && WellFormed(r.candidates)
    ensures Strip(company.GetOr("")) == "" && Strip(role.GetOr("")) == "" ==> r == Collection([], [])
    ensures |r.issued| <= 5
  {
    var cap := ClampMaxSources(maxSources);
    var c := Strip(company.GetOr(""));
    var ro := Strip(role.GetOr(""));
    if c == "" && ro == "" then Collection([], [])
    else CollectQueries(Queries(c, ro), cap, c, ro, world, Collection([], []))
  }

  /**
   * The candidates of a call are those of sending, in order, the queries it
   * issued, each adding the first fresh candidates of its results.
   */
  lemma CandidatesAreRun(world: World, company: Option<string>, role: Option<string>, maxSources: Option<int>)
    ensures var r := Candidates(world, company, role, maxSources);
      var c, ro := Strip(company.GetOr("")), Strip(role.GetOr(""));
      c != "" || ro != "" ==>
        r.candidates == RunAll(Queries(c, ro)[..|r.issued|], ClampMaxSources(maxSources), c, ro, world, [])
  {
    var c, ro := Strip(company.GetOr("")), Strip(role.GetOr(""));
    if c != "" || ro != "" {
      CollectQueriesIsRun(Queries(c, ro), ClampMaxSources(maxSources), c, ro, world, Collection([], []));
    }
  }

  /**
   * Queries go out in plan order; the plan is cut short only once the cap is
   * reached, no query is sent once it is reached, and nothing is sent when
   * company and role are both blank.
   */
  lemma QueryIssuing(world: World, company: Option<string>, role: Option<string>, maxSources: Option<int>)
    ensures var r := Candidates(world, company, role, maxSources);
      var c, ro := Strip(company.GetOr("")), Strip(role.GetOr(""));
      && (c == "" && ro == "" ==> r.issued == [] && r.candidates == [])
      && (c != "" || ro != "" ==>
            && 1 <= |r.issued| <= 5
            && r.issued == Queries(c, ro)[..|r.issued|]
            && (|r.issued| < 5 ==> |r.candidates| == ClampMaxSources(maxSources))
            && |RunAll(Queries(c, ro)[..|r.issued| - 1], ClampMaxSources(maxSources), c, ro, world, [])|
                 < ClampMaxSources(maxSources))
  {
    var c, ro := Strip(company.GetOr("")), Strip(role.GetOr(""));
    if c != "" || ro != "" {
      CollectQueriesIsRun(Queries(c, ro), ClampMaxSources(maxSources), c, ro, world, Collection([], []));
    }
  }

  // ---------------------------------------------------------------------
  // acceptance

  /** The id of the `n`-th accepted source. */
  function SourceId(n: nat): string {
    "S" + NatToString(n)
  }

  /** What one pooled fetch contributes: its content, or "" when it crashed. */
  function WorkerContent(c: Candidate, world: World): (r: string)
    ensures r == "" || MinContentChars <= |r| <= MaxContentChars
  {
    match world.fetch(c.url)
    case Crashed => ""
    case Finished(http) => FetchUrlContent(c, http)
  }

  /** `order` lists each of `0..n-1` exactly once. */
  predicate IsPermutation(order: seq<nat>, n: nat) {
    && |order| == n
    && (forall i :: 0 <= i < |order| ==> order[i] < n)
    && (forall i, j :: 0 <= i < j < |order| ==> order[i] != order[j])
  }

  /** The fetch results, in completion order. */
  function Completed(cands: seq<Candidate>, order: seq<nat>, world: World): (r: seq<(Candidate, string)>)
    requires IsPermutation(order, |cands|)
    ensures |r| == |cands|
    ensures forall i :: 0 <= i < |r| ==> r[i] == (cands[order[i]], WorkerContent(cands[order[i]], world))
  {
    seq(|order|, i requires 0 <= i < |order| =>
      (cands[order[i]], WorkerContent(cands[order[i]], world)))
  }

  /** The accepted record for a completed fetch. */
  function Enrich(c: Candidate, content: string, id: string): EnrichedSource {
    EnrichedSource(id, c.url, c.title, c.source, c.snippet, Take(content, MaxContentChars))
  }

  /**
   * The consumer loop over completed fetches: empty contents are skipped,
   * each accepted result gets the next id, and the loop stops at the cap.
   */
  function Accept(completed: seq<(Candidate, string)>, cap: nat, accepted: seq<EnrichedSource>): seq<EnrichedSource>
    requires |accepted| < cap
    decreases |completed|
  {
    if completed == [] then accepted
    else
      var (c, content) := completed[0];
      if content == "" then Accept(completed[1..], cap, accepted)
      else
        var next := accepted + [Enrich(c, content, SourceId(|accepted| + 1))];
        if |next| >= cap then next else Accept(completed[1..], cap, next)
  }

  /** The completed fetches with usable content, in completion order. */
  function Usable(completed: seq<(Candidate, string)>): (r: seq<(Candidate, string)>)
    ensures |r| <= |completed|
  {
    if completed == [] then []
    else (if completed[0].1 != "" then [completed[0]] else []) + Usable(completed[1..])
  }

  /** Accepted records for `xs`, numbered from `offset + 1`. */
  function Label(xs: seq<(Candidate, string)>, offset: nat): (r: seq<EnrichedSource>)
    ensures |r| == |xs|
  {
    seq(|xs|, i requires 0 <= i < |xs| => Enrich(xs[i].0, xs[i].1, SourceId(offset + i + 1)))
  }

  /** Labelling a non-empty list numbers its head first. */
  lemma LabelCons(x: (Candidate, string), xs: seq<(Candidate, string)>, offset: nat)
    ensures Label([x] + xs, offset) == [Enrich(x.0, x.1, SourceId(offset + 1))] + Label(xs, offset + 1)
  {
    var l, r := Label([x] + xs, offset), [Enrich(x.0, x.1, SourceId(offset + 1))] + Label(xs, offset + 1);
    forall i | 0 <= i < |l|
      ensures l[i] == r[i]
    {
      if i > 0 {
        assert ([x] + xs)[i] == xs[i - 1];
      }
    }
  }

  /**
   * The acceptance loop equals its reference: the first `cap` usable results
   * in completion order, numbered densely after those already accepted.
   */
  lemma {:induction false} AcceptIsFilterTake(completed: seq<(Candidate, string)>, cap: nat, accepted: seq<EnrichedSource>)
    requires |accepted| < cap
    ensures Accept(completed, cap, accepted)
              == accepted + Label(Take(Usable(completed), cap - |accepted|), |accepted|)
    decreases |completed|
  {
    if completed != [] {
      var x := completed[0];
      var rest := Usable(completed[1..]);
      var n := cap - |accepted|;
      if x.1 == "" {
        AcceptIsFilterTake(completed[1..], cap, accepted);
        assert Usable(completed) == rest;
      } else {
        var e := Enrich(x.0, x.1, SourceId(|accepted| + 1));
        var next := accepted + [e];
        var tail := Label(Take(rest, n - 1), |accepted| + 1);
        assert Usable(completed) == [x] + rest;
        TakeCons(x, rest, n);
        LabelCons(x, Take(rest, n - 1), |accepted|);
        assert Label(Take(Usable(completed), n), |accepted|) == [e] + tail;
        if |next| >= cap {
          assert tail == [];
          assert Accept(completed, cap, accepted) == next;
          assert accepted + ([e] + tail) == next;
        } else {
          AcceptIsFilterTake(completed[1..], cap, next);
          assert Accept(completed, cap, accepted) == Accept(completed[1..], cap, next);
          AppendAssoc(accepted, [e], tail);
        }
      }
    }
  }

  /** Every usable result is one of the completed fetches, with non-empty content. */
  lemma {:induction false} UsableMembers(completed: seq<(Candidate, string)>)
    ensures forall x :: x in Usable(completed) ==> x in completed && x.1 != ""
  {
    if completed != [] {
      UsableMembers(completed[1..]);
    }
  }

  /** No two results are for the same URL. */
  predicate DistinctResults(xs: seq<(Candidate, string)>) {
    forall i, j :: 0 <= i < j < |xs| ==> xs[i].0.url != xs[j].0.url
  }

  /** Filtering keeps results in order, so distinct URLs stay distinct. */
  lemma {:induction false} UsableDistinct(completed: seq<(Candidate, string)>)
    requires DistinctResults(completed)
    ensures DistinctResults(Usable(completed))
  {
    if completed != [] {
      var tail := completed[1..];
      UsableDistinct(tail);
      UsableMembers(tail);
      var rest := Usable(tail);
      var u := Usable(completed);
      if completed[0].1 != "" {
        assert u == [completed[0]] + rest;
        forall i, j | 0 <= i < j < |u|
          ensures u[i].0.url != u[j].0.url
        {
          if i == 0 {
            assert u[0] == completed[0];
            assert u[j] == rest[j - 1] && u[j] in rest;
            assert u[j] in tail;
            var k :| 0 <= k < |tail| && tail[k] == u[j];
            assert completed[k + 1] == u[j];
            assert completed[0].0.url != completed[k + 1].0.url;
          } else {
            assert u[i] == rest[i - 1] && u[j] == rest[j - 1];
            assert 0 <= i - 1 < j - 1 < |rest|;
            assert rest[i - 1].0.url != rest[j - 1].0.url;
          }
        }
      } else {
        assert u == rest;
      }
    }
  }

  /**
   * `fetch_interview_sources`.  `order` is the order in which the pooled
   * fetches complete; any order may occur.
   */
  function FetchInterviewSources(world: World, company: Option<string>, role: Option<string>,
                                 maxSources: Option<int>, order: seq<nat>): (r: seq<EnrichedSource>)
    requires world.apiKeyPresent ==>
               IsPermutation(order, |Candidates(world, company, role, maxSources).candidates|)
    ensures !world.apiKeyPresent ==> r == []
    ensures Strip(company.GetOr("")) == "" && Strip(role.GetOr("")) == "" ==> r == []
    ensures |r| <= ClampMaxSources(maxSources)
    ensures forall i :: 0 <= i < |r| ==> r[i].id == SourceId(i + 1)
    ensures forall i :: 0 <= i < |r| ==> MinContentChars <= |r[i].content| <= MaxContentChars
    ensures forall i, j :: 0 <= i < j < |r| ==> r[i].url != r[j].url
    ensures world.apiKeyPresent ==>
              forall i :: 0 <= i < |r| ==> r[i].url in UrlsOf(Candidates(world, company, role, maxSources).candidates)
    ensures world.apiKeyPresent ==>
              r == Label(Take(Usable(Completed(Candidates(world, company, role, maxSources).candidates, order, world)),
                              ClampMaxSources(maxSources)), 0)
  {
    if !world.apiKeyPresent then []
    else
      var cap := ClampMaxSources(maxSources);
      var cands := Candidates(world, company, role, maxSources).candidates;
      if cands == [] then
        assert Completed(cands, order, world) == [];
        []
      else
        AcceptedSources(cands, order, world, cap);
        Accept(Completed(cands, order, world), cap, [])
  }

  /** Usable contents are within the bounds, accepted URLs are distinct candidates' URLs. */
  predicate GoodResults(xs: seq<(Candidate, string)>, urls: set<string>) {
    && (forall i :: 0 <= i < |xs| ==> xs[i].0.url in urls)
    && (forall i :: 0 <= i < |xs| ==> xs[i].1 == "" || MinContentChars <= |xs[i].1| <= MaxContentChars)
    && DistinctResults(xs)
  }

  /** The fetches of well-formed candidates in any completion order give good results. */
  lemma CompletedGood(cands: seq<Candidate>, order: seq<nat>, world: World)
    requires WellFormed(cands) && IsPermutation(order, |cands|)
    ensures GoodResults(Completed(cands, order, world), UrlsOf(cands))
  {
    var done := Completed(cands, order, world);
    forall i, j | 0 <= i < j < |done|
      ensures done[i].0.url != done[j].0.url
    {
      assert order[i] != order[j];
    }
    forall i | 0 <= i < |done|
      ensures done[i].0.url in UrlsOf(cands)
    {
      assert done[i].0 == cands[order[i]];
    }
  }

  /** Filtering good results keeps them good and drops every empty content. */
  lemma UsableGood(xs: seq<(Candidate, string)>, urls: set<string>)
    requires GoodResults(xs, urls)
    ensures GoodResults(Usable(xs), urls)
    ensures forall i :: 0 <= i < |Usable(xs)| ==> Usable(xs)[i].1 != ""
  {
    UsableDistinct(xs);
    UsableMembers(xs);
    var u := Usable(xs);
    forall i | 0 <= i < |u|
      ensures u[i].0.url in urls && u[i].1 != "" && MinContentChars <= |u[i].1| <= MaxContentChars
    {
      assert u[i] in u;
      var k :| 0 <= k < |xs| && xs[k] == u[i];
    }
  }

  /**
   * Accepted sources: at most `cap`, numbered S1..Sk in order, with bounded
   * content and distinct URLs drawn from `urls`.
   */
  predicate GoodSources(r: seq<EnrichedSource>, cap: nat, urls: set<string>) {
    && |r| <= cap
    && (forall i :: 0 <= i < |r| ==> r[i].id == SourceId(i + 1))
    && (forall i :: 0 <= i < |r| ==> MinContentChars <= |r[i].content| <= MaxContentChars)
    && (forall i, j :: 0 <= i < j < |r| ==> r[i].url != r[j].url)
    && (forall i :: 0 <= i < |r| ==> r[i].url in urls)
  }

  /** What labelling the first `cap` usable results yields. */
  lemma LabelGood(u: seq<(Candidate, string)>, urls: set<string>, cap: nat)
    requires GoodResults(u, urls) && forall i :: 0 <= i < |u| ==> u[i].1 != ""
    ensures GoodSources(Label(Take(u, cap), 0), cap, urls)
  {
    var t := Take(u, cap);
    var r := Label(t, 0);
    forall i | 0 <= i < |r|
      ensures r[i].url == u[i].0.url && r[i].content == u[i].1
    {
      assert t[i] == u[i];
    }
  }

  /** What the acceptance loop yields over the fetches of well-formed candidates, in any order. */
  lemma AcceptedShape(cands: seq<Candidate>, order: seq<nat>, world: World, cap: nat)
    requires WellFormed(cands) && IsPermutation(order, |cands|) && cap > 0
    ensures GoodSources(Label(Take(Usable(Completed(cands, order, world)), cap), 0), cap, UrlsOf(cands))
  {
    var done := Completed(cands, order, world);
    CompletedGood(cands, order, world);
    UsableGood(done, UrlsOf(cands));
    LabelGood(Usable(done), UrlsOf(cands), cap);
  }

  /**
   * The sources accepted from well-formed candidates in any completion order
   * are the first `cap` usable results, labelled, and have the good shape.
   */
  lemma AcceptedSources(cands: seq<Candidate>, order: seq<nat>, world: World, cap: nat)
    requires WellFormed(cands) && IsPermutation(order, |cands|) && cap > 0
    ensures var done := Completed(cands, order, world);
      && Accept(done, cap, []) == Label(Take(Usable(done), cap), 0)
      && GoodSources(Accept(done, cap, []), cap, UrlsOf(cands))
  {
    AcceptFromNothing(Completed(cands, order, world), cap);
    AcceptedShape(cands, order, world, cap);
  }

  /** Starting with nothing accepted, the loop yields the first `cap` usable results, labelled from S1. */
  lemma AcceptFromNothing(completed: seq<(Candidate, string)>, cap: nat)
    requires cap > 0
    ensures Accept(completed, cap, []) == Label(Take(Usable(completed), cap), 0)
  {
    AcceptIsFilterTake(completed, cap, []);
    assert [] + Label(Take(Usable(completed), cap), 0) == Label(Take(Usable(completed), cap), 0);
  }
}

=== FILE: analysis.dfy ===
/**
 * The deterministic part of answer synthesis: the bounded formatting of
 * sources into prompt context (`_prepare_sources`), the conversation excerpt
 * (`_format_history`), the time-window tiers, the coercions, the extraction
 * of the model's text (`_collect_text`) and the early exit and fallbacks of
 * `synthesize_interview_answer`.
 *
 * The model call is an input (`invoke`): it receives the fields the prompt is
 * built from and yields the decoded response, or `None` when the call, the
 * body or its decoding fails.
 */
module Analysis {
  import opened Wrappers
  import opened Text
  import opened PyValue
  import opened Intents

  const MaxSources: nat := 3
  const MaxSourceContent: nat := 2500
  const MaxContext: nat := 9000
  const MaxSnippet: nat := 300
  const MaxHistoryTurns: nat := 8
  const MaxTurnChars: nat := 600
  const MaxHistoryChars: nat := 2000

  const DefaultAnswer := "I couldn't gather reliable interview intel right now. Please try again shortly."

  /** A source as handed to synthesis; `None` for a missing or null field. */
  datatype SourceDoc = SourceDoc(
    id: Option<string>,
    title: Option<string>,
    url: Option<string>,
    source: Option<string>,
    snippet: Option<string>,
    content: Option<string>)

  /** A source as listed in the response. */
  datatype FormattedSource = FormattedSource(
    id: string,
    title: string,
    url: Option<string>,
    source: string,
    snippet: string)

  /** A formatted source together with its block of prompt context. */
  datatype Prepared = Prepared(entry: FormattedSource, block: string)

  /** The synthesis result: the answer markdown and the sources it was built from. */
  datatype Response = Response(answer: string, sections: seq<Value>, sources: seq<FormattedSource>)

  /** Everything the synthesis prompt is composed of. */
  datatype Prompt = Prompt(
    company: string,
    role: string,
    hours: int,
    guidance: string,
    history: string,
    context: string,
    query: string)

  /** Python's `value or fallback` for an optional string. */
  function Or(value: Option<string>, fallback: string): string {
    if value.Some? && value.value != "" then value.value else fallback
  }

  // ---------------------------------------------------------------------
  // _prepare_sources

  /** The stripped content of a document; an empty one is skipped. */
  function DocContent(doc: SourceDoc): string {
    Strip(Or(doc.content, ""))
  }

  /** A document contributes a source exactly when its stripped content is non-empty. */
  predicate Usable(doc: SourceDoc) {
    DocContent(doc) != ""
  }

  /** The context block of one source, holding at most 2500 characters of its content. */
  function ContextBlock(id: string, title: string, source: string, url: Option<string>, content: string): (r: string)
    ensures StartsWith(r, BlockHeader(id, title, source, url))
    ensures |r| <= |BlockHeader(id, title, source, url)| + MaxSourceContent + 1
  {
    BlockHeader(id, title, source, url) + Take(content, MaxSourceContent) + "\n"
  }

  function BlockHeader(id: string, title: string, source: string, url: Option<string>): string {
    "[" + id + "] " + title + "\nSource: " + source + "\nURL: " + Or(url, "unknown") + "\nContent:\n"
  }

  /** The formatted entry and context block of a usable document at output position `n` (from 1). */
  function Format(doc: SourceDoc, n: nat): (p: Prepared)
    ensures |p.entry.snippet| <= MaxSnippet
    ensures doc.id.None? || doc.id.value == "" ==> p.entry.id == "S" + NatToString(n)
    ensures doc.id.Some? && doc.id.value != "" ==> p.entry.id == doc.id.value
    ensures p.entry.title == Strip(Or(doc.title, Or(doc.url, "Untitled source")))
    ensures doc.source.None? || doc.source.value == "" ==> p.entry.source == "web"
    ensures p.entry.url == doc.url
  {
    var id := Or(doc.id, "S" + NatToString(n));
    var title := Strip(Or(doc.title, Or(doc.url, "Untitled source")));
    var source := Strip(Or(doc.source, "web"));
    var snippet := Take(Or(doc.snippet, Or(doc.content, "")), MaxSnippet);
    Prepared(
      FormattedSource(id, title, doc.url, source, snippet),
      ContextBlock(id, title, source, doc.url, DocContent(doc)))
  }

  /** The loop of `_prepare_sources`: stop at three, skip empty contents. */
  function PrepareLoop(docs: seq<SourceDoc>, acc: seq<Prepared>): seq<Prepared>
    decreases |docs|
  {
    if docs == [] || |acc| >= MaxSources then acc
    else if !Usable(docs[0]) then PrepareLoop(docs[1..], acc)
    else PrepareLoop(docs[1..], acc + [Format(docs[0], |acc| + 1)])
  }

  /** The usable documents, in input order. */
  function UsableDocs(docs: seq<SourceDoc>): (r: seq<SourceDoc>)
    ensures |r| <= |docs|
    ensures forall i :: 0 <= i < |r| ==> Usable(r[i])
  {
    if docs == [] then []
    else (if Usable(docs[0]) then [docs[0]] else []) + UsableDocs(docs[1..])
  }

  /** The documents `xs` formatted at positions `offset + 1`, `offset + 2`, ... */
  function FormatAll(xs: seq<SourceDoc>, offset: nat): (r: seq<Prepared>)
    ensures |r| == |xs|
    ensures forall i :: 0 <= i < |xs| ==> r[i] == Format(xs[i], offset + i + 1)
  {
    seq(|xs|, i requires 0 <= i < |xs| => Format(xs[i], offset + i + 1))
  }

  /**
   * The loop equals its reference: the first usable documents, in input
   * order, up to three, formatted at their output positions.
   */
  lemma {:induction false} PrepareLoopIsFilterTake(docs: seq<SourceDoc>, acc: seq<Prepared>)
    requires |acc| <= MaxSources
    ensures PrepareLoop(docs, acc) == acc + FormatAll(Take(UsableDocs(docs), MaxSources - |acc|), |acc|)
    decreases |docs|
  {
    if docs == [] {
    } else if |acc| >= MaxSources {
      assert Take(UsableDocs(docs), 0) == [];
    } else if !Usable(docs[0]) {
      PrepareLoopIsFilterTake(docs[1..], acc);
      assert UsableDocs(docs) == UsableDocs(docs[1..]);
    } else {
      var next := acc + [Format(docs[0], |acc| + 1)];
      PrepareLoopIsFilterTake(docs[1..], next);
      PrepareTakeStep(docs, acc);
    }
  }

  /** One accepting step of the loop, given the claim for the rest of the documents. */
  lemma PrepareTakeStep(docs: seq<SourceDoc>, acc: seq<Prepared>)
    requires docs != [] && |acc| < MaxSources && Usable(docs[0])
    requires var next := acc + [Format(docs[0], |acc| + 1)];
      PrepareLoop(docs[1..], next) == next + FormatAll(Take(UsableDocs(docs[1..]), MaxSources - |next|), |next|)
    ensures PrepareLoop(docs, acc) == acc + FormatAll(Take(UsableDocs(docs), MaxSources - |acc|), |acc|)
  {
    var rest := UsableDocs(docs[1..]);
    assert UsableDocs(docs) == [docs[0]] + rest;
    FormatTakeCons(docs[0], rest, acc, MaxSources - |acc|);
  }

  /** Formatting the first `n` of a list formats its head, then the first `n - 1` of its tail. */
  lemma FormatTakeCons(d: SourceDoc, rest: seq<SourceDoc>, acc: seq<Prepared>, n: nat)
    requires n > 0
    ensures acc + FormatAll(Take([d] + rest, n), |acc|)
              == (acc + [Format(d, |acc| + 1)]) + FormatAll(Take(rest, n - 1), |acc| + 1)
  {
    var tail := Take(rest, n - 1);
    TakeCons(d, rest, n);
    FormatAllCons(d, tail, |acc|);
    AppendAssoc(acc, [Format(d, |acc| + 1)], FormatAll(tail, |acc| + 1));
  }

  lemma FormatAllCons(d: SourceDoc, tail: seq<SourceDoc>, offset: nat)
    ensures FormatAll([d] + tail, offset) == [Format(d, offset + 1)] + FormatAll(tail, offset + 1)
  {
    var l, r := FormatAll([d] + tail, offset), [Format(d, offset + 1)] + FormatAll(tail, offset + 1);
    forall i | 0 <= i < |l|
      ensures l[i] == r[i]
    {
      if i > 0 {
        assert ([d] + tail)[i] == tail[i - 1];
      }
    }
  }

  /** The formatted sources and the context string. */
  datatype PreparedSources = PreparedSources(formatted: seq<FormattedSource>, context: string)

  /** `_prepare_sources`. */
  function PrepareSources(docs: seq<SourceDoc>): (r: PreparedSources)
    ensures |r.formatted| <= MaxSources
    ensures |r.context| <= MaxContext
    ensures r.formatted == [] <==> UsableDocs(docs) == []
  {
    var prepared := PrepareLoop(docs, []);
    PrepareLoopIsFilterTake(docs, []);
    PreparedSources(EntriesOf(prepared), ContextOf(prepared))
  }

  /** The source entries of the prepared documents, in order. */
  function EntriesOf(prepared: seq<Prepared>): (r: seq<FormattedSource>)
    ensures |r| == |prepared|
    ensures forall i :: 0 <= i < |r| ==> r[i] == prepared[i].entry
  {
    seq(|prepared|, i requires 0 <= i < |prepared| => prepared[i].entry)
  }

  /** The context: the blocks joined by blank lines, stripped and cut to the budget. */
  function ContextOf(prepared: seq<Prepared>): (r: string)
    ensures |r| <= MaxContext
  {
    var blocks := seq(|prepared|, i requires 0 <= i < |prepared| => prepared[i].block);
    Take(Strip(Join("\n\n", blocks)), MaxContext)
  }

  /**
   * The formatted sources are the first usable documents in input order, each
   * at its output position: empty contents are skipped and take no id.
   */
  lemma PrepareSourcesOrder(docs: seq<SourceDoc>)
    ensures var r := PrepareSources(docs).formatted;
      var u := Take(UsableDocs(docs), MaxSources);
      && |r| == |u|
      && forall i :: 0 <= i < |r| ==> r[i] == Format(u[i], i + 1).entry
  {
    var u := Take(UsableDocs(docs), MaxSources);
    PrepareLoopIsFilterTake(docs, []);
    assert [] + FormatAll(u, 0) == FormatAll(u, 0);
    assert PrepareLoop(docs, []) == FormatAll(u, 0);
    assert PrepareSources(docs).formatted == EntriesOf(FormatAll(u, 0));
    EntriesOfFormatAll(u);
  }

  /** The entries of formatted documents are the documents' entries at their positions. */
  lemma EntriesOfFormatAll(u: seq<SourceDoc>)
    ensures var r := EntriesOf(FormatAll(u, 0));
      && |r| == |u|
      && forall i :: 0 <= i < |r| ==> r[i] == Format(u[i], i + 1).entry
  {
  }

  // ---------------------------------------------------------------------
  // _format_history

  /** The text of a content that is a string or falsy. */
  function TextOf(v: Value): string {
    if v.Str? then v.s else ""
  }

  /** A turn whose role is a string or missing and whose content is a string or falsy. */
  predicate TurnTyped(turn: Entries) {
    && (Lookup(turn, "role").None? || Lookup(turn, "role").value.Str?)
    && (Get(turn, "content", Null).Str? || !Truthy(Get(turn, "content", Null)))
  }

  /**
   * Every turn `_format_history` reads (the last eight) is typed; a turn
   * before those is never looked at.
   */
  predicate RecentTurnsTyped(messages: seq<Entries>) {
    forall i :: 0 <= i < |TakeLast(messages, MaxHistoryTurns)| ==> TurnTyped(TakeLast(messages, MaxHistoryTurns)[i])
  }

  /** The stripped content of a turn; a turn with none is skipped. */
  function TurnContent(turn: Entries): string {
    Strip(TextOf(Get(turn, "content", Null)))
  }

  /** `ROLE: content`, with the content cut to 600 characters. */
  function HistoryLine(turn: Entries): string {
    Upper(TextOf(Get(turn, "role", Str("user")))) + ": " + Take(TurnContent(turn), MaxTurnChars)
  }

  /** The lines for `turns`, skipping turns without content. */
  function HistoryLinesOf(turns: seq<Entries>): (lines: seq<string>)
    ensures |lines| <= |turns|
    ensures forall i :: 0 <= i < |lines| ==>
              exists j :: 0 <= j < |turns| && TurnContent(turns[j]) != "" && lines[i] == HistoryLine(turns[j])
  {
    if turns == [] then []
    else
      var rest := HistoryLinesOf(turns[1..]);
      assert forall j :: 1 <= j < |turns| ==> turns[j] == turns[1..][j - 1];
      (if TurnContent(turns[0]) != "" then [HistoryLine(turns[0])] else []) + rest
  }

  /** One turn gives its line when it has content and nothing otherwise. */
  lemma HistoryLinesOfOne(turn: Entries)
    ensures HistoryLinesOf([turn]) == (if TurnContent(turn) != "" then [HistoryLine(turn)] else [])
  {
  }

  /** The lines of two runs of turns are the lines of the first, then those of the second. */
  lemma {:induction false} HistoryLinesOfAppend(a: seq<Entries>, b: seq<Entries>)
    ensures HistoryLinesOf(a + b) == HistoryLinesOf(a) + HistoryLinesOf(b)
    decreases |a|
  {
    if a == [] {
      assert a + b == b;
    } else {
      assert (a + b)[0] == a[0];
      assert (a + b)[1..] == a[1..] + b;
      HistoryLinesOfAppend(a[1..], b);
      var head := if TurnContent(a[0]) != "" then [HistoryLine(a[0])] else [];
      AppendAssoc(head, HistoryLinesOf(a[1..]), HistoryLinesOf(b));
    }
  }

  /** `_format_history` of synthesis: at most the last eight turns, at most 2000 characters. */
  function FormatHistory(messages: seq<Entries>): (r: string)
    requires RecentTurnsTyped(messages)
    ensures messages == [] ==> r == "No prior conversation."
    ensures |r| <= MaxHistoryChars
  {
    if messages == [] then "No prior conversation."
    else
      var snippet := Strip(Join("\n", HistoryLinesOf(TakeLast(messages, MaxHistoryTurns))));
      if snippet != "" then Take(snippet, MaxHistoryChars) else "No usable history."
  }

  /** A line keeps the colon after the role, so it is never blank. */
  lemma HistoryLineNotBlank(turn: Entries)
    ensures var l := HistoryLine(turn);
      |l| > 0 && exists k :: 0 <= k < |l| && !IsSpace(l[k])
  {
    var l := HistoryLine(turn);
    var role := Upper(TextOf(Get(turn, "role", Str("user"))));
    assert l[|role|] == ':';
  }

  /**
   * The history is "No usable history." exactly when none of the last eight
   * turns has content; otherwise it is the lines of those that do, cut to
   * 2000 characters.
   */
  lemma FormatHistoryUsable(messages: seq<Entries>)
    requires messages != []
    requires RecentTurnsTyped(messages)
    ensures var lines := HistoryLinesOf(TakeLast(messages, MaxHistoryTurns));
      && (lines == [] ==> FormatHistory(messages) == "No usable history.")
      && (lines != [] ==> FormatHistory(messages) == Take(Strip(Join("\n", lines)), MaxHistoryChars))
  {
    var lines := HistoryLinesOf(TakeLast(messages, MaxHistoryTurns));
    if lines != [] {
      LinesStartWithALine(TakeLast(messages, MaxHistoryTurns));
      var k :| 0 <= k < |lines[0]| && !IsSpace(lines[0][k]);
      JoinNotBlank("\n", lines, k);
    }
  }

  /** A join whose first part holds a non-space does not strip to "". */
  lemma JoinNotBlank(sep: string, parts: seq<string>, k: nat)
    requires parts != [] && k < |parts[0]| && !IsSpace(parts[0][k])
    ensures Strip(Join(sep, parts)) != ""
  {
    JoinStartsWith(sep, parts);
    var j := Join(sep, parts);
    assert j[k] == parts[0][k];
    StripEmptyIffBlank(j);
  }

  /** The first of the lines is the line of some turn, so it holds a non-space. */
  lemma {:induction false} LinesStartWithALine(turns: seq<Entries>)
    ensures var lines := HistoryLinesOf(turns);
      lines != [] ==> exists k :: 0 <= k < |lines[0]| && !IsSpace(lines[0][k])
  {
    if turns != [] {
      var lines := HistoryLinesOf(turns);
      if TurnContent(turns[0]) != "" {
        HistoryLineNotBlank(turns[0]);
        assert lines[0] == HistoryLine(turns[0]);
      } else {
        LinesStartWithALine(turns[1..]);
        assert lines == HistoryLinesOf(turns[1..]);
      }
    }
  }

  // ---------------------------------------------------------------------
  // tiers, coercion, collection

  /** The three guidance tiers: within 24 hours, within 48 hours, later. */
  function Tier(hours: int): (t: nat)
    ensures t < 3
    ensures t == 0 <==> hours <= 24
    ensures t == 2 <==> hours > 48
  {
    if hours <= 24 then 0 else if hours <= 48 then 1 else 2
  }

  const Guidance: seq<string> := [
    "Interview within 24h - focus on calm confidence and rapid refreshers.",
    "Interview within 48h - balance targeted drills with rest.",
    "Interview more than 48h away - build a structured multi-day plan."]

  /** `_time_window_guidance`. */
  function TimeWindowGuidance(hours: int): (r: string)
    ensures r in Guidance
  {
    Guidance[Tier(hours)]
  }

  /** Less time never yields a more relaxed tier. */
  lemma TierMonotone(a: int, b: int)
    requires a <= b
    ensures Tier(a) <= Tier(b)
  {
  }

  /** The three tiers have distinct texts, so the guidance identifies the tier. */
  lemma GuidanceIdentifiesTier(a: int, b: int)
    ensures TimeWindowGuidance(a) == TimeWindowGuidance(b) <==> Tier(a) == Tier(b)
  {
    assert |Guidance[0]| == 69 && |Guidance[1]| == 57 && |Guidance[2]| == 65;
  }

  /** `_coerce_int` on the non-float values: `int(value)`, or the default when that raises. */
  function CoerceInt(value: Value, default: int): (r: int)
    ensures value.Int? ==> r == value.i
    ensures value.Bool? ==> r == (if value.b then 1 else 0)
    ensures value.Str? && ParseInt(value.s).Some? ==> r == ParseInt(value.s).value
    ensures value.Str? && ParseInt(value.s).None? ==> r == default
    ensures value.Null? || value.List? || value.Dict? ==> r == default
  {
    match value
    case Int(i) => i
    case Bool(b) => if b then 1 else 0
    case Str(s) => if ParseInt(s).Some? then ParseInt(s).value else default
    case _ => default
  }

  /** A rendered integer coerces back to itself. */
  lemma CoerceIntOfText(i: int, default: int)
    ensures CoerceInt(Str(IntToString(i)), default) == i
  {
    ParseIntToString(i);
  }

  /**
   * The text of one content block: `Some("")` for a block that is not a text
   * block, `None` when its text is truthy but not a string (the join raises).
   */
  function BlockText(block: Value): Option<string> {
    if block.Dict? && Get(block.entries, "type", Null) == Str("text") then
      var t := Get(block.entries, "text", Null);
      if t.Str? then Some(t.s) else if !Truthy(t) then Some("") else None
    else Some("")
  }

  /** The concatenated texts of `blocks`, in order; `None` if one raises. */
  function ConcatTexts(blocks: seq<Value>): (r: Option<string>)
  {
    if blocks == [] then Some("")
    else match (BlockText(blocks[0]), ConcatTexts(blocks[1..]))
      case (Some(a), Some(b)) => Some(a + b)
      case _ => None
  }

  /**
   * `_collect_text`: `None` where Python raises (the response is not an
   * object, its content is not iterable, or a text is not a string).
   */
  function CollectText(response: Value): Option<string> {
    if !response.Dict? then None
    else
      var content := Get(response.entries, "content", Null);
      if !Truthy(content) then Some("")
      else match content
        case List(blocks) =>
          (match ConcatTexts(blocks) case Some(t) => Some(Strip(t)) case None => None)
        case Str(_) => Some("")
        case Dict(_) => Some("")
        case _ => None
  }

  /** A text block carrying `t`. */
  function TextBlock(t: string): Value {
    Dict([("type", Str("text")), ("text", Str(t))])
  }

  lemma TextBlockText(t: string)
    ensures BlockText(TextBlock(t)) == Some(t)
  {
    var e := [("type", Str("text")), ("text", Str(t))];
    assert "text"[1] != "type"[1];
    assert Lookup(e, "type") == Some(Str("text"));
    assert Lookup(e[1..], "text") == Some(Str(t));
    assert Lookup(e, "text") == Some(Str(t));
  }

  /** A single block contributes exactly its own text. */
  lemma ConcatTextsOne(block: Value)
    ensures ConcatTexts([block]) == BlockText(block)
  {
    assert [block][1..] == [];
    assert forall a: string :: a + "" == a;
  }

  /**
   * The texts of two runs of blocks are joined in order, and the join raises
   * when either run does.
   */
  lemma {:induction false} ConcatTextsAppend(a: seq<Value>, b: seq<Value>)
    ensures ConcatTexts(a + b) ==
      (if ConcatTexts(a).Some? && ConcatTexts(b).Some? then Some(ConcatTexts(a).value + ConcatTexts(b).value) else None)
    decreases |a|
  {
    if a == [] {
      assert a + b == b;
      if ConcatTexts(b).Some? {
        assert "" + ConcatTexts(b).value == ConcatTexts(b).value;
      }
    } else {
      assert (a + b)[0] == a[0];
      assert (a + b)[1..] == a[1..] + b;
      ConcatTextsAppend(a[1..], b);
      if BlockText(a[0]).Some? && ConcatTexts(a[1..]).Some? && ConcatTexts(b).Some? {
        AppendAssoc(BlockText(a[0]).value, ConcatTexts(a[1..]).value, ConcatTexts(b).value);
      }
    }
  }

  /** Blocks whose texts are `texts` concatenate to the texts in order. */
  lemma {:induction false} ConcatOfTextBlocks(blocks: seq<Value>, texts: seq<string>)
    requires |texts| == |blocks|
    requires forall i :: 0 <= i < |blocks| ==> BlockText(blocks[i]) == Some(texts[i])
    ensures ConcatTexts(blocks) == Some(Concat(texts))
    decreases |blocks|
  {
    if blocks != [] {
      assert forall i :: 0 <= i < |blocks| - 1 ==> blocks[1..][i] == blocks[i + 1] && texts[1..][i] == texts[i + 1];
      ConcatOfTextBlocks(blocks[1..], texts[1..]);
    }
  }

  /** One block whose text is truthy but not a string makes the whole join raise. */
  lemma {:induction false} ConcatTextsRaises(blocks: seq<Value>, i: nat)
    requires i < |blocks| && BlockText(blocks[i]).None?
    ensures ConcatTexts(blocks).None?
    decreases i
  {
    if i > 0 {
      assert blocks[1..][i - 1] == blocks[i];
      ConcatTextsRaises(blocks[1..], i - 1);
    }
  }

  /**
   * A reply object whose content is a list of blocks carrying `texts`
   * yields the stripped concatenation of those texts, whatever other keys it
   * has; an empty list is falsy and yields "".
   */
  lemma CollectTextOfBlocks(response: Value, blocks: seq<Value>, texts: seq<string>)
    requires response.Dict? && Get(response.entries, "content", Null) == List(blocks)
    requires |texts| == |blocks|
    requires forall i :: 0 <= i < |blocks| ==> BlockText(blocks[i]) == Some(texts[i])
    ensures CollectText(response) == Some(Strip(Concat(texts)))
  {
    ConcatOfTextBlocks(blocks, texts);
    if blocks == [] {
      StripNoop("");
    }
  }

  /** A reply object with a truthy, non-string text in one of its content blocks raises. */
  lemma CollectTextRaises(response: Value, blocks: seq<Value>, i: nat)
    requires response.Dict? && Get(response.entries, "content", Null) == List(blocks)
    requires i < |blocks| && BlockText(blocks[i]).None?
    ensures CollectText(response).None?
  {
    ConcatTextsRaises(blocks, i);
  }

  // ---------------------------------------------------------------------
  // synthesize_interview_answer

  /** `_default_response`: the apology answer, with the given sources. */
  function DefaultResponse(sources: seq<FormattedSource>): (r: Response)
    ensures r.sources == sources && r.sections == [] && r.answer != ""
  {
    Response(DefaultAnswer, [], sources)
  }

  /** The company or role shown in the prompt: the stripped value, or the placeholder. */
  function ProfileField(value: string, placeholder: string): (r: string)
    requires placeholder != "" && Strip(placeholder) == placeholder
    ensures r != ""
    ensures Strip(value) != "" ==> r == Strip(value)
    ensures Strip(value) == "" ==> r == placeholder
  {
    var v := Strip(if value != "" then value else placeholder);
    if v != "" then v else placeholder
  }

  /** The prompt of `synthesize_interview_answer`: the profile, the guidance, the history and the context. */
  function SynthesisPrompt(userQuery: string, intent: Intent, docs: seq<SourceDoc>, messages: seq<Entries>): (p: Prompt)
    requires RecentTurnsTyped(messages)
    ensures p.company != "" && p.role != ""
    ensures p.guidance in Guidance && |p.history| <= MaxHistoryChars && |p.context| <= MaxContext
    ensures p.query == userQuery && p.hours == intent.hours
  {
    StripNoop("Unknown company");
    StripNoop("Unknown role");
    var hours := CoerceInt(Int(intent.hours), 24);
    Prompt(
      ProfileField(intent.company, "Unknown company"),
      ProfileField(intent.role, "Unknown role"),
      hours,
      TimeWindowGuidance(hours),
      FormatHistory(messages),
      PrepareSources(docs).context,
      userQuery)
  }

  /**
   * `synthesize_interview_answer`: with no usable source, the default answer
   * without sources and no model call; otherwise the model's text, or the
   * default answer with the formatted sources when the call fails or says
   * nothing.
   */
  function Synthesize(userQuery: string, intent: Intent, docs: seq<SourceDoc>, messages: seq<Entries>,
                      invoke: Prompt -> Option<Value>): (r: Response)
    requires UsableDocs(docs) != [] ==> RecentTurnsTyped(messages)
    ensures UsableDocs(docs) == [] ==> r == DefaultResponse([])
    ensures r.sources == PrepareSources(docs).formatted
    ensures r.answer != "" && r.sections == []
    ensures UsableDocs(docs) != [] ==>
              (r.answer != DefaultAnswer <==>
                 exists json, a :: invoke(SynthesisPrompt(userQuery, intent, docs, messages)) == Some(json)
                   && CollectText(json) == Some(a) && a != "" && a != DefaultAnswer && r.answer == a)
  {
    var prepared := PrepareSources(docs);
    if prepared.formatted == [] then DefaultResponse([])
    else
      var prompt := SynthesisPrompt(userQuery, intent, docs, messages);
      match invoke(prompt)
      case None => DefaultResponse(prepared.formatted)
      case Some(json) =>
        match CollectText(json)
        case Some(answer) =>
          if answer != "" then Response(answer, [], prepared.formatted) else DefaultResponse(prepared.formatted)
        case None => DefaultResponse(prepared.formatted)
  }
}

=== FILE: cleaning.dfy ===
/**
 * The text normaliser `_clean_text` of the retrieval pipeline: every
 * non-printable character becomes a space, runs of whitespace collapse to one
 * ASCII space, and the result is stripped.
 */
module Cleaning {
  import opened Text

  /** No two adjacent ASCII spaces. */
  predicate NoDoubleSpace(s: string) {
    forall i, j :: 0 <= i < |s| && 0 <= j < |s| && j == i + 1 ==> s[i] != ' ' || s[j] != ' '
  }

  /**
   * The shape of every normalised text: printable characters only (so the
   * only whitespace is the ASCII space), single spaces, no space at either end.
   */
  predicate IsClean(s: string) {
    && (forall i :: 0 <= i < |s| ==> IsPrintable(s[i]))
    && NoDoubleSpace(s)
    && (s != [] ==> s[0] != ' ' && s[|s| - 1] != ' ')
  }

  /** A prefix of a normalised text may end in a space but otherwise keeps its shape. */
  predicate IsCleanPrefix(s: string) {
    && (forall i :: 0 <= i < |s| ==> IsPrintable(s[i]))
    && NoDoubleSpace(s)
    && (s != [] ==> s[0] != ' ')
  }

  /** Cutting a normalised text keeps the shape of a normalised prefix. */
  lemma TakeClean(s: string, n: nat)
    requires IsClean(s)
    ensures IsCleanPrefix(Take(s, n))
  {
    var r := Take(s, n);
    forall i, j | 0 <= i < |r| && 0 <= j < |r| && j == i + 1
      ensures r[i] != ' ' || r[j] != ' '
    {
      assert r[i] == s[i] && r[j] == s[j];
    }
  }

  /** First pass: each non-printable character is replaced by a space. */
  function Blank(s: string): (r: string)
    ensures |r| == |s|
  {
    if s == [] then [] else [if IsPrintable(s[0]) then s[0] else ' '] + Blank(s[1..])
  }

  /**
   * Second pass: every whitespace character is emitted as a space unless the
   * previous emitted character already was one.  `lastSpace` is that flag.
   */
  function Collapse(s: string, lastSpace: bool): (r: string)
    ensures |r| <= |s|
  {
    if s == [] then []
    else if IsSpace(s[0]) then
      (if lastSpace then [] else [' ']) + Collapse(s[1..], true)
    else
      [s[0]] + Collapse(s[1..], false)
  }

  /** Blanking leaves printable characters in place and replaces the others by spaces. */
  lemma {:induction false} BlankShape(s: string)
    ensures forall i :: 0 <= i < |s| ==> IsPrintable(Blank(s)[i])
    ensures forall i :: 0 <= i < |s| && IsPrintable(s[i]) ==> Blank(s)[i] == s[i]
  {
    if s != [] {
      BlankShape(s[1..]);
      assert forall i :: 1 <= i < |s| ==> Blank(s)[i] == Blank(s[1..])[i - 1];
    }
  }

  /**
   * Collapsing leaves no whitespace but single ASCII spaces, and none at the
   * start when the previous character was already a space.
   */
  lemma {:induction false} CollapseShape(s: string, lastSpace: bool)
    ensures var r := Collapse(s, lastSpace);
      && (forall i :: 0 <= i < |r| && IsSpace(r[i]) ==> r[i] == ' ')
      && NoDoubleSpace(r)
      && (lastSpace && r != [] ==> r[0] != ' ')
  {
    if s != [] {
      var next := IsSpace(s[0]);
      CollapseShape(s[1..], next);
      var r, rest := Collapse(s, lastSpace), Collapse(s[1..], next);
      var head := if next then (if lastSpace then [] else [' ']) else [s[0]];
      assert r == head + rest;
      assert forall i :: |head| <= i < |r| ==> r[i] == rest[i - |head|];
    }
  }

  /** `_clean_text`: the empty text (Python `None` or `""`) cleans to `""`. */
  function Clean(text: string): (r: string)
    ensures |r| <= |text|
  {
    if text == "" then "" else Strip(Collapse(Blank(text), false))
  }

  /** Every output of `_clean_text` has the normalised shape. */
  lemma CleanIsClean(text: string)
    ensures IsClean(Clean(text))
  {
    if text != "" {
      BlankShape(text);
      CollapseShape(Blank(text), false);
      CollapsePrintable(Blank(text), false);
      StripShape(Collapse(Blank(text), false));
    }
  }

  /** Collapsing emits only characters of its input and spaces. */
  lemma {:induction false} CollapsePrintable(s: string, lastSpace: bool)
    requires forall i :: 0 <= i < |s| ==> IsPrintable(s[i])
    ensures forall i :: 0 <= i < |Collapse(s, lastSpace)| ==> IsPrintable(Collapse(s, lastSpace)[i])
  {
    if s != [] {
      CollapsePrintable(s[1..], IsSpace(s[0]));
    }
  }

  lemma {:induction false} BlankNoop(s: string)
    requires forall i :: 0 <= i < |s| ==> IsPrintable(s[i])
    ensures Blank(s) == s
  {
    if s != [] {
      BlankNoop(s[1..]);
    }
  }

  lemma {:induction false} CollapseNoop(s: string, lastSpace: bool)
    requires forall i :: 0 <= i < |s| && IsSpace(s[i]) ==> s[i] == ' '
    requires NoDoubleSpace(s)
    requires lastSpace && s != [] ==> s[0] != ' '
    ensures Collapse(s, lastSpace) == s
  {
    if s != [] {
      if IsSpace(s[0]) {
        assert |s| > 1 ==> s[1] != ' ';
        CollapseNoop(s[1..], true);
      } else {
        CollapseNoop(s[1..], false);
      }
    }
  }

  /** A text that already has the normalised shape is left unchanged. */
  lemma CleanFixesClean(s: string)
    requires IsClean(s)
    ensures Clean(s) == s
  {
    if s != "" {
      BlankNoop(s);
      CollapseNoop(s, false);
      StripNoop(s);
    }
  }

  /** The normalised shape is exactly the set of fixed points of `_clean_text`. */
  lemma CleanFixedPoints(s: string)
    ensures Clean(s) == s <==> IsClean(s)
  {
    CleanIsClean(s);
    if IsClean(s) {
      CleanFixesClean(s);
    }
  }

  /** `_clean_text` is idempotent. */
  lemma CleanIdempotent(s: string)
    ensures Clean(Clean(s)) == Clean(s)
  {
    CleanIsClean(s);
    CleanFixesClean(Clean(s));
  }

  // ---------------------------------------------------------------------
  // Cleaning keeps every visible character, in order.

  /** A visible character: printable and not whitespace. */
  predicate IsVisible(c: char) {
    IsPrintable(c) && !IsSpace(c)
  }

  /** The visible characters of `s`, in order. */
  function Visible(s: string): string {
    if s == [] then []
    else (if IsVisible(s[0]) then [s[0]] else []) + Visible(s[1..])
  }

  lemma {:induction false} VisibleAppend(a: string, b: string)
    ensures Visible(a + b) == Visible(a) + Visible(b)
  {
    if a == [] {
      assert a + b == b;
    } else {
      assert (a + b)[1..] == a[1..] + b;
      VisibleAppend(a[1..], b);
    }
  }

  lemma {:induction false} VisibleOfBlank(s: string)
    requires forall i :: 0 <= i < |s| ==> IsSpace(s[i])
    ensures Visible(s) == []
  {
    if s != [] {
      VisibleOfBlank(s[1..]);
    }
  }

  lemma {:induction false} VisibleBlank(s: string)
    ensures Visible(Blank(s)) == Visible(s)
  {
    if s != [] {
      VisibleBlank(s[1..]);
      assert Blank(s) == [Blank(s)[0]] + Blank(s[1..]);
    }
  }

  lemma {:induction false} VisibleCollapse(s: string, lastSpace: bool)
    ensures Visible(Collapse(s, lastSpace)) == Visible(s)
  {
    if s != [] {
      if IsSpace(s[0]) {
        VisibleCollapse(s[1..], true);
        VisibleAppend(if lastSpace then [] else [' '], Collapse(s[1..], true));
      } else {
        VisibleCollapse(s[1..], false);
        VisibleAppend([s[0]], Collapse(s[1..], false));
      }
    }
  }

  lemma VisibleStrip(s: string)
    ensures Visible(Strip(s)) == Visible(s)
  {
    StripShape(s);
    var a, r := StripOffset(s), Strip(s);
    var pre, post := s[..a], s[a + |r|..];
    assert s == pre + r + post;
    forall i | 0 <= i < |pre|
      ensures IsSpace(pre[i])
    {
      assert pre[i] == s[i];
    }
    forall i | 0 <= i < |post|
      ensures IsSpace(post[i])
    {
      assert post[i] == s[a + |r| + i];
    }
    VisibleOfBlank(pre);
    VisibleOfBlank(post);
    calc {
      Visible(s);
      Visible(pre + r + post);
      { VisibleAppend(pre + r, post); }
      Visible(pre + r) + Visible(post);
      { VisibleAppend(pre, r); }
      Visible(pre) + Visible(r) + Visible(post);
      Visible(r);
    }
  }

  /**
   * `_clean_text` removes only whitespace and non-printable characters: the
   * visible characters of the result are those of the input, in order.
   */
  lemma CleanKeepsVisible(s: string)
    ensures Visible(Clean(s)) == Visible(s)
  {
    if s != "" {
      VisibleBlank(s);
      VisibleCollapse(Blank(s), false);
      VisibleStrip(Collapse(Blank(s), false));
    }
  }

  /** A worked example: tabs, newlines and runs of spaces collapse. */
  lemma CleanExample()
    ensures Clean("a\n\n\tb   c") == "a b c"
  {
    BlankExample();
    CollapseExample();
    StripNoop("a b c");
  }

  lemma BlankExample()
    ensures Blank("a\n\n\tb   c") == "a   b   c"
  {
    assert !IsPrintable('\n') && !IsPrintable('\t');
  }

  lemma CollapseExample()
    ensures Collapse("a   b   c", false) == "a b c"
  {
    assert IsSpace(' ') && !IsSpace('a') && !IsSpace('b') && !IsSpace('c');
    assert Collapse("  c", true) == "c";
    assert Collapse("b   c", false) == "b c";
  }



}

=== FILE: fetching.dfy ===
/**
 * Per-URL content selection of the retrieval pipeline (`_fetch_url_content`,
 * `_load_pdf`) and the host label of a source (`_derive_source`).
 *
 * The network and the third-party extractors are not modelled: the outcome of
 * the HTTP GET, together with what the PDF reader, the structured extractor
 * and the markup parser make of the response, is an input (`HttpOutcome`).
 */
module Fetching {
  import opened Wrappers
  import opened Text
  import opened Cleaning

  /** Longest content kept for one source. */
  const MaxContentChars: nat := 10000
  /** Shortest cleaned content that makes a source usable. */
  const MinContentChars: nat := 300

  /** A search result selected for fetching: one `raw_candidates` entry. */
  datatype Candidate = Candidate(
    url: string,
    title: string,
    snippet: string,
    source: string,
    rawContent: string,
    content: string)

  /**
   * The live fetch of a candidate URL.  `RequestFailed` covers connection
   * errors, time-outs and non-2xx statuses.  A `Response` carries the declared
   * content type and what each extractor yields on the body: the PDF pages'
   * texts (`None` when the PDF reader is missing or cannot open the body; a
   * page whose extraction fails contributes ""), the structured extractor's
   * text and the markup parser's text ("" when the library is missing, fails
   * or finds nothing).
   */
  datatype HttpOutcome =
    | RequestFailed
    | Response(
        contentType: string,
        pdfPages: Option<seq<string>>,
        structuredText: string,
        markupText: string)

  /** A response is treated as a PDF when its content type or its URL says so. */
  predicate IsPdf(contentType: string, url: string) {
    Contains(Lower(contentType), "pdf") || EndsWith(Lower(url), ".pdf")
  }

  /** `_load_pdf`: the pages' texts joined by newlines, then cleaned. */
  function LoadPdf(pages: Option<seq<string>>): (r: string)
    ensures pages.None? ==> r == ""
  {
    match pages
    case None => ""
    case Some(ps) => Clean(Join("\n", ps))
  }

  /**
   * The text extracted from the live response: the PDF text for a PDF,
   * otherwise the structured extractor's text, or the markup parser's text
   * when the former is empty.  A failed request yields "".
   */
  function LiveText(url: string, http: HttpOutcome): (r: string)
    ensures http.RequestFailed? ==> r == ""
    ensures http.Response? && IsPdf(http.contentType, url) ==> r == LoadPdf(http.pdfPages)
    ensures http.Response? && !IsPdf(http.contentType, url) ==>
              (http.structuredText != "" ==> r == http.structuredText)
              && (http.structuredText == "" ==> r == http.markupText)
  {
    match http
    case RequestFailed => ""
    case Response(contentType, pages, structured, markup) =>
      if IsPdf(contentType, url) then LoadPdf(pages)
      else if structured != "" then structured
      else markup
  }

  /** A text is long enough to be a source once cleaned. */
  predicate Qualifies(text: string) {
    |Clean(text)| >= MinContentChars
  }

  /** The first of `texts` whose cleaned length reaches the floor, if any. */
  function FirstQualifying(texts: seq<string>): (k: Option<nat>)
    ensures k.None? <==> forall j :: 0 <= j < |texts| ==> !Qualifies(texts[j])
    ensures k.Some? ==>
              && k.value < |texts|
              && Qualifies(texts[k.value])
              && forall j :: 0 <= j < k.value ==> !Qualifies(texts[j])
  {
    FirstWhere(texts, Qualifies, 0)
  }

  /** The offline texts a candidate carries, in the order they are tried. */
  function FallbackTexts(c: Candidate): seq<string> {
    [c.rawContent, c.content, c.snippet]
  }

  /** The cleaned fallback that replaces an empty live text ("" when none qualifies). */
  function FallbackText(c: Candidate): string {
    match FirstQualifying(FallbackTexts(c))
    case None => ""
    case Some(k) => Clean(FallbackTexts(c)[k])
  }

  /**
   * `_fetch_url_content`: the content of one candidate, or "" when the
   * candidate is unusable.
   */
  function FetchUrlContent(c: Candidate, http: HttpOutcome): (r: string)
    ensures r == "" || MinContentChars <= |r| <= MaxContentChars
    ensures c.url == "" ==> r == ""
  {
    if c.url == "" then ""
    else
      var live := LiveText(c.url, http);
      var chosen := if live == "" then FallbackText(c) else live;
      var cleaned := Clean(chosen);
      if |cleaned| < MinContentChars then "" else Take(cleaned, MaxContentChars)
  }

  /**
   * When the live fetch yields text, the offline fallbacks are ignored: the
   * result is the cleaned live text cut to the ceiling, or "" below the floor,
   * even if a fallback would have been long enough.
   */
  lemma FetchUsesLiveText(c: Candidate, http: HttpOutcome)
    requires c.url != "" && LiveText(c.url, http) != ""
    ensures var cleaned := Clean(LiveText(c.url, http));
      FetchUrlContent(c, http)
        == if |cleaned| < MinContentChars then "" else Take(cleaned, MaxContentChars)
  {
  }

  /**
   * When the live fetch yields nothing, the result comes from the first of
   * raw content, API content and snippet whose cleaned length reaches the
   * floor, and is "" when none does.
   */
  lemma FetchFallsBack(c: Candidate, http: HttpOutcome)
    requires c.url != "" && LiveText(c.url, http) == ""
    ensures var k := FirstQualifying(FallbackTexts(c));
      && (k.None? ==> FetchUrlContent(c, http) == "")
      && (k.Some? ==>
            FetchUrlContent(c, http) == Take(Clean(FallbackTexts(c)[k.value]), MaxContentChars))
  {
    var k := FirstQualifying(FallbackTexts(c));
    if k.Some? {
      CleanIdempotent(FallbackTexts(c)[k.value]);
    }
  }

  /**
   * A PDF response whose extracted text reaches the floor yields that
   * text, cleaned and cut to the ceiling.
   */
  lemma FetchPdf(c: Candidate, http: HttpOutcome)
    requires c.url != "" && http.Response? && IsPdf(http.contentType, c.url)
    requires http.pdfPages.Some?
    requires |Clean(Join("\n", http.pdfPages.value))| >= MinContentChars
    ensures FetchUrlContent(c, http) == Take(Clean(Join("\n", http.pdfPages.value)), MaxContentChars)
  {
    CleanIdempotent(Join("\n", http.pdfPages.value));
  }

  /**
   * Every usable content is a prefix of a cleaned text: printable characters
   * only, single spaces, no leading space.
   */
  lemma FetchContentShape(c: Candidate, http: HttpOutcome)
    ensures IsCleanPrefix(FetchUrlContent(c, http))
  {
    if c.url != "" {
      var live := LiveText(c.url, http);
      var chosen := if live == "" then FallbackText(c) else live;
      CleanIsClean(chosen);
      TakeClean(Clean(chosen), MaxContentChars);
    }
  }

  // ---------------------------------------------------------------------
  // _derive_source

  /** The host label of a source, given the parsed URL's network location (`None` when parsing fails). */
  function DeriveSource(netloc: Option<string>): (r: string)
    ensures r != ""
    ensures forall i :: 0 <= i < |r| ==> !('A' <= r[i] <= 'Z')
    ensures netloc.None? ==> r == "web"
    ensures netloc.Some? ==>
              || Lower(netloc.value) == r
              || Lower(netloc.value) == "www." + r
              || (r == "web" && (Lower(netloc.value) == "" || Lower(netloc.value) == "www."))
    ensures netloc.Some? && StartsWith(Lower(netloc.value), "www.") && |netloc.value| > 4 ==>
              Lower(netloc.value) == "www." + r
  {
    match netloc
    case None => "web"
    case Some(n) =>
      var host := Lower(n);
      var bare := if StartsWith(host, "www.") then host[4..] else host;
      if bare == "" then
        assert host == host[..|host|];
        "web"
      else bare
  }
}

=== FILE: frontend.dfy ===
/**
 * The pure helpers of the Streamlit front end: filtering the backend's
 * messages for display, unwrapping the Lambda response, and the HTML
 * escaping of text.
 */
module Frontend {
  import opened Wrappers
  import opened Text
  import opened PyValue
  import Handler

  // ---------------------------------------------------------------------
  // strip_system_messages

  /** A message shown in the chat: a user or assistant turn with truthy content. */
  predicate Shown(m: Entries) {
    && Get(m, "role", Null) in {Str("user"), Str("assistant")}
    && Truthy(Get(m, "content", Str("")))
  }

  /** The display form of a message: its role and content only. */
  function UiEntry(m: Entries): Entries {
    [("role", Get(m, "role", Null)), ("content", Get(m, "content", Str("")))]
  }

  /** The display form keeps the role and content it was built from. */
  lemma UiEntryLookups(m: Entries)
    ensures Get(UiEntry(m), "role", Null) == Get(m, "role", Null)
    ensures Get(UiEntry(m), "content", Str("")) == Get(m, "content", Str(""))
    ensures forall k :: k != "role" && k != "content" ==> !HasKey(UiEntry(m), k)
  {
    var e := UiEntry(m);
    assert Lookup(e, "role") == Some(Get(m, "role", Null));
    assert Lookup(e[1..], "content") == Some(Get(m, "content", Str("")));
    assert Lookup(e, "content") == Some(Get(m, "content", Str("")));
  }

  /** `strip_system_messages`: the shown messages, in order, reduced to role and content. */
  function StripSystemMessages(messages: seq<Entries>): (r: seq<Entries>)
    ensures |r| <= |messages|
    ensures forall i :: 0 <= i < |r| ==> Shown(r[i]) && |r[i]| == 2
  {
    if messages == [] then []
    else
      var m := messages[0];
      var rest := StripSystemMessages(messages[1..]);
      UiEntryLookups(m);
      if Shown(m) then [UiEntry(m)] + rest else rest
  }

  /**
   * The display list holds the display form of every shown message, and
   * nothing that is not the display form of a shown message.
   */
  lemma {:induction false} StripSystemMessagesMembers(messages: seq<Entries>)
    ensures var r := StripSystemMessages(messages);
            && (forall i :: 0 <= i < |messages| && Shown(messages[i]) ==> UiEntry(messages[i]) in r)
            && (forall e :: e in r ==> exists j :: 0 <= j < |messages| && Shown(messages[j]) && e == UiEntry(messages[j]))
    decreases |messages|
  {
    if messages != [] {
      var m := messages[0];
      var tail := messages[1..];
      StripSystemMessagesMembers(tail);
      var rest := StripSystemMessages(tail);
      var r := StripSystemMessages(messages);
      assert r == (if Shown(m) then [UiEntry(m)] + rest else rest);
      forall i | 0 <= i < |messages| && Shown(messages[i])
        ensures UiEntry(messages[i]) in r
      {
        if i > 0 {
          assert messages[i] == tail[i - 1];
        }
      }
      forall e | e in r
        ensures exists j :: 0 <= j < |messages| && Shown(messages[j]) && e == UiEntry(messages[j])
      {
        if e in rest {
          var j :| 0 <= j < |tail| && Shown(tail[j]) && e == UiEntry(tail[j]);
          assert messages[j + 1] == tail[j];
        } else {
          assert Shown(messages[0]) && e == UiEntry(messages[0]);
        }
      }
    }
  }

  /** A single message is shown in its display form, or dropped. */
  lemma StripSystemMessagesOne(m: Entries)
    ensures StripSystemMessages([m]) == (if Shown(m) then [UiEntry(m)] else [])
  {
  }

  /**
   * Stripping two runs of messages strips each and keeps them in order, so
   * the shown messages keep their relative order.
   */
  lemma {:induction false} StripSystemMessagesAppend(a: seq<Entries>, b: seq<Entries>)
    ensures StripSystemMessages(a + b) == StripSystemMessages(a) + StripSystemMessages(b)
    decreases |a|
  {
    if a == [] {
      assert a + b == b;
    } else {
      assert (a + b)[0] == a[0];
      assert (a + b)[1..] == a[1..] + b;
      StripSystemMessagesAppend(a[1..], b);
      var head := if Shown(a[0]) then [UiEntry(a[0])] else [];
      AppendAssoc(head, StripSystemMessages(a[1..]), StripSystemMessages(b));
    }
  }

  /** A display entry is its own display form. */
  lemma UiEntryFixed(m: Entries)
    requires Shown(m) && |m| == 2
    ensures UiEntry(UiEntry(m)) == UiEntry(m)
  {
    UiEntryLookups(m);
  }

  /** Filtering again changes nothing: the output already passes the filter. */
  lemma {:induction false} StripSystemMessagesIdempotent(messages: seq<Entries>)
    ensures StripSystemMessages(StripSystemMessages(messages)) == StripSystemMessages(messages)
    decreases |messages|
  {
    if messages != [] {
      var m := messages[0];
      var rest := StripSystemMessages(messages[1..]);
      StripSystemMessagesIdempotent(messages[1..]);
      if Shown(m) {
        var u := UiEntry(m);
        UiEntryLookups(m);
        UiEntryLookups(u);
        assert Shown(u);
        assert UiEntry(u) == u;
        assert ([u] + rest)[1..] == rest;
      }
    }
  }

  /** A system message, such as the cached agent state, is never shown. */
  lemma {:induction false} SystemMessagesHidden(messages: seq<Entries>)
    requires forall i :: 0 <= i < |messages| ==> Get(messages[i], "role", Null) == Str("system")
    ensures StripSystemMessages(messages) == []
    decreases |messages|
  {
    if messages != [] {
      SystemMessagesHidden(messages[1..]);
      assert !Shown(messages[0]);
    }
  }

  // ---------------------------------------------------------------------
  // normalize_lambda_payload

  const InvalidBody := "Lambda returned invalid JSON in 'body'."
  const NotAnObject := "Lambda response must be a JSON object."
  const MissingAnswer := "Lambda response missing 'answer' field."

  /** A dict with a "body" key and at most three keys is a Lambda HTTP envelope. */
  predicate IsEnvelope(raw: Value) {
    raw.Dict? && HasKey(raw.entries, "body") && |raw.entries| <= 3
  }

  /**
   * `normalize_lambda_payload`: unwrap an envelope whose body is a string
   * (decoded) or an object, then require an object with an "answer".
   */
  function NormalizeLambdaPayload(raw: Value, loads: string -> Option<Value>): (r: Result<Entries, string>)
    ensures r.Ok? ==> HasKey(r.value, "answer")
    ensures r.Err? ==> r.error in {InvalidBody, NotAnObject, MissingAnswer}
    ensures !IsEnvelope(raw) ==>
              r == (if !raw.Dict? then Err(NotAnObject)
                    else if HasKey(raw.entries, "answer") then Ok(raw.entries)
                    else Err(MissingAnswer))
    ensures (IsEnvelope(raw) && Get(raw.entries, "body", Null).Str? &&
             loads(Get(raw.entries, "body", Null).s).None?) ==> r == Err(InvalidBody)
    ensures r.Ok? <==> (Unwrap(raw, loads).Ok? && Unwrap(raw, loads).value.Dict?
                        && HasKey(Unwrap(raw, loads).value.entries, "answer"))
    ensures r.Ok? ==> r.value == Unwrap(raw, loads).value.entries
    ensures Unwrap(raw, loads).Ok? && !Unwrap(raw, loads).value.Dict? ==> r == Err(NotAnObject)
  {
    match Unwrap(raw, loads)
    case Err(e) => Err(e)
    case Ok(data) =>
      if !data.Dict? then Err(NotAnObject)
      else if !HasKey(data.entries, "answer") then Err(MissingAnswer)
      else Ok(data.entries)
  }

  /** The unwrapping step: the decoded or given body of an envelope, anything else as it is. */
  function Unwrap(raw: Value, loads: string -> Option<Value>): (r: Result<Value, string>)
    ensures !IsEnvelope(raw) ==> r == Ok(raw)
    ensures r.Err? ==> r.error == InvalidBody
    ensures IsEnvelope(raw) && Get(raw.entries, "body", Null).Dict? ==> r == Ok(Get(raw.entries, "body", Null))
    ensures IsEnvelope(raw) && Get(raw.entries, "body", Null).Str? ==>
              r == (match loads(Get(raw.entries, "body", Null).s)
                    case Some(v) => Ok(v)
                    case None => Err(InvalidBody))
    ensures IsEnvelope(raw) && !Get(raw.entries, "body", Null).Str? && !Get(raw.entries, "body", Null).Dict? ==>
              r == Ok(raw)
  {
    if IsEnvelope(raw) then
      var body := Get(raw.entries, "body", Null);
      match body
      case Str(text) =>
        (match loads(text) case Some(v) => Ok(v) case None => Err(InvalidBody))
      case Dict(_) => Ok(body)
      case _ => Ok(raw)
    else Ok(raw)
  }

  /**
   * An object wrapped in an envelope, either encoded as a string body or
   * given directly as the body, unwraps to that object, provided decoding
   * inverts encoding on it.
   */
  lemma UnwrapEnvelope(body: Value, status: int, dumps: Value -> string, loads: string -> Option<Value>)
    requires body.Dict? && loads(dumps(body)) == Some(body)
    ensures Unwrap(Dict([("statusCode", Int(status)), ("body", Str(dumps(body)))]), loads) == Ok(body)
    ensures Unwrap(Dict([("statusCode", Int(status)), ("body", body)]), loads) == Ok(body)
  {
    var encoded := [("statusCode", Int(status)), ("body", Str(dumps(body)))];
    var direct := [("statusCode", Int(status)), ("body", body)];
    assert Lookup(encoded[1..], "body") == Some(Str(dumps(body)));
    assert Lookup(encoded, "body") == Some(Str(dumps(body)));
    assert Lookup(direct[1..], "body") == Some(body);
    assert Lookup(direct, "body") == Some(body);
  }

  /**
   * Whatever answer the handler sends, wrapped in its HTTP envelope, the
   * front end unwraps to exactly the handler's response object, provided
   * decoding inverts encoding on it.
   */
  lemma NormalizesHandlerReply(reply: Handler.Reply, dumps: Value -> string, loads: string -> Option<Value>)
    requires reply.Answered?
    requires loads(dumps(Handler.ReplyBody(reply))) == Some(Handler.ReplyBody(reply))
    ensures NormalizeLambdaPayload(Dict([("statusCode", Int(200)), ("body", Str(dumps(Handler.ReplyBody(reply))))]), loads)
              == Ok(Handler.ReplyBody(reply).entries)
  {
    var text := dumps(Handler.ReplyBody(reply));
    var env := [("statusCode", Int(200)), ("body", Str(text))];
    assert Lookup(env[1..], "body") == Some(Str(text));
    assert Lookup(env, "body") == Some(Str(text));
    var body := Handler.ReplyBody(reply).entries;
    assert Lookup(body[1..], "answer") == Some(reply.answer);
    assert HasKey(body, "answer");
  }

  /** An error reply lacks an answer, so the front end rejects it. */
  lemma RejectsHandlerError(reply: Handler.Reply, dumps: Value -> string, loads: string -> Option<Value>)
    requires reply.Failed?
    requires loads(dumps(Handler.ReplyBody(reply))) == Some(Handler.ReplyBody(reply))
    ensures NormalizeLambdaPayload(Dict([("statusCode", Int(reply.status)), ("body", Str(dumps(Handler.ReplyBody(reply))))]), loads)
              == Err(MissingAnswer)
  {
    var text := dumps(Handler.ReplyBody(reply));
    var env := [("statusCode", Int(reply.status)), ("body", Str(text))];
    assert Lookup(env[1..], "body") == Some(Str(text));
    assert Lookup(env, "body") == Some(Str(text));
    var body := Handler.ReplyBody(reply).entries;
    assert !HasKey(body, "answer") by {
      assert |body| == 1 && body[0].0 == "error";
      assert "error"[0] != "answer"[0];
    }
  }

  // ---------------------------------------------------------------------
  // md_to_html

  /** `html.escape` of one character, quotes included. */
  function EscapeChar(c: char): string {
    match c
    case '&' => "&amp;"
    case '<' => "&lt;"
    case '>' => "&gt;"
    case '"' => "&quot;"
    case '\'' => "&#x27;"
    case _ => [c]
  }

  /** `html.escape(s)`. */
  function Escape(s: string): (r: string)
    ensures forall i :: 0 <= i < |r| ==> r[i] !in {'<', '>', '"', '\''}
  {
    if s == [] then [] else EscapeChar(s[0]) + Escape(s[1..])
  }

  /** `t.replace("\n", "<br>")`. */
  function ReplaceNewlines(t: string): (r: string)
    ensures forall i :: 0 <= i < |r| ==> r[i] != '\n'
  {
    if t == [] then []
    else (if t[0] == '\n' then "<br>" else [t[0]]) + ReplaceNewlines(t[1..])
  }

  /** `md_to_html`: escape, then turn newlines into line breaks; `None` and "" give "". */
  function MdToHtml(value: Option<string>): (r: string)
    ensures value.None? || value == Some("") ==> r == ""
    ensures forall i :: 0 <= i < |r| ==> r[i] != '\n'
  {
    ReplaceNewlines(Escape(value.GetOr("")))
  }

  /** The HTML of one character: a line break for a newline, its escape otherwise. */
  function HtmlChar(c: char): string {
    if c == '\n' then "<br>" else EscapeChar(c)
  }

  /** Replacing newlines distributes over concatenation. */
  lemma {:induction false} ReplaceNewlinesAppend(a: string, b: string)
    ensures ReplaceNewlines(a + b) == ReplaceNewlines(a) + ReplaceNewlines(b)
    decreases |a|
  {
    if a == [] {
      assert a + b == b;
    } else {
      ReplaceNewlinesAppend(a[1..], b);
      assert (a + b)[1..] == a[1..] + b;
      AppendAssoc(if a[0] == '\n' then "<br>" else [a[0]], ReplaceNewlines(a[1..]), ReplaceNewlines(b));
    }
  }

  /** The two passes amount to translating character by character. */
  lemma {:induction false} MdToHtmlPerChar(s: string)
    ensures s != [] ==> ReplaceNewlines(Escape(s)) == HtmlChar(s[0]) + ReplaceNewlines(Escape(s[1..]))
  {
    if s != [] {
      ReplaceNewlinesAppend(EscapeChar(s[0]), Escape(s[1..]));
      var e := EscapeChar(s[0]);
      if s[0] == '\n' {
        assert e == ['\n'];
        assert ReplaceNewlines(e) == "<br>" + ReplaceNewlines(e[1..]);
      } else if |e| == 1 {
        assert ReplaceNewlines(e) == [e[0]] + ReplaceNewlines(e[1..]);
      } else {
        ReplaceNewlinesNoop(e);
      }
    }
  }

  /** Text without newlines is unchanged by the replacement. */
  lemma {:induction false} ReplaceNewlinesNoop(t: string)
    requires forall i :: 0 <= i < |t| ==> t[i] != '\n'
    ensures ReplaceNewlines(t) == t
    decreases |t|
  {
    if t != [] {
      ReplaceNewlinesNoop(t[1..]);
    }
  }

  /** Decoding the HTML back: line breaks to newlines, entities to their characters. */
  function Decode(t: string): string
    decreases |t|
  {
    if t == [] then []
    else if StartsWith(t, "<br>") then "\n" + Decode(t[4..])
    else if StartsWith(t, "&amp;") then "&" + Decode(t[5..])
    else if StartsWith(t, "&lt;") then "<" + Decode(t[4..])
    else if StartsWith(t, "&gt;") then ">" + Decode(t[4..])
    else if StartsWith(t, "&quot;") then "\"" + Decode(t[6..])
    else if StartsWith(t, "&#x27;") then "'" + Decode(t[6..])
    else [t[0]] + Decode(t[1..])
  }

  /** Decoding a character's HTML followed by more HTML yields the character first. */
  lemma DecodeHtmlChar(c: char, rest: string)
    ensures Decode(HtmlChar(c) + rest) == [c] + Decode(rest)
  {
    var h := HtmlChar(c);
    var t := h + rest;
    assert t[..|h|] == h;
    assert t[|h|..] == rest;
    if c == '\n' {
      assert StartsWith(t, "<br>");
    } else if c == '&' {
      DecodeEntity(t, "&amp;", '&', rest);
    } else if c == '<' {
      DecodeEntity(t, "&lt;", '<', rest);
    } else if c == '>' {
      DecodeEntity(t, "&gt;", '>', rest);
    } else if c == '"' {
      DecodeEntity(t, "&quot;", '"', rest);
    } else if c == '\'' {
      DecodeEntity(t, "&#x27;", '\'', rest);
    } else {
      assert h == [c];
      DecodePlain(t, c, rest);
    }
  }

  /** An entity at the front decodes to its character. */
  lemma DecodeEntity(t: string, entity: string, c: char, rest: string)
    requires (entity, c) in {("&amp;", '&'), ("&lt;", '<'), ("&gt;", '>'), ("&quot;", '"'), ("&#x27;", '\'')}
    requires t == entity + rest
    ensures Decode(t) == [c] + Decode(rest)
  {
    assert t[..|entity|] == entity;
    assert t[|entity|..] == rest;
    NotPrefix(t, "<br>", 0);
    if c != '&' {
      NotPrefix(t, "&amp;", 1);
      if c != '<' {
        NotPrefix(t, "&lt;", 1);
        if c != '>' {
          NotPrefix(t, "&gt;", 1);
          if c != '"' {
            NotPrefix(t, "&quot;", 1);
          }
        }
      }
    }
  }

  /** A text that differs from `p` at position `k` does not start with `p`. */
  lemma NotPrefix(t: string, p: string, k: nat)
    requires k < |p| && k < |t| && t[k] != p[k]
    ensures !StartsWith(t, p)
  {
    if |p| <= |t| {
      assert t[..|p|][k] == t[k];
    }
  }

  /** A character that starts no entity or line break decodes to itself. */
  lemma DecodePlain(t: string, c: char, rest: string)
    requires c != '<' && c != '&'
    requires t == [c] + rest
    ensures Decode(t) == [c] + Decode(rest)
  {
    assert t[0] == c;
    assert t[1..] == rest;
    assert !StartsWith(t, "<br>") && !StartsWith(t, "&amp;") && !StartsWith(t, "&lt;");
    assert !StartsWith(t, "&gt;") && !StartsWith(t, "&quot;") && !StartsWith(t, "&#x27;");
  }

  /** `md_to_html` loses nothing: decoding its output gives back the text. */
  lemma {:induction false} MdToHtmlRoundTrip(s: string)
    ensures Decode(MdToHtml(Some(s))) == s
    decreases |s|
  {
    if s != [] {
      MdToHtmlPerChar(s);
      MdToHtmlRoundTrip(s[1..]);
      DecodeHtmlChar(s[0], ReplaceNewlines(Escape(s[1..])));
      assert s == [s[0]] + s[1..];
    }
  }
}

=== FILE: handler.dfy ===
/**
 * The decision logic of the Lambda entry point: reading the request body,
 * validating it, recovering the cached agent state from the message history,
 * the concept-question override, the fallback to the cached company and
 * role, the rule for refreshing sources, and the state message written back.
 *
 * JSON decoding and encoding, intent detection, source retrieval, synthesis
 * and the general-chat model call are inputs (`Services`); a service that
 * returns `None` stands for one that raises, which the handler turns into a
 * 500.
 */
module Handler {
  import opened Wrappers
  import opened Text
  import opened PyValue

  const StatePrefix := "__agent_state__:"

  /** `json.loads` (`None` for a decode error) and `json.dumps`. */
  datatype Json = Json(loads: string -> Option<Value>, dumps: Value -> string)

  /** The state carried between turns. */
  datatype CachedState = CachedState(company: Value, role: Value, sources: Value)

  /** The state before any state message is seen. */
  const DefaultState := CachedState(Str(""), Str(""), List([]))

  // ---------------------------------------------------------------------
  // _extract_agent_state

  /** A system message whose string content starts with the state prefix. */
  predicate IsStateMessage(m: Value) {
    && m.Dict?
    && Get(m.entries, "role", Null) == Str("system")
    && Get(m.entries, "content", Null).Str?
    && StartsWith(Get(m.entries, "content", Null).s, StatePrefix)
  }

  /** The text after the prefix of a state message. */
  function StateText(m: Value): string
    requires IsStateMessage(m)
  {
    Get(m.entries, "content", Null).s[|StatePrefix|..]
  }

  /** A state message whose payload decodes to an object. */
  predicate ValidState(m: Value, json: Json) {
    IsStateMessage(m) && json.loads(StateText(m)).Some? && json.loads(StateText(m)).value.Dict?
  }

  /** The state a decoded payload replaces the current one with. */
  function StateOfPayload(d: Entries): CachedState {
    CachedState(Get(d, "company", Str("")), Get(d, "role", Str("")), Get(d, "sources", List([])))
  }

  /** The state a valid state message carries. */
  function StateOf(m: Value, json: Json): CachedState
    requires ValidState(m, json)
  {
    StateOfPayload(json.loads(StateText(m)).value.entries)
  }

  /** The loop of `_extract_agent_state`. */
  function ExtractLoop(messages: seq<Value>, cleaned: seq<Value>, state: CachedState, json: Json): (seq<Value>, CachedState)
    decreases |messages|
  {
    if messages == [] then (cleaned, state)
    else
      var m := messages[0];
      if !IsStateMessage(m) then ExtractLoop(messages[1..], cleaned + [m], state, json)
      else if ValidState(m, json) then ExtractLoop(messages[1..], cleaned, StateOf(m, json), json)
      else ExtractLoop(messages[1..], cleaned, state, json)
  }

  /** The messages that are not state messages, in order. */
  function Kept(messages: seq<Value>): (r: seq<Value>)
    ensures |r| <= |messages|
    ensures forall i :: 0 <= i < |r| ==> !IsStateMessage(r[i])
  {
    if messages == [] then []
    else (if IsStateMessage(messages[0]) then [] else [messages[0]]) + Kept(messages[1..])
  }

  /** The state of the last valid state message, if any. */
  function LastValid(messages: seq<Value>, json: Json): Option<CachedState> {
    if messages == [] then None
    else match LastValid(messages[1..], json)
      case Some(s) => Some(s)
      case None => if ValidState(messages[0], json) then Some(StateOf(messages[0], json)) else None
  }

  /**
   * `_extract_agent_state`: the history without its state messages, and the
   * state of the last valid one, or the empty state.
   */
  function ExtractAgentState(messages: seq<Value>, json: Json): (r: (seq<Value>, CachedState))
    ensures r.0 == Kept(messages)
    ensures r.1 == LastValid(messages, json).GetOr(DefaultState)
  {
    ExtractLoopIsReference(messages, [], DefaultState, json);
    ExtractLoop(messages, [], DefaultState, json)
  }

  /** The loop keeps the non-state messages after `cleaned` and ends in the last valid state, else `state`. */
  lemma {:induction false} ExtractLoopIsReference(messages: seq<Value>, cleaned: seq<Value>, state: CachedState, json: Json)
    ensures ExtractLoop(messages, cleaned, state, json).0 == cleaned + Kept(messages)
    ensures ExtractLoop(messages, cleaned, state, json).1 == LastValid(messages, json).GetOr(state)
    decreases |messages|
  {
    if messages == [] {
      assert cleaned + [] == cleaned;
    } else {
      var m := messages[0];
      var rest := messages[1..];
      if !IsStateMessage(m) {
        ExtractLoopIsReference(rest, cleaned + [m], state, json);
        assert Kept(messages) == [m] + Kept(rest);
        AppendAssoc(cleaned, [m], Kept(rest));
      } else if ValidState(m, json) {
        ExtractLoopIsReference(rest, cleaned, StateOf(m, json), json);
        assert Kept(messages) == Kept(rest);
      } else {
        ExtractLoopIsReference(rest, cleaned, state, json);
        assert Kept(messages) == Kept(rest);
      }
    }
  }

  /** Exactly the non-state messages are kept. */
  lemma {:induction false} KeptExactly(messages: seq<Value>, m: Value)
    ensures m in Kept(messages) <==> m in messages && !IsStateMessage(m)
    decreases |messages|
  {
    if messages != [] {
      KeptExactly(messages[1..], m);
      assert messages == [messages[0]] + messages[1..];
    }
  }

  /** Keeping distributes over concatenation. */
  lemma {:induction false} KeptAppend(a: seq<Value>, b: seq<Value>)
    ensures Kept(a + b) == Kept(a) + Kept(b)
    decreases |a|
  {
    if a == [] {
      assert a + b == b;
    } else {
      KeptAppend(a[1..], b);
      assert (a + b)[1..] == a[1..] + b;
      AppendAssoc(if IsStateMessage(a[0]) then [] else [a[0]], Kept(a[1..]), Kept(b));
    }
  }

  /** The last valid state of a concatenation is that of its second part, if it has one. */
  lemma {:induction false} LastValidAppend(a: seq<Value>, b: seq<Value>, json: Json)
    ensures LastValid(a + b, json) == if LastValid(b, json).Some? then LastValid(b, json) else LastValid(a, json)
    decreases |a|
  {
    if a == [] {
      assert a + b == b;
    } else {
      LastValidAppend(a[1..], b, json);
      assert (a + b)[1..] == a[1..] + b;
    }
  }

  /** Without a valid state message the state is the empty one. */
  lemma {:induction false} NoStateGivesDefault(messages: seq<Value>, json: Json)
    requires forall i :: 0 <= i < |messages| ==> !ValidState(messages[i], json)
    ensures ExtractAgentState(messages, json).1 == DefaultState
    ensures LastValid(messages, json).None?
    decreases |messages|
  {
    if messages != [] {
      NoStateGivesDefault(messages[1..], json);
    }
  }

  /** A valid state message followed by no other valid one decides the state. */
  lemma LaterStateWins(a: seq<Value>, m: Value, b: seq<Value>, json: Json)
    requires ValidState(m, json)
    requires forall i :: 0 <= i < |b| ==> !ValidState(b[i], json)
    ensures ExtractAgentState(a + [m] + b, json).1 == StateOf(m, json)
  {
    NoStateGivesDefault(b, json);
    LastValidAppend(a + [m], b, json);
    LastValidAppend(a, [m], json);
  }

  /** A malformed or non-object payload changes nothing, yet its message is removed. */
  lemma MalformedStateIgnored(a: seq<Value>, m: Value, b: seq<Value>, json: Json)
    requires IsStateMessage(m) && !ValidState(m, json)
    ensures ExtractAgentState(a + [m] + b, json) == ExtractAgentState(a + b, json)
  {
    LastValidAppend(a + [m], b, json);
    LastValidAppend(a, [m], json);
    LastValidAppend(a, b, json);
    KeptAppend(a + [m], b);
    KeptAppend(a, [m]);
    KeptAppend(a, b);
    assert Kept([m]) == [];
    assert Kept(a) + [] == Kept(a);
  }

  // ---------------------------------------------------------------------
  // _build_agent_state_message

  /** The object a state message encodes. */
  function StatePayload(company: Value, role: Value, sources: Value): Value {
    Dict([("company", company), ("role", role), ("sources", sources)])
  }

  /** `_build_agent_state_message`. */
  function BuildAgentStateMessage(company: Value, role: Value, sources: Value, json: Json): (r: Value)
    ensures IsStateMessage(r)
    ensures StateText(r) == json.dumps(StatePayload(company, role, sources))
  {
    var content := StatePrefix + json.dumps(StatePayload(company, role, sources));
    var e := [("role", Str("system")), ("content", Str(content))];
    assert Lookup(e, "role") == Some(Str("system"));
    assert Lookup(e[1..], "content") == Some(Str(content));
    assert Lookup(e, "content") == Some(Str(content));
    assert content[..|StatePrefix|] == StatePrefix;
    assert content[|StatePrefix|..] == json.dumps(StatePayload(company, role, sources));
    Dict(e)
  }

  /** Reading back the payload of a state message. */
  lemma StateOfPayloadReadsBack(company: Value, role: Value, sources: Value)
    ensures StateOfPayload(StatePayload(company, role, sources).entries) == CachedState(company, role, sources)
  {
    var e := StatePayload(company, role, sources).entries;
    assert Lookup(e, "company") == Some(company);
    assert Lookup(e[1..], "role") == Some(role);
    assert Lookup(e, "role") == Some(role);
    assert Lookup(e[2..], "sources") == Some(sources);
    assert Lookup(e[1..], "sources") == Some(sources);
    assert Lookup(e, "sources") == Some(sources);
  }

  /**
   * A state message written at the end of a turn is recovered on the next:
   * it is removed from the history and restores the company, role and
   * sources, provided decoding inverts encoding on its payload.
   */
  lemma StateMessageRoundTrip(history: seq<Value>, company: Value, role: Value, sources: Value, json: Json)
    requires json.loads(json.dumps(StatePayload(company, role, sources))) == Some(StatePayload(company, role, sources))
    ensures ExtractAgentState(history + [BuildAgentStateMessage(company, role, sources, json)], json)
              == (Kept(history), CachedState(company, role, sources))
  {
    var m := BuildAgentStateMessage(company, role, sources, json);
    KeptAppend(history, [m]);
    assert Kept([m]) == [];
    assert Kept(history) + [] == Kept(history);
    LastValidAppend(history, [m], json);
    StateOfPayloadReadsBack(company, role, sources);
  }

  // ---------------------------------------------------------------------
  // request reading and validation

  const MissingQuery := "Missing 'query' in request body."
  const MessagesNotList := "'messages' must be a list of turns."
  const ServerError := "Unexpected server error"

  /** `_parse_event_body`: the decoded or given body; `{}` when it is missing, undecodable or of another type. */
  function ParseEventBody(event: Entries, json: Json): (r: Value)
    ensures !Truthy(Get(event, "body", Null)) ==> r == Dict([])
    ensures Get(event, "body", Null).Dict? ==> r == Get(event, "body", Null)
    ensures Get(event, "body", Null).Str? && Get(event, "body", Null).s != "" ==>
              r == json.loads(Get(event, "body", Null).s).GetOr(Dict([]))
    ensures Get(event, "body", Null).Int? || Get(event, "body", Null).Bool? || Get(event, "body", Null).List? ==>
              r == Dict([])
  {
    var body := Get(event, "body", Null);
    var value := if Truthy(body) then body else Dict([]);
    match value
    case Str(text) => json.loads(text).GetOr(Dict([]))
    case Dict(_) => value
    case _ => Dict([])
  }

  /** A validated request: a stripped, non-blank query and a list of turns. */
  datatype Request = Request(query: string, messages: seq<Value>)

  /** What the handler answers: the response object (status 200) or an error status with its message. */
  datatype Reply =
    | Answered(intent: Entries, answer: Value, sources: Value, messages: seq<Value>)
    | Failed(status: int, message: string)

  /** The HTTP status of a reply. */
  function StatusCode(r: Reply): int {
    if r.Answered? then 200 else r.status
  }

  /** The body a reply is encoded from. */
  function ReplyBody(r: Reply): Value {
    match r
    case Answered(intent, answer, sources, messages) =>
      Dict([("intent", Dict(intent)), ("answer", answer), ("sources", sources), ("messages", List(messages))])
    case Failed(_, message) => Dict([("error", Str(message))])
  }

  /** `(value or "").strip()`: `None` where `strip` raises on a truthy non-string. */
  function TextField(v: Value): (r: Option<string>)
    ensures r.None? <==> Truthy(v) && !v.Str?
    ensures r.Some? ==> Strip(r.value) == r.value
    ensures v.Str? ==> r == Some(Strip(v.s))
  {
    StripIdempotentOn(v);
    if !Truthy(v) then Some("") else if v.Str? then Some(Strip(v.s)) else None
  }

  lemma StripIdempotentOn(v: Value)
    ensures v.Str? ==> Strip(Strip(v.s)) == Strip(v.s)
  {
    if v.Str? {
      StripIdempotent(v.s);
    }
  }

  /** `body.get("messages") or []`. */
  function MessagesField(body: Entries): Value {
    var m := Get(body, "messages", Null);
    if Truthy(m) then m else List([])
  }

  /**
   * The checks at the top of `lambda_handler`: a body that is not an object
   * or a query that is not a string fails with 500; a blank query fails with
   * 400, before the messages are looked at; messages that are not a list
   * fail with 400.
   */
  function ReadRequest(event: Entries, json: Json): (r: Result<Request, Reply>)
    ensures r.Err? ==> r.error.Failed? && r.error.status in {400, 500}
    ensures !ParseEventBody(event, json).Dict? ==> r == Err(Failed(500, ServerError))
    ensures r.Ok? ==> r.value.query != "" && Strip(r.value.query) == r.value.query
    ensures ParseEventBody(event, json).Dict? ==>
              var body := ParseEventBody(event, json).entries;
              && (TextField(Get(body, "query", Null)) == Some("") ==> r == Err(Failed(400, MissingQuery)))
              && (TextField(Get(body, "query", Null)).Some? && TextField(Get(body, "query", Null)) != Some("") ==>
                    (r.Ok? <==> MessagesField(body).List?))
              && (r.Ok? ==> MessagesField(body).List? && r.value.messages == MessagesField(body).items
                            && Some(r.value.query) == TextField(Get(body, "query", Null)))
  {
    var body := ParseEventBody(event, json);
    if !body.Dict? then Err(Failed(500, ServerError))
    else match TextField(Get(body.entries, "query", Null))
      case None => Err(Failed(500, ServerError))
      case Some(query) =>
        var raw := MessagesField(body.entries);
        if query == "" then Err(Failed(400, MissingQuery))
        else if !raw.List? then Err(Failed(400, MessagesNotList))
        else Ok(Request(query, raw.items))
  }

  // ---------------------------------------------------------------------
  // concept questions

  const ConceptPrefixes: seq<string> := [
    "what is ", "what are ", "explain ", "define ", "how does ", "how do ",
    "describe ", "difference between ", "compare ", "when is ", "why is "]

  /**
   * A concept question: the lowercased, stripped query starts with one of
   * the prefixes and mentions neither "interview" nor "round".
   */
  predicate IsConceptQuestion(query: string) {
    var q := Strip(Lower(query));
    && (exists i :: 0 <= i < |ConceptPrefixes| && StartsWith(q, ConceptPrefixes[i]))
    && !Contains(q, "interview")
    && !Contains(q, "round")
  }

  /** Any query mentioning an interview is never a concept question. */
  lemma InterviewIsNeverConcept(query: string, i: nat)
    requires OccursAt(Strip(Lower(query)), "interview", i)
    ensures !IsConceptQuestion(query)
  {
    OccursContains(Strip(Lower(query)), "interview", i);
  }

  /**
   * A definition request is a concept question.
   * The text is a parameter pinned by the precondition so that the proof
   * works on a name instead of re-expanding the literal at every step.
   */
  lemma ConceptExample(a: string)
    requires a == "explain a heap"
    ensures IsConceptQuestion(a)
  {
    assert Strip(Lower(a)) == a by {
      assert Lower(a) == a;
      StripNoop(a);
    }
    assert StartsWith(a, ConceptPrefixes[2]);
    assert !Contains(a, "interview") by {
      NotContainedChar(a, "interview", 5);
    }
    assert !Contains(a, "round") by {
      NotContainedChar(a, "round", 0);
    }
  }

  /**
   * The same opening about the interview itself is not.
   * The text is a parameter pinned by the precondition so that the proof
   * works on a name instead of re-expanding the literal at every step.
   */
  lemma InterviewExample(b: string)
    requires b == "what is the interview format"
    ensures !IsConceptQuestion(b)
  {
    var l := Lower(b);
    assert l[0] == 'w' && l[|l| - 1] == 't';
    StripNoop(l);
    assert l[12..21] == "interview" by {
      forall k | 0 <= k < 9
        ensures l[12 + k] == "interview"[k]
      {
        assert b[12 + k] == "interview"[k];
      }
    }
    InterviewIsNeverConcept(b, 12);
  }

  /** A query without one of the openings is not. */
  lemma NoPrefixExample()
    ensures !IsConceptQuestion("Tell me about Amazon")
  {
    var l := Lower("Tell me about Amazon");
    assert l[0] == 't' && l[|l| - 1] == 'n';
    StripNoop(l);
    forall i | 0 <= i < |ConceptPrefixes|
      ensures !StartsWith(l, ConceptPrefixes[i])
    {
      assert ConceptPrefixes[i][0] != 't';
    }
  }

  /** Clearing the intent and the state for a concept question. */
  function ApplyOverride(query: string, intent: Entries, cached: CachedState): (r: (Entries, CachedState))
    ensures IsConceptQuestion(query) ==>
              && Lookup(r.0, "wants_interview_intel") == Some(Bool(false))
              && Lookup(r.0, "company") == Some(Str(""))
              && Lookup(r.0, "role") == Some(Str(""))
              && r.1 == DefaultState
    ensures forall k :: k != "wants_interview_intel" && k != "company" && k != "role" ==>
              Lookup(r.0, k) == Lookup(intent, k)
    ensures !IsConceptQuestion(query) ==> r == (intent, cached)
  {
    if IsConceptQuestion(query) then
      (Put(Put(Put(intent, "wants_interview_intel", Bool(false)), "company", Str("")), "role", Str("")), DefaultState)
    else (intent, cached)
  }

  /** `latest_intent.get("wants_interview_intel", False)` is truthy. */
  predicate WantsIntel(intent: Entries) {
    Truthy(Get(intent, "wants_interview_intel", Bool(false)))
  }

  // ---------------------------------------------------------------------
  // company, role and sources

  /** The company and role the intel flow searches for and caches. */
  datatype Profile = Profile(company: Value, role: Value)

  /**
   * The stripped company and role of the intent, with the cached company
   * when intel is wanted and the intent names none; the cached role then
   * fills in only a missing role.
   */
  function ResolveProfile(wants: bool, company: string, role: string, cached: CachedState): (r: Profile)
    ensures company != "" || !wants || !Truthy(cached.company) ==> r == Profile(Str(company), Str(role))
    ensures company == "" && wants && Truthy(cached.company) ==>
              && r.company == cached.company
              && r.role == (if role == "" then cached.role else Str(role))
    ensures r.role != Str(role) ==> r.company == cached.company && role == ""
  {
    if wants && company == "" && Truthy(cached.company) then
      Profile(cached.company, if role == "" then cached.role else Str(role))
    else Profile(Str(company), Str(role))
  }

  /** `cached_state.get("sources") or []`. */
  function CachedSources(cached: CachedState): Value {
    if Truthy(cached.sources) then cached.sources else List([])
  }

  /** Sources are fetched again when none are cached or the company or role changed. */
  predicate ShouldRefresh(profile: Profile, cached: CachedState) {
    !Truthy(CachedSources(cached)) || profile.company != cached.company || profile.role != cached.role
  }

  /**
   * The sources of an intel turn: on a refresh, the fetched ones when there
   * are any and otherwise the cached ones (or `[]`); without a refresh, the
   * cached ones. `None` when the fetch raises.
   */
  function NextSources(profile: Profile, cached: CachedState, fetch: (Value, Value) -> Option<seq<Value>>): (r: Option<Value>)
    ensures !ShouldRefresh(profile, cached) ==> r == Some(cached.sources)
    ensures ShouldRefresh(profile, cached) ==> (r.None? <==> fetch(profile.company, profile.role).None?)
    ensures ShouldRefresh(profile, cached) && fetch(profile.company, profile.role).Some? ==>
              r == Some(if fetch(profile.company, profile.role).value != [] then List(fetch(profile.company, profile.role).value)
                        else CachedSources(cached))
    ensures r.Some? && Truthy(cached.sources) ==> Truthy(r.value)
    ensures r.Some? && !Truthy(r.value) ==> r.value == List([])
  {
    var sources := CachedSources(cached);
    if ShouldRefresh(profile, cached) then
      match fetch(profile.company, profile.role)
      case None => None
      case Some(fetched) => Some(if fetched != [] then List(fetched) else sources)
    else Some(sources)
  }

  /**
   * A turn that repeats the company and role of the previous intel turn,
   * whose sources were non-empty, reuses those sources without fetching.
   */
  lemma CachedSourcesReused(history: seq<Value>, company: Value, role: Value, sources: Value, json: Json,
                            fetch: (Value, Value) -> Option<seq<Value>>)
    requires json.loads(json.dumps(StatePayload(company, role, sources))) == Some(StatePayload(company, role, sources))
    requires Truthy(sources)
    ensures var cached := ExtractAgentState(history + [BuildAgentStateMessage(company, role, sources, json)], json).1;
      && !ShouldRefresh(Profile(company, role), cached)
      && NextSources(Profile(company, role), cached, fetch) == Some(sources)
  {
    StateMessageRoundTrip(history, company, role, sources, json);
  }

  // ---------------------------------------------------------------------
  // _generate_general_answer

  const GeneralFallback := "I'm here! How can I help you?"

  /** The text one block contributes: a string text of a text block, `None` when `join` raises. */
  function ChunkOf(block: Value): Option<string> {
    if block.Dict? && Get(block.entries, "type", Null) == Str("text") then
      var t := Get(block.entries, "text", Str(""));
      if t.Str? then Some(t.s) else None
    else Some("")
  }

  /** The joined chunks of `blocks`, in order. */
  function JoinChunks(blocks: seq<Value>): Option<string> {
    if blocks == [] then Some("")
    else match (ChunkOf(blocks[0]), JoinChunks(blocks[1..]))
      case (Some(a), Some(b)) => Some(a + b)
      case _ => None
  }

  /**
   * The answer of `_generate_general_answer` from the decoded model response
   * (`None` when the call or the decoding fails): the stripped joined text,
   * or the friendly fallback when it is empty or anything raises.
   */
  function GeneralAnswer(response: Option<Value>): (r: string)
    ensures r != ""
    ensures r != GeneralFallback ==> Strip(r) == r
    ensures response.None? || (response.Some? && !response.value.Dict?) ==> r == GeneralFallback
    ensures response.Some? && response.value.Dict? && !Get(response.value.entries, "content", List([])).List? ==>
              r == GeneralFallback
  {
    if response.None? || !response.value.Dict? then GeneralFallback
    else
      var content := Get(response.value.entries, "content", List([]));
      if !content.List? then GeneralFallback
      else match JoinChunks(content.items)
        case None => GeneralFallback
        case Some(t) =>
          StripIdempotent(t);
          if Strip(t) != "" then Strip(t) else GeneralFallback
  }

  /** The chunks of two runs of blocks are joined in order, and the join raises when either run does. */
  lemma {:induction false} JoinChunksAppend(a: seq<Value>, b: seq<Value>)
    ensures JoinChunks(a + b) ==
      (if JoinChunks(a).Some? && JoinChunks(b).Some? then Some(JoinChunks(a).value + JoinChunks(b).value) else None)
    decreases |a|
  {
    if a == [] {
      assert a + b == b;
      if JoinChunks(b).Some? {
        assert "" + JoinChunks(b).value == JoinChunks(b).value;
      }
    } else {
      assert (a + b)[0] == a[0];
      assert (a + b)[1..] == a[1..] + b;
      JoinChunksAppend(a[1..], b);
      if ChunkOf(a[0]).Some? && JoinChunks(a[1..]).Some? && JoinChunks(b).Some? {
        AppendAssoc(ChunkOf(a[0]).value, JoinChunks(a[1..]).value, JoinChunks(b).value);
      }
    }
  }

  /** Blocks whose chunks are `texts` join to the texts in order. */
  lemma {:induction false} JoinChunksOfBlocks(blocks: seq<Value>, texts: seq<string>)
    requires |texts| == |blocks|
    requires forall i :: 0 <= i < |blocks| ==> ChunkOf(blocks[i]) == Some(texts[i])
    ensures JoinChunks(blocks) == Some(Concat(texts))
    decreases |blocks|
  {
    if blocks != [] {
      assert forall i :: 0 <= i < |blocks| - 1 ==> blocks[1..][i] == blocks[i + 1] && texts[1..][i] == texts[i + 1];
      JoinChunksOfBlocks(blocks[1..], texts[1..]);
    }
  }

  /** One text block whose text is not a string makes the join raise. */
  lemma {:induction false} JoinChunksRaises(blocks: seq<Value>, i: nat)
    requires i < |blocks| && ChunkOf(blocks[i]).None?
    ensures JoinChunks(blocks).None?
    decreases i
  {
    if i > 0 {
      assert blocks[1..][i - 1] == blocks[i];
      JoinChunksRaises(blocks[1..], i - 1);
    }
  }

  /**
   * A response whose content blocks carry `texts` answers with their
   * stripped concatenation, or the fallback when that is empty.
   */
  lemma GeneralAnswerOfBlocks(entries: Entries, blocks: seq<Value>, texts: seq<string>)
    requires Get(entries, "content", List([])) == List(blocks)
    requires |texts| == |blocks|
    requires forall i :: 0 <= i < |blocks| ==> ChunkOf(blocks[i]) == Some(texts[i])
    ensures GeneralAnswer(Some(Dict(entries))) ==
              (if Strip(Concat(texts)) != "" then Strip(Concat(texts)) else GeneralFallback)
  {
    JoinChunksOfBlocks(blocks, texts);
  }

  /** A response with a text block whose text is not a string answers with the fallback. */
  lemma GeneralAnswerRaises(entries: Entries, blocks: seq<Value>, i: nat)
    requires Get(entries, "content", List([])) == List(blocks)
    requires i < |blocks| && ChunkOf(blocks[i]).None?
    ensures GeneralAnswer(Some(Dict(entries))) == GeneralFallback
  {
    JoinChunksRaises(blocks, i);
  }

  // ---------------------------------------------------------------------
  // lambda_handler

  /**
   * The services the handler calls: `extract_intent`,
   * `fetch_interview_sources` and `synthesize_interview_answer` (modelled in
   * their own modules) with `None` where they raise, and the decoded reply of
   * the general-chat model call (`None` where that fails).
   */
  datatype Services = Services(
    json: Json,
    detectIntent: (string, seq<Value>) -> Option<Value>,
    generalModel: string -> Option<Value>,
    fetchSources: (Value, Value) -> Option<seq<Value>>,
    synthesize: (string, Entries, Value, seq<Value>) -> Option<Entries>)

  /** Services none of which raises. */
  ghost predicate Reliable(s: Services) {
    && (forall q, h :: s.detectIntent(q, h).Some?)
    && (forall c, r :: s.fetchSources(c, r).Some?)
    && (forall q, i, src, h :: s.synthesize(q, i, src, h).Some?)
  }

  /** A chat turn. */
  function Message(role: string, content: Value): Value {
    Dict([("role", Str(role)), ("content", content)])
  }

  /**
   * The intel flow: resolve the profile, pick the sources, synthesize, and
   * append the state message; a company or role that is not a string, or a
   * fetch or synthesis that raises, gives the 500 reply.
   */
  function IntelReply(query: string, intent: Entries, cached: CachedState, history: seq<Value>, s: Services): (r: Reply)
    ensures r.Answered? || r == Failed(500, ServerError)
    ensures TextField(Get(intent, "company", Null)).None? || TextField(Get(intent, "role", Null)).None? ==>
              r == Failed(500, ServerError)
    ensures Reliable(s) && TextField(Get(intent, "company", Null)).Some? && TextField(Get(intent, "role", Null)).Some? ==>
              r.Answered?
    ensures r.Answered? ==>
              && |r.messages| == |history| + 2
              && r.messages[..|history|] == history
              && IsStateMessage(r.messages[|history| + 1])
    ensures TextField(Get(intent, "company", Null)).Some? && TextField(Get(intent, "role", Null)).Some? ==>
              var p := ResolveProfile(WantsIntel(intent), TextField(Get(intent, "company", Null)).value,
                                      TextField(Get(intent, "role", Null)).value, cached);
              var next := NextSources(p, cached, s.fetchSources);
              && (next.None? ==> r == Failed(500, ServerError))
              && (next.Some? ==> (r.Answered? <==> s.synthesize(query, intent, next.value, history).Some?))
              && (r.Answered? ==>
                    && next.Some?
                    && s.synthesize(query, intent, next.value, history).Some?
                    && var payload := s.synthesize(query, intent, next.value, history).value;
                    && r.intent == intent
                    && r.answer == Get(payload, "answer_markdown", Str(""))
                    && r.sources == Get(payload, "sources", List([]))
                    && r.messages[|history|] == Message("assistant", r.answer)
                    && r.messages[|history| + 1] == BuildAgentStateMessage(p.company, p.role, next.value, s.json))
  {
    match (TextField(Get(intent, "company", Null)), TextField(Get(intent, "role", Null)))
    case (Some(company), Some(role)) =>
      var profile := ResolveProfile(WantsIntel(intent), company, role, cached);
      (match NextSources(profile, cached, s.fetchSources)
       case None => Failed(500, ServerError)
       case Some(sources) =>
         match s.synthesize(query, intent, sources, history)
         case None => Failed(500, ServerError)
         case Some(payload) =>
           var answer := Get(payload, "answer_markdown", Str(""));
           var state := BuildAgentStateMessage(profile.company, profile.role, sources, s.json);
           Answered(intent, answer, Get(payload, "sources", List([])), history + [Message("assistant", answer), state]))
    case _ => Failed(500, ServerError)
  }

  /**
   * The state message an answered intel turn appends is read back on the
   * next turn: the history returns without it, and the state is the
   * company and role the turn searched for with the sources it used.
   */
  lemma IntelReplyCarriesState(query: string, intent: Entries, cached: CachedState, history: seq<Value>, s: Services,
                               company: string, role: string, sources: Value)
    requires TextField(Get(intent, "company", Null)) == Some(company)
    requires TextField(Get(intent, "role", Null)) == Some(role)
    requires NextSources(ResolveProfile(WantsIntel(intent), company, role, cached), cached, s.fetchSources) == Some(sources)
    requires IntelReply(query, intent, cached, history, s).Answered?
    requires s.json.loads(s.json.dumps(StatePayload(ResolveProfile(WantsIntel(intent), company, role, cached).company,
                                                    ResolveProfile(WantsIntel(intent), company, role, cached).role, sources)))
             == Some(StatePayload(ResolveProfile(WantsIntel(intent), company, role, cached).company,
                                  ResolveProfile(WantsIntel(intent), company, role, cached).role, sources))
    ensures var r := IntelReply(query, intent, cached, history, s);
      var p := ResolveProfile(WantsIntel(intent), company, role, cached);
      ExtractAgentState(r.messages, s.json) == (Kept(history) + [Message("assistant", r.answer)], CachedState(p.company, p.role, sources))
  {
    var r := IntelReply(query, intent, cached, history, s);
    var p := ResolveProfile(WantsIntel(intent), company, role, cached);
    var reply := Message("assistant", r.answer);
    assert r.messages == (history + [reply]) + [BuildAgentStateMessage(p.company, p.role, sources, s.json)] by {
      assert r.messages == r.messages[..|history|] + [r.messages[|history|], r.messages[|history| + 1]];
    }
    StateMessageRoundTrip(history + [reply], p.company, p.role, sources, s.json);
    KeptAppend(history, [reply]);
    AssistantKept(r.answer);
  }

  /** An assistant turn is not a state message, so it stays in the history. */
  lemma AssistantKept(answer: Value)
    ensures Kept([Message("assistant", answer)]) == [Message("assistant", answer)]
  {
    var m := Message("assistant", answer);
    assert Get(m.entries, "role", Null) == Str("assistant");
    assert Kept([m]) == [m] + Kept([]);
  }

  /**
   * A following intel turn that resolves to the same company and role
   * reuses the sources of an answered intel turn, when there were any,
   * without fetching.
   */
  lemma RepeatedProfileReusesSources(query: string, intent: Entries, cached: CachedState, history: seq<Value>,
                                     s: Services, company: string, role: string, sources: Value,
                                     fetch: (Value, Value) -> Option<seq<Value>>)
    requires TextField(Get(intent, "company", Null)) == Some(company)
    requires TextField(Get(intent, "role", Null)) == Some(role)
    requires NextSources(ResolveProfile(WantsIntel(intent), company, role, cached), cached, s.fetchSources) == Some(sources)
    requires IntelReply(query, intent, cached, history, s).Answered? && Truthy(sources)
    requires s.json.loads(s.json.dumps(StatePayload(ResolveProfile(WantsIntel(intent), company, role, cached).company,
                                                    ResolveProfile(WantsIntel(intent), company, role, cached).role, sources)))
             == Some(StatePayload(ResolveProfile(WantsIntel(intent), company, role, cached).company,
                                  ResolveProfile(WantsIntel(intent), company, role, cached).role, sources))
    ensures var p := ResolveProfile(WantsIntel(intent), company, role, cached);
      var nextState := ExtractAgentState(IntelReply(query, intent, cached, history, s).messages, s.json).1;
      NextSources(p, nextState, fetch) == Some(sources)
  {
    IntelReplyCarriesState(query, intent, cached, history, s, company, role, sources);
  }

  /**
   * `lambda_handler` after validation: strip the state messages, detect the
   * intent, apply the concept override, then answer in general chat or run
   * the intel flow.
   */
  function Respond(req: Request, s: Services): (r: Reply)
    ensures r.Answered? || r == Failed(500, ServerError)
    ensures r.Answered? ==>
              var prefix := Kept(req.messages) + [Message("user", Str(req.query))];
              |prefix| < |r.messages| && r.messages[..|prefix|] == prefix
    ensures s.detectIntent(req.query, Kept(req.messages)).None? ==> r == Failed(500, ServerError)
    ensures IsConceptQuestion(req.query) && s.detectIntent(req.query, Kept(req.messages)).Some? ==>
              && r.Answered?
              && r.sources == List([])
              && r.answer == Str(GeneralAnswer(s.generalModel(req.query)))
              && Lookup(r.intent, "wants_interview_intel") == Some(Bool(false))
    ensures s.detectIntent(req.query, Kept(req.messages)).Some? ==>
              var detected := s.detectIntent(req.query, Kept(req.messages)).value;
              var overridden := ApplyOverride(req.query, if detected.Dict? then detected.entries else [],
                                              ExtractAgentState(req.messages, s.json).1);
              var withUser := Kept(req.messages) + [Message("user", Str(req.query))];
              && (!WantsIntel(overridden.0) ==>
                    && r.Answered?
                    && r.intent == overridden.0
                    && r.answer == Str(GeneralAnswer(s.generalModel(req.query)))
                    && r.sources == List([])
                    && r.messages == withUser + [Message("assistant", r.answer)])
              && (WantsIntel(overridden.0) ==> r == IntelReply(req.query, overridden.0, overridden.1, withUser, s))
  {
    var extracted := ExtractAgentState(req.messages, s.json);
    var history := extracted.0;
    match s.detectIntent(req.query, history)
    case None => Failed(500, ServerError)
    case Some(detected) =>
      var overridden := ApplyOverride(req.query, if detected.Dict? then detected.entries else [], extracted.1);
      var intent := overridden.0;
      var withUser := history + [Message("user", Str(req.query))];
      if !WantsIntel(intent) then
        var answer := GeneralAnswer(s.generalModel(req.query));
        Answered(intent, Str(answer), List([]), withUser + [Message("assistant", Str(answer))])
      else
        IntelReply(req.query, intent, overridden.1, withUser, s)
  }

  /** `lambda_handler`. */
  function Handle(event: Entries, s: Services): (r: Reply)
    ensures StatusCode(r) in {200, 400, 500}
    ensures ReadRequest(event, s.json).Err? ==> r == ReadRequest(event, s.json).error
    ensures r.Answered? ==>
              && ReadRequest(event, s.json).Ok?
              && var history := Kept(ReadRequest(event, s.json).value.messages);
                 |history| < |r.messages| && forall i :: 0 <= i < |history| ==> !IsStateMessage(r.messages[i])
  {
    match ReadRequest(event, s.json)
    case Err(e) => e
    case Ok(req) => Respond(req, s)
  }
}

=== FILE: intent.dfy ===
/**
 * The deterministic part of the intent classifier: coercion of the model's
 * JSON fields, the time and keyword heuristics, the merge of model output
 * with heuristics (`_enrich_with_context`) and the prompt's history block.
 *
 * The regex-based company/role guesser is an input (`guess`), and so is
 * `json.dumps` (`dumps`), used when a history turn's content is a dict.
 */
module Intents {
  import opened Wrappers
  import opened Text
  import opened PyValue

  const MinHours: int := 1
  const MaxHours: int := 336
  const DefaultHours: int := 24
  const MaxHistoryTurns: nat := 10

  /** The intent record every producer returns: the six keys of the default intent. */
  datatype Intent = Intent(
    company: string,
    role: string,
    hours: int,
    level: string,
    location: string,
    wantsIntel: bool)

  const DefaultIntent := Intent("", "", DefaultHours, "", "", false)

  // ---------------------------------------------------------------------
  // coercion

  /** `_clamp_hours`. */
  function ClampHours(value: int): (r: int)
    ensures MinHours <= r <= MaxHours
    ensures MinHours <= value <= MaxHours ==> r == value
    ensures value < MinHours ==> r == MinHours
    ensures value > MaxHours ==> r == MaxHours
  {
    if value < MinHours then MinHours else if value > MaxHours then MaxHours else value
  }

  /** `_coerce_str`: the stripped text of the value, or `default` when that is empty or the value is `None`. */
  function CoerceStr(value: Value, default: string): (r: string)
    ensures value.Null? ==> r == default
    ensures value.Str? && Strip(value.s) != "" ==> r == Strip(value.s)
    ensures value.Str? && Strip(value.s) == "" ==> r == default
    ensures !value.Null? && !value.Str? ==> r == PyStr(value) && r != ""
  {
    match value
    case Str(s) => if Strip(s) != "" then Strip(s) else default
    case Null => default
    case _ =>
      StripNoop(PyStr(value));
      var text := Strip(PyStr(value));
      if text != "" then text else default
  }

  const TrueWords: seq<string> := ["true", "t", "yes", "y", "1"]
  const FalseWords: seq<string> := ["false", "f", "no", "n", "0"]

  /** `_coerce_bool`. */
  function CoerceBool(value: Value, default: bool): (r: bool)
    ensures value.Bool? ==> r == value.b
    ensures value.Int? ==> (r <==> value.i != 0)
    ensures value.Str? && Lower(Strip(value.s)) in TrueWords ==> r
    ensures value.Str? && Lower(Strip(value.s)) in FalseWords ==> !r
    ensures value.Str? && Lower(Strip(value.s)) !in TrueWords + FalseWords ==> r == default
    ensures value.Null? || value.List? || value.Dict? ==> r == default
  {
    match value
    case Bool(b) => b
    case Int(i) => i != 0
    case Str(s) =>
      var lowered := Lower(Strip(s));
      if lowered in TrueWords then true
      else if lowered in FalseWords then false
      else default
    case _ => default
  }

  /**
   * `_coerce_hours` on integer inputs: `None` and booleans give the default,
   * an integer or an integer literal is clamped, anything else gives the default.
   */
  function CoerceHours(value: Value, default: int): (r: int)
    ensures value.Null? || value.Bool? || value.List? || value.Dict? ==> r == default
    ensures value.Int? ==> r == ClampHours(value.i)
    ensures value.Str? && ParseInt(value.s).Some? ==> r == ClampHours(ParseInt(value.s).value)
    ensures value.Str? && ParseInt(value.s).None? ==> r == default
    ensures r == default || MinHours <= r <= MaxHours
  {
    match value
    case Int(i) => ClampHours(i)
    case Str(s) => if ParseInt(s).Some? then ClampHours(ParseInt(s).value) else default
    case _ => default
  }

  /** Hours rendered as text and coerced back are the clamped hours. */
  lemma CoerceHoursOfText(hours: int, default: int)
    ensures CoerceHours(Str(IntToString(hours)), default) == ClampHours(hours)
  {
    ParseIntToString(hours);
  }

  /** Coercion is the identity on hours already in range. */
  lemma CoerceHoursInRange(hours: int, default: int)
    requires MinHours <= hours <= MaxHours
    ensures CoerceHours(Int(hours), default) == hours
  {
  }

  /** Coercing a boolean's textual form gives the boolean back. */
  lemma CoerceBoolOfText(b: bool, default: bool)
    ensures CoerceBool(Str(if b then "True" else "False"), default) == b
  {
    var s := if b then "True" else "False";
    StripNoop(s);
    assert Lower(s) == (if b then "true" else "false");
  }

  // ---------------------------------------------------------------------
  // substring tables

  /** Some entry of `words` occurs in `text`. */
  predicate AnyIn(words: seq<string>, text: string) {
    exists k :: 0 <= k < |words| && Contains(text, words[k])
  }

  /** The index of the first entry of `words` occurring in `text`. */
  function FirstIn(words: seq<string>, text: string): (k: Option<nat>)
    ensures k.None? <==> !AnyIn(words, text)
    ensures k.Some? ==>
              && k.value < |words|
              && Contains(text, words[k.value])
              && forall j :: 0 <= j < k.value ==> !Contains(text, words[j])
  {
    if words == [] then None
    else if Contains(text, words[0]) then Some(0)
    else
      var rest := FirstIn(words[1..], text);
      assert forall j :: 1 <= j < |words| ==> words[j] == words[1..][j - 1];
      match rest
      case None => None
      case Some(k) => Some(k + 1)
  }

  // ---------------------------------------------------------------------
  // time inference

  /** `_PHRASE_TO_HOURS`, in table order. */
  const Phrases: seq<string> := [
    "day after tomorrow", "day-after-tomorrow", "later today", "today", "tonight",
    "tomorrow", "this weekend", "weekend", "early next week", "next week",
    "in a week", "two weeks", "2 weeks", "fortnight", "next month"]

  const PhraseHours: seq<int> := [48, 48, 12, 12, 12, 24, 72, 72, 120, 168, 168, 336, 336, 336, 336]

  /** The end of the run of characters satisfying `p` that starts at `i`. */
  function RunEnd(t: string, i: nat, p: char -> bool): (e: nat)
    requires i <= |t|
    ensures i <= e <= |t|
    ensures forall k :: i <= k < e ==> p(t[k])
    ensures e < |t| ==> !p(t[e])
    decreases |t| - i
  {
    if i < |t| && p(t[i]) then RunEnd(t, i + 1, p) else i
  }

  /**
   * The number captured by `in\s+(\d+)\s+<unit>` matched at position `p`,
   * where `units` lists the spellings the unit may start with.
   */
  function MatchInAt(t: string, p: nat, units: seq<string>): Option<nat>
    requires p <= |t|
  {
    if !StartsWith(t[p..], "in") then None
    else
      var b := RunEnd(t, p + 2, IsSpace);
      var c := RunEnd(t, b, IsAsciiDigit);
      var d := RunEnd(t, c, IsSpace);
      if b == p + 2 || c == b || d == c || !AnyStarts(units, t[d..]) then None
      else Some(DigitsValue(t[b..c]))
  }

  /** Some entry of `units` is a prefix of `s`. */
  predicate AnyStarts(units: seq<string>, s: string) {
    exists k :: 0 <= k < |units| && StartsWith(s, units[k])
  }

  /** `re.search`: the leftmost position at or after `p` where the pattern matches. */
  function SearchIn(t: string, p: nat, units: seq<string>): (q: Option<nat>)
    requires p <= |t|
    ensures q.None? ==> forall j :: p <= j <= |t| ==> MatchInAt(t, j, units).None?
    ensures q.Some? ==>
              && p <= q.value <= |t|
              && MatchInAt(t, q.value, units).Some?
              && forall j :: p <= j < q.value ==> MatchInAt(t, j, units).None?
    decreases |t| - p
  {
    if MatchInAt(t, p, units).Some? then Some(p)
    else if p == |t| then None
    else SearchIn(t, p + 1, units)
  }

  /** The number of the leftmost match of the pattern in `t`, if any. */
  function SearchNumber(t: string, units: seq<string>): Option<nat> {
    match SearchIn(t, 0, units)
    case None => None
    case Some(q) => MatchInAt(t, q, units)
  }

  /** `_infer_time_hours`. */
  function InferTimeHours(text: string): (r: int)
    ensures MinHours <= r <= MaxHours
  {
    var lowered := Lower(text);
    match FirstIn(Phrases, lowered)
    case Some(k) => PhraseHours[k]
    case None =>
      match SearchNumber(lowered, ["hour", "hr"])
      case Some(n) => ClampHours(n)
      case None =>
        match SearchNumber(lowered, ["day"])
        case Some(n) => ClampHours(n * 24)
        case None =>
          match SearchNumber(lowered, ["week"])
          case Some(n) => ClampHours(n * 168)
          case None => DefaultHours
  }

  /**
   * The first phrase of the table found in the lowercased text decides, so an
   * earlier, longer phrase beats a later one it contains.
   */
  lemma InferTimeFromPhrase(text: string, k: nat)
    requires k < |Phrases| && Contains(Lower(text), Phrases[k])
    requires forall j :: 0 <= j < k ==> !Contains(Lower(text), Phrases[j])
    ensures InferTimeHours(text) == PhraseHours[k]
  {
    var f := FirstIn(Phrases, Lower(text));
    if f.value < k {
    } else if f.value > k {
    }
  }

  /** "day after tomorrow" gives 48 hours although it also contains "tomorrow". */
  lemma DayAfterTomorrow(text: string)
    requires Contains(Lower(text), "day after tomorrow")
    ensures InferTimeHours(text) == 48
    ensures Contains(Lower(text), "tomorrow")
  {
    InferTimeFromPhrase(text, 0);
    ContainsAt(Lower(text), "day after tomorrow");
    var i :| OccursAt(Lower(text), "day after tomorrow", i);
    var t := Lower(text);
    assert t[i + 10..i + 18] == "tomorrow";
    OccursContains(t, "tomorrow", i + 10);
  }

  /** With no phrase, no pattern and no match, the default of 24 hours applies. */
  lemma InferTimeDefault(text: string)
    requires !AnyIn(Phrases, Lower(text))
    requires SearchNumber(Lower(text), ["hour", "hr"]).None?
    requires SearchNumber(Lower(text), ["day"]).None?
    requires SearchNumber(Lower(text), ["week"]).None?
    ensures InferTimeHours(text) == DefaultHours
  {
  }

  /**
   * "in 3 days" is 72 hours.
   * Here and in the helpers below, the text is a parameter pinned by the
   * precondition so that the proof works on a name instead of
   * re-expanding the literal at every step.
   */
  lemma InThreeDays(t: string)
    requires t == "in 3 days"
    ensures InferTimeHours(t) == 72
  {
    assert Lower(t) == t;
    NoPhraseInThreeDays();
    NoHoursInThreeDays(t);
    DaysInThreeDays(t);
  }

  /** The pieces of "in 3 days" the pattern reads. */
  lemma ThreeDaysRuns(t: string)
    requires t == "in 3 days"
    ensures StartsWith(t[0..], "in")
    ensures RunEnd(t, 2, IsSpace) == 3 && RunEnd(t, 3, IsAsciiDigit) == 4 && RunEnd(t, 4, IsSpace) == 5
    ensures t[5..] == "days" && t[3..4] == "3"
  {
  }

  /** "in 3 days" gives no hour count. */
  lemma NoHoursInThreeDays(t: string)
    requires t == "in 3 days"
    ensures SearchNumber(t, ["hour", "hr"]).None?
  {
    ThreeDaysRuns(t);
    assert !StartsWith(t[5..], "hour") && !StartsWith(t[5..], "hr");
    assert MatchInAt(t, 0, ["hour", "hr"]).None?;
    NoLaterMatch(t, ["hour", "hr"]);
  }

  /** "in 3 days" gives a day count of 3. */
  lemma DaysInThreeDays(t: string)
    requires t == "in 3 days"
    ensures SearchNumber(t, ["day"]) == Some(3)
  {
    ThreeDaysRuns(t);
    assert StartsWith(t[5..], ["day"][0]);
    assert DigitsValue("3") == 3;
    assert MatchInAt(t, 0, ["day"]) == Some(3);
  }

  lemma NoPhraseInThreeDays()
    ensures !AnyIn(Phrases, "in 3 days")
  {
    var t := "in 3 days";
    // Each phrase has a character that "in 3 days" lacks.
    var absent: seq<nat> := [5, 3, 0, 0, 0, 0, 0, 0, 0, 1, 5, 0, 0, 0, 1];
    forall k | 0 <= k < |Phrases|
      ensures !Contains(t, Phrases[k])
    {
      NotContainedChar(t, Phrases[k], absent[k]);
    }
  }

  /** No match can start where the text has no `i`. */
  lemma NoMatchAt(t: string, j: nat, units: seq<string>)
    requires j <= |t| && (j == |t| || t[j] != 'i')
    ensures MatchInAt(t, j, units).None?
  {
    assert !StartsWith(t[j..], "in") by {
      if j < |t| {
        assert t[j..][0] == t[j];
      }
    }
  }

  /** In "in 3 days" only position 0 can start a match. */
  lemma NoLaterMatch(t: string, units: seq<string>)
    requires t == "in 3 days" && MatchInAt(t, 0, units).None?
    ensures SearchIn(t, 0, units).None?
  {
    NoMatchAt(t, 1, units);
    NoMatchAt(t, 2, units);
    NoMatchAt(t, 3, units);
    NoMatchAt(t, 4, units);
    NoMatchAt(t, 5, units);
    NoMatchAt(t, 6, units);
    NoMatchAt(t, 7, units);
    NoMatchAt(t, 8, units);
    NoMatchAt(t, 9, units);
  }

  // ---------------------------------------------------------------------
  // keyword predicates

  const IntelKeywords: seq<string> := ["interview", "intel", "tips", "questions", "process", "prep", "coach", "brief"]

  /** `_ROLE_HINTS`. */
  const RoleHints: seq<string> := [
    "analyst", "associate", "architect", "consultant", "coordinator", "designer",
    "developer", "director", "engineer", "intern", "lead", "manager", "marketer",
    "owner", "pm", "principal", "product manager", "program manager",
    "project manager", "recruiter", "representative", "researcher", "scientist",
    "specialist", "strategist"]

  /** `_infer_wants_interview_intel`: the lowercased text contains a keyword. */
  function InferWantsIntel(text: string): (r: bool)
    ensures r <==> exists k :: 0 <= k < |IntelKeywords| && Contains(Lower(text), IntelKeywords[k])
  {
    FirstIn(IntelKeywords, Lower(text)).Some?
  }

  /** `_looks_like_role`: non-empty and contains a role hint, ignoring case. */
  function LooksLikeRole(role: string): (r: bool)
    ensures role == "" ==> !r
    ensures role != "" ==> (r <==> exists k :: 0 <= k < |RoleHints| && Contains(Lower(role), RoleHints[k]))
  {
    role != "" && FirstIn(RoleHints, Lower(role)).Some?
  }

  lemma SoftwareEngineerIsRole()
    ensures LooksLikeRole("Software Engineer")
  {
    var t := Lower("Software Engineer");
    assert t == "software engineer";
    assert t[9..17] == "engineer";
    OccursContains(t, "engineer", 9);
    assert RoleHints[8] == "engineer";
  }

  // ---------------------------------------------------------------------
  // history

  /** `_stringify_content`: strings as they are, lists joined by spaces, dicts as JSON. */
  function Stringify(content: Value, dumps: Value -> string): string
    decreases content
  {
    match content
    case Str(s) => s
    case List(items) => Join(" ", seq(|items|, k requires 0 <= k < |items| => Stringify(items[k], dumps)))
    case Dict(_) => dumps(content)
    case _ => PyStr(content)
  }

  /** One line of the history block: `ROLE: content`. */
  function TurnLine(turn: Entries, dumps: Value -> string): string {
    Upper(PyStr(Get(turn, "role", Str("UNKNOWN")))) + ": " + Stringify(Get(turn, "content", Str("")), dumps)
  }

  /** The lines of the history block: one per turn of the last ten, oldest first. */
  function HistoryLines(history: seq<Entries>, dumps: Value -> string): (lines: seq<string>)
    ensures |lines| == if |history| < MaxHistoryTurns then |history| else MaxHistoryTurns
    ensures forall i :: 0 <= i < |lines| ==>
              lines[i] == TurnLine(history[|history| - |lines| + i], dumps)
  {
    var trimmed := TakeLast(history, MaxHistoryTurns);
    seq(|trimmed|, i requires 0 <= i < |trimmed| => TurnLine(trimmed[i], dumps))
  }

  /** `_format_history` of the intent prompt. */
  function FormatHistory(history: seq<Entries>, dumps: Value -> string): (r: string)
    ensures history == [] ==> r == "None."
  {
    if history == [] then "None." else Join("\n", HistoryLines(history, dumps))
  }

  /** A non-empty history never renders as the empty marker: its first line has a colon. */
  lemma FormatHistoryNonEmpty(history: seq<Entries>, dumps: Value -> string)
    requires history != []
    ensures FormatHistory(history, dumps) != "None."
  {
    var lines := HistoryLines(history, dumps);
    var turn := history[|history| - |lines|];
    var role := Upper(PyStr(Get(turn, "role", Str("UNKNOWN"))));
    var first := role + ": " + Stringify(Get(turn, "content", Str("")), dumps);
    assert lines[0] == first;
    ColonAfter(role, Stringify(Get(turn, "content", Str("")), dumps));
    JoinStartsWith("\n", lines);
    var r := FormatHistory(history, dumps);
    assert r == Join("\n", lines);
    assert r[|role|] == first[|role|];
    NotNoneMarker(r, |role|);
  }

  /** The colon of `role + ": " + rest` sits right after the role. */
  lemma ColonAfter(role: string, rest: string)
    ensures (role + ": " + rest)[|role|] == ':'
  {
  }

  /** A text with a colon is not the empty-history marker. */
  lemma NotNoneMarker(r: string, k: nat)
    requires k < |r| && r[k] == ':'
    ensures r != "None."
  {
  }

  /** The non-empty entries of `parts`, in order. */
  function NonEmpty(parts: seq<string>): (r: seq<string>)
    ensures |r| <= |parts|
    ensures forall i :: 0 <= i < |r| ==> r[i] != ""
    ensures forall s :: s in r <==> s in parts && s != ""
  {
    if parts == [] then []
    else (if parts[0] != "" then [parts[0]] else []) + NonEmpty(parts[1..])
  }

  /** Filtering distributes over concatenation, so the kept parts stay in order. */
  lemma {:induction false} NonEmptyAppend(a: seq<string>, b: seq<string>)
    ensures NonEmpty(a + b) == NonEmpty(a) + NonEmpty(b)
    decreases |a|
  {
    if a == [] {
      assert a + b == b;
    } else {
      assert (a + b)[0] == a[0];
      assert (a + b)[1..] == a[1..] + b;
      NonEmptyAppend(a[1..], b);
      AppendAssoc(if a[0] != "" then [a[0]] else [], NonEmpty(a[1..]), NonEmpty(b));
    }
  }

  /** The non-empty parts of the text blob: the last ten turns' contents, then the query. */
  function BlobParts(userQuery: string, history: seq<Entries>, dumps: Value -> string): seq<string> {
    var turns := TakeLast(history, MaxHistoryTurns);
    var contents := seq(|turns|, i requires 0 <= i < |turns| => Stringify(Get(turns[i], "content", Str("")), dumps));
    NonEmpty(contents + (if userQuery != "" then [userQuery] else []))
  }

  /** `_compose_text_blob`: the parts joined by spaces, stripped. */
  function ComposeTextBlob(userQuery: string, history: seq<Entries>, dumps: Value -> string): string {
    Strip(Join(" ", BlobParts(userQuery, history, dumps)))
  }

  /** Filtering ends with the last entry when that entry is kept. */
  lemma {:induction false} NonEmptyLast(parts: seq<string>, last: string)
    requires last != ""
    ensures NonEmpty(parts + [last]) == NonEmpty(parts) + [last]
  {
    if parts == [] {
      assert NonEmpty([last]) == [last] + NonEmpty([]);
    } else {
      assert (parts + [last])[1..] == parts[1..] + [last];
      NonEmptyLast(parts[1..], last);
    }
  }

  /** A non-empty query is the last part of the blob. */
  lemma BlobPartsEndWithQuery(userQuery: string, history: seq<Entries>, dumps: Value -> string)
    requires userQuery != ""
    ensures var parts := BlobParts(userQuery, history, dumps);
      parts != [] && parts[|parts| - 1] == userQuery
  {
    var turns := TakeLast(history, MaxHistoryTurns);
    var contents := seq(|turns|, i requires 0 <= i < |turns| => Stringify(Get(turns[i], "content", Str("")), dumps));
    NonEmptyLast(contents, userQuery);
  }

  /** The text blob keeps the whole user query (when it has no surrounding whitespace) at its end. */
  lemma BlobEndsWithQuery(userQuery: string, history: seq<Entries>, dumps: Value -> string)
    requires userQuery != "" && !IsSpace(userQuery[0]) && !IsSpace(userQuery[|userQuery| - 1])
    ensures Contains(ComposeTextBlob(userQuery, history, dumps), userQuery)
  {
    BlobPartsEndWithQuery(userQuery, history, dumps);
    JoinKeepsLast(BlobParts(userQuery, history, dumps), userQuery);
  }

  /** The stripped space-join of parts ending in `last` contains `last`. */
  lemma JoinKeepsLast(parts: seq<string>, last: string)
    requires parts != [] && parts[|parts| - 1] == last
    requires last != "" && !IsSpace(last[0]) && !IsSpace(last[|last| - 1])
    ensures Contains(Strip(Join(" ", parts)), last)
  {
    JoinEndsWith(" ", parts);
    var j := Join(" ", parts);
    assert OccursAt(j, last, |j| - |last|);
    StripKeepsOccurrence(j, last, |j| - |last|);
    OccursContains(Strip(j), last, |j| - |last| - StripOffset(j));
  }

  // ---------------------------------------------------------------------
  // parsing, fallback and enrichment

  /**
   * `_parse_intent_json` after decoding: a non-object is rejected, every
   * field of an object is coerced.
   */
  function ParseIntent(data: Value): (r: Option<Intent>)
    ensures r.Some? <==> data.Dict?
    ensures r.Some? ==> (r.value.wantsIntel == CoerceBool(Get(data.entries, "wants_interview_intel", Null), false))
    ensures r.Some? ==> MinHours <= r.value.hours <= MaxHours
    ensures r.Some? ==> r.value.hours == CoerceHours(Get(data.entries, "time_to_interview_hours", Null), DefaultHours)
    ensures r.Some? ==> r.value.company == CoerceStr(Get(data.entries, "company", Null), "")
    ensures r.Some? ==> r.value.role == CoerceStr(Get(data.entries, "role", Null), "")
    ensures r.Some? ==> r.value.level == CoerceStr(Get(data.entries, "level", Null), "")
    ensures r.Some? ==> r.value.location == CoerceStr(Get(data.entries, "location", Null), "")
  {
    match data
    case Dict(d) =>
      Some(Intent(
        CoerceStr(Get(d, "company", Null), ""),
        CoerceStr(Get(d, "role", Null), ""),
        CoerceHours(Get(d, "time_to_interview_hours", Null), DefaultHours),
        CoerceStr(Get(d, "level", Null), ""),
        CoerceStr(Get(d, "location", Null), ""),
        CoerceBool(Get(d, "wants_interview_intel", Null), false)))
    case _ => None
  }

  /** An intent as the JSON object `extract_intent` returns. */
  function IntentObject(i: Intent): Value {
    Dict([("company", Str(i.company)), ("role", Str(i.role)), ("time_to_interview_hours", Int(i.hours)),
          ("level", Str(i.level)), ("location", Str(i.location)), ("wants_interview_intel", Bool(i.wantsIntel))])
  }

  /**
   * Parsing inverts the object form of an intent whose texts are already
   * stripped and whose hours are already in range.
   */
  lemma ParseIntentRoundTrip(i: Intent)
    requires Strip(i.company) == i.company && Strip(i.role) == i.role
    requires Strip(i.level) == i.level && Strip(i.location) == i.location
    requires MinHours <= i.hours <= MaxHours
    ensures ParseIntent(IntentObject(i)) == Some(i)
  {
    IntentObjectFields(i);
    var d := IntentObject(i).entries;
    assert CoerceStr(Get(d, "company", Null), "") == i.company;
    assert CoerceStr(Get(d, "role", Null), "") == i.role;
    assert CoerceStr(Get(d, "level", Null), "") == i.level;
    assert CoerceStr(Get(d, "location", Null), "") == i.location;
    assert CoerceHours(Get(d, "time_to_interview_hours", Null), DefaultHours) == i.hours;
    assert CoerceBool(Get(d, "wants_interview_intel", Null), false) == i.wantsIntel;
  }

  /** Each field of the object form reads back as written. */
  lemma IntentObjectFields(i: Intent)
    ensures var d := IntentObject(i).entries;
      && Get(d, "company", Null) == Str(i.company)
      && Get(d, "role", Null) == Str(i.role)
      && Get(d, "time_to_interview_hours", Null) == Int(i.hours)
      && Get(d, "level", Null) == Str(i.level)
      && Get(d, "location", Null) == Str(i.location)
      && Get(d, "wants_interview_intel", Null) == Bool(i.wantsIntel)
  {
    var d := IntentObject(i).entries;
    LookupSkip(d, "role");
    LookupSkip(d, "time_to_interview_hours");
    LookupSkip(d[1..], "time_to_interview_hours");
    LookupSkip(d, "level");
    LookupSkip(d[1..], "level");
    LookupSkip(d[2..], "level");
    LookupSkip(d, "location");
    LookupSkip(d[1..], "location");
    LookupSkip(d[2..], "location");
    LookupSkip(d[3..], "location");
    LookupSkip(d, "wants_interview_intel");
    LookupSkip(d[1..], "wants_interview_intel");
    LookupSkip(d[2..], "wants_interview_intel");
    LookupSkip(d[3..], "wants_interview_intel");
    LookupSkip(d[4..], "wants_interview_intel");
  }

  /** A lookup passes over a first entry with another key. */
  lemma LookupSkip(d: Entries, key: string)
    requires d != [] && d[0].0 != key
    ensures Lookup(d, key) == Lookup(d[1..], key)
  {
  }

  /** `_fallback_intent`: the guesser's company and role, inferred hours and intel flag. */
  function FallbackIntent(userQuery: string, history: seq<Entries>, guess: string -> (string, string),
                          dumps: Value -> string): (r: Intent)
    ensures MinHours <= r.hours <= MaxHours
    ensures r.hours == InferTimeHours(ComposeTextBlob(userQuery, history, dumps))
    ensures (r.company, r.role) == guess(ComposeTextBlob(userQuery, history, dumps))
    ensures r.wantsIntel == InferWantsIntel(userQuery)
    ensures r.level == "" && r.location == ""
  {
    var blob := ComposeTextBlob(userQuery, history, dumps);
    var (company, role) := guess(blob);
    DefaultIntent.(
      company := company,
      role := role,
      hours := InferTimeHours(blob),
      wantsIntel := InferWantsIntel(userQuery))
  }

  /** `_enrich_with_context`: fill what the intent leaves empty from the heuristics. */
  function EnrichWithContext(intent: Intent, userQuery: string, history: seq<Entries>,
                             guess: string -> (string, string), dumps: Value -> string): (r: Intent)
    ensures intent.company != "" ==> r.company == intent.company
    ensures intent.role != "" ==> r.role == intent.role
    ensures intent.company == "" ==> r.company == guess(ComposeTextBlob(userQuery, history, dumps)).0
    ensures intent.role == "" ==> r.role == guess(ComposeTextBlob(userQuery, history, dumps)).1
    ensures intent.wantsIntel ==> r.wantsIntel
    ensures MinHours <= r.hours <= MaxHours
    ensures MinHours <= intent.hours <= MaxHours ==> r.hours == intent.hours
    ensures intent.hours == 0 ==> r.hours == InferTimeHours(ComposeTextBlob(userQuery, history, dumps))
    ensures intent.hours != 0 ==> r.hours == ClampHours(intent.hours)
    ensures r.level == intent.level && r.location == intent.location
  {
    var blob := ComposeTextBlob(userQuery, history, dumps);
    var (company, role) := guess(blob);
    var hours := if intent.hours == 0 then InferTimeHours(blob) else intent.hours;
    intent.(
      company := if intent.company == "" && company != "" then company else intent.company,
      role := if intent.role == "" && role != "" then role else intent.role,
      hours := CoerceHours(Int(hours), DefaultHours),
      wantsIntel := intent.wantsIntel || InferWantsIntel(userQuery))
  }

  /** Enriching twice with the same context changes nothing more. */
  lemma EnrichIdempotent(intent: Intent, userQuery: string, history: seq<Entries>,
                         guess: string -> (string, string), dumps: Value -> string)
    ensures var once := EnrichWithContext(intent, userQuery, history, guess, dumps);
      EnrichWithContext(once, userQuery, history, guess, dumps) == once
  {
  }

  /** The intel flag ends up set exactly when the model said so or the query has a keyword. */
  lemma EnrichIntelFlag(intent: Intent, userQuery: string, history: seq<Entries>,
                        guess: string -> (string, string), dumps: Value -> string)
    ensures (EnrichWithContext(intent, userQuery, history, guess, dumps).wantsIntel
             <==> intent.wantsIntel || exists k :: 0 <= k < |IntelKeywords| && Contains(Lower(userQuery), IntelKeywords[k]))
  {
  }

  /**
   * `extract_intent`: the parsed model output, or the heuristic fallback when
   * the call, the text extraction or the decoding fails (`None`) or the output
   * is not an object, then enriched from the context.
   */
  function ExtractIntent(userQuery: string, history: seq<Entries>, modelOutput: Option<Value>,
                         guess: string -> (string, string), dumps: Value -> string): (r: Intent)
    ensures MinHours <= r.hours <= MaxHours
    ensures InferWantsIntel(userQuery) ==> r.wantsIntel
    ensures modelOutput.Some? && modelOutput.value.Dict? &&
            CoerceStr(Get(modelOutput.value.entries, "company", Null), "") != "" ==>
              r.company == CoerceStr(Get(modelOutput.value.entries, "company", Null), "")
  {
    var parsed := if modelOutput.Some? then ParseIntent(modelOutput.value) else None;
    var intent := if parsed.Some? then parsed.value else FallbackIntent(userQuery, history, guess, dumps);
    EnrichWithContext(intent, userQuery, history, guess, dumps)
  }
}

=== FILE: pyvalue.dfy ===
/**
 * The JSON-shaped Python values the backend passes around: `None`, booleans,
 * integers, strings, lists and dicts.  A dict is an association list whose
 * keys are taken to be distinct, as they are in a Python dict; lookup finds
 * the first entry with the key.
 */
module PyValue {
  import opened Wrappers
  import opened Text

  datatype Value =
    | Null
    | Bool(b: bool)
    | Int(i: int)
    | Str(s: string)
    | List(items: seq<Value>)
    | Dict(entries: seq<(string, Value)>)

  type Entries = seq<(string, Value)>

  /** Python truthiness. */
  predicate Truthy(v: Value) {
    match v
    case Null => false
    case Bool(b) => b
    case Int(i) => i != 0
    case Str(s) => s != ""
    case List(items) => items != []
    case Dict(entries) => entries != []
  }

  /** `key in d`. */
  predicate HasKey(d: Entries, key: string) {
    exists k :: 0 <= k < |d| && d[k].0 == key
  }

  /** `d.get(key)`: the value of the first entry with `key`. */
  function Lookup(d: Entries, key: string): (r: Option<Value>)
    ensures r.None? <==> !HasKey(d, key)
    ensures r.Some? ==> exists k :: 0 <= k < |d| && d[k] == (key, r.value)
  {
    if d == [] then None
    else if d[0].0 == key then Some(d[0].1)
    else
      var r := Lookup(d[1..], key);
      assert forall k :: 1 <= k < |d| ==> d[k] == d[1..][k - 1];
      r
  }

  /** `d.get(key, default)`. */
  function Get(d: Entries, key: string, default: Value): Value {
    Lookup(d, key).GetOr(default)
  }

  /** `d[key] = value`: replaces the entry in place, or appends a new one. */
  function Put(d: Entries, key: string, value: Value): (r: Entries)
    ensures Lookup(r, key) == Some(value)
    ensures forall k :: k != key ==> Lookup(r, k) == Lookup(d, k)
  {
    if d == [] then [(key, value)]
    else if d[0].0 == key then [(key, value)] + d[1..]
    else [d[0]] + Put(d[1..], key, value)
  }

  /** Python's `repr` with quotes around strings; escapes inside strings are not modelled. */
  function Repr(v: Value): string
    decreases v
  {
    match v
    case Null => "None"
    case Bool(b) => if b then "True" else "False"
    case Int(i) => IntToString(i)
    case Str(s) => "'" + s + "'"
    case List(items) => "[" + Join(", ", seq(|items|, k requires 0 <= k < |items| => Repr(items[k]))) + "]"
    case Dict(entries) =>
      "{" + Join(", ", seq(|entries|, k requires 0 <= k < |entries| =>
                              "'" + entries[k].0 + "': " + Repr(entries[k].1))) + "}"
  }

  /** Python's `str`: the text itself for a string, the `repr` otherwise. */
  function PyStr(v: Value): (r: string)
    ensures v.Str? ==> r == v.s
    ensures !v.Str? ==> r != [] && !IsSpace(r[0]) && !IsSpace(r[|r| - 1])
  {
    match v
    case Str(s) => s
    case Int(i) => NatToStringDigits(if i < 0 then -i else i); Repr(v)
    case _ => Repr(v)
  }
}

=== FILE: text.dfy ===
/**
 * The fragment of Python's `str` behaviour the backend relies on: character
 * classes, `strip`, `lower`/`upper`, substring tests, slicing, `join`, and
 * decimal rendering and parsing of integers.
 */
module Text {
  import opened Wrappers

  /** Python's `str.isspace` for a single code point. */
  predicate IsSpace(c: char) {
    var n := c as int;
    (9 <= n <= 13) || (0x1C <= n <= 0x20) || n == 0x85 || n == 0xA0
    || n == 0x1680 || (0x2000 <= n <= 0x200A) || n == 0x2028 || n == 0x2029
    || n == 0x202F || n == 0x205F || n == 0x3000
  }

  /** The C0 and C1 control characters. */
  predicate IsControl(c: char) {
    c as int < 0x20 || (0x7F <= c as int <= 0x9F)
  }

  /**
   * Python's `str.isprintable` for a single code point, approximated: the
   * ASCII space is printable, every other whitespace character and every
   * control character is not.
   */
  predicate IsPrintable(c: char) {
    c == ' ' || (!IsSpace(c) && !IsControl(c))
  }

  predicate IsAsciiDigit(c: char) {
    '0' <= c <= '9'
  }

  predicate AllDigits(s: string) {
    forall i :: 0 <= i < |s| ==> IsAsciiDigit(s[i])
  }

  // ---------------------------------------------------------------------
  // strip

  /** `s.lstrip()`: drops the leading whitespace of `s`. */
  function TrimStart(s: string): (r: string)
    ensures |r| <= |s|
  {
    if s != [] && IsSpace(s[0]) then TrimStart(s[1..]) else s
  }

  /** `s.rstrip()`: drops the trailing whitespace of `s`. */
  function TrimEnd(s: string): (r: string)
    ensures |r| <= |s|
  {
    if s != [] && IsSpace(s[|s| - 1]) then TrimEnd(s[..|s| - 1]) else s
  }

  /** `lstrip` keeps a suffix and removes exactly the whitespace before it. */
  lemma {:induction false} TrimStartShape(s: string)
    ensures var r := TrimStart(s);
      && r == s[|s| - |r|..]
      && (forall i :: 0 <= i < |s| - |r| ==> IsSpace(s[i]))
      && (r != [] ==> !IsSpace(r[0]))
  {
    if s != [] && IsSpace(s[0]) {
      TrimStartShape(s[1..]);
    }
  }

  /** `rstrip` keeps a prefix and removes exactly the whitespace after it. */
  lemma {:induction false} TrimEndShape(s: string)
    ensures var r := TrimEnd(s);
      && r == s[..|r|]
      && (forall i :: |r| <= i < |s| ==> IsSpace(s[i]))
      && (r != [] ==> !IsSpace(r[|r| - 1]))
  {
    if s != [] && IsSpace(s[|s| - 1]) {
      TrimEndShape(s[..|s| - 1]);
    }
  }

  /** `s.strip()`. */
  function Strip(s: string): string {
    TrimEnd(TrimStart(s))
  }

  /** Where the strip of `s` starts inside `s`. */
  function StripOffset(s: string): nat {
    |s| - |TrimStart(s)|
  }

  /** Strip keeps a contiguous part of its input and removes only whitespace around it. */
  lemma StripShape(s: string)
    ensures var r, a := Strip(s), StripOffset(s);
      a + |r| <= |s| && r == s[a..a + |r|]
      && (forall i :: 0 <= i < a ==> IsSpace(s[i]))
      && (forall i :: a + |r| <= i < |s| ==> IsSpace(s[i]))
    ensures Strip(s) != [] ==> !IsSpace(Strip(s)[0]) && !IsSpace(Strip(s)[|Strip(s)| - 1])
  {
    var t := TrimStart(s);
    var a := |s| - |t|;
    var r := TrimEnd(t);
    TrimStartShape(s);
    TrimEndShape(t);
    assert r == s[a..a + |r|];
    forall i | a + |r| <= i < |s|
      ensures IsSpace(s[i])
    {
      assert s[i] == t[i - a];
    }
    if r != [] {
      assert r[0] == t[0];
    }
  }

  /** A string with no whitespace at either end is its own strip. */
  lemma StripNoop(s: string)
    requires s != [] ==> !IsSpace(s[0]) && !IsSpace(s[|s| - 1])
    ensures Strip(s) == s
  {
  }

  /** Stripping is idempotent. */
  lemma StripIdempotent(s: string)
    ensures Strip(Strip(s)) == Strip(s)
  {
    StripShape(s);
    StripNoop(Strip(s));
  }

  /** Python truthiness of the strip: empty exactly when `s` is all whitespace. */
  lemma StripEmptyIffBlank(s: string)
    ensures Strip(s) == [] <==> forall i :: 0 <= i < |s| ==> IsSpace(s[i])
  {
    StripShape(s);
    if Strip(s) != [] {
      assert Strip(s)[0] == s[StripOffset(s)];
    }
  }

  // ---------------------------------------------------------------------
  // case mapping (ASCII letters only)

  function LowerChar(c: char): char {
    if 'A' <= c <= 'Z' then (c as int + 32) as char else c
  }

  function UpperChar(c: char): char {
    if 'a' <= c <= 'z' then (c as int - 32) as char else c
  }

  /** `s.lower()`. */
  function Lower(s: string): string {
    seq(|s|, i requires 0 <= i < |s| => LowerChar(s[i]))
  }

  /** `s.upper()`. */
  function Upper(s: string): string {
    seq(|s|, i requires 0 <= i < |s| => UpperChar(s[i]))
  }

  lemma LowerAppend(a: string, b: string)
    ensures Lower(a + b) == Lower(a) + Lower(b)
  {
  }

  lemma LowerIdempotent(s: string)
    ensures Lower(Lower(s)) == Lower(s)
  {
  }

  // ---------------------------------------------------------------------
  // prefixes, suffixes, substrings

  /** `s.startswith(prefix)`. */
  predicate StartsWith(s: string, prefix: string) {
    |prefix| <= |s| && s[..|prefix|] == prefix
  }

  /** `s.endswith(suffix)`. */
  predicate EndsWith(s: string, suffix: string) {
    |suffix| <= |s| && s[|s| - |suffix|..] == suffix
  }

  /** `sub in s`. */
  predicate Contains(s: string, sub: string)
    decreases |s|
  {
    StartsWith(s, sub) || (|s| > 0 && Contains(s[1..], sub))
  }

  /** `sub` occurs in `s` starting at index `i`. */
  predicate OccursAt(s: string, sub: string, i: int) {
    0 <= i && i + |sub| <= |s| && s[i..i + |sub|] == sub
  }

  /** `sub in s` holds exactly when `sub` occurs at some position of `s`. */
  lemma {:induction false} ContainsAt(s: string, sub: string)
    ensures Contains(s, sub) <==> exists i :: OccursAt(s, sub, i)
    decreases |s|
  {
    if |s| > 0 {
      ContainsAt(s[1..], sub);
      if exists i :: OccursAt(s, sub, i) {
        var i :| OccursAt(s, sub, i);
        if i > 0 {
          assert OccursAt(s[1..], sub, i - 1);
        } else {
          assert StartsWith(s, sub);
        }
      }
      if StartsWith(s, sub) {
        assert OccursAt(s, sub, 0);
      }
      if Contains(s[1..], sub) {
        var i :| OccursAt(s[1..], sub, i);
        assert OccursAt(s, sub, i + 1);
      }
    } else if Contains(s, sub) {
      assert OccursAt(s, sub, 0);
    }
  }

  /** A substring of a part is a substring of the whole. */
  lemma ContainsInConcat(a: string, b: string, c: string, sub: string)
    requires Contains(b, sub)
    ensures Contains(a + b + c, sub)
  {
    ContainsAt(b, sub);
    var i :| OccursAt(b, sub, i);
    assert (a + b + c)[|a| + i..|a| + i + |sub|] == b[i..i + |sub|];
    assert OccursAt(a + b + c, sub, |a| + i);
    ContainsAt(a + b + c, sub);
  }

  /** Stripping never cuts into an occurrence that starts and ends with a non-space. */
  lemma StripKeepsOccurrence(s: string, sub: string, i: int)
    requires OccursAt(s, sub, i) && sub != []
    requires !IsSpace(sub[0]) && !IsSpace(sub[|sub| - 1])
    ensures OccursAt(Strip(s), sub, i - StripOffset(s))
  {
    var r := Strip(s);
    var a := StripOffset(s);
    StripShape(s);
    var last := i + |sub| - 1;
    assert s[i] == sub[0] && s[last] == sub[|sub| - 1];
    assert !IsSpace(s[i]) && !IsSpace(s[last]);
    assert a <= i && last < a + |r|;
    OccursInSlice(s, sub, i, a, a + |r|);
  }

  /** An occurrence inside a slice is an occurrence in the slice. */
  lemma OccursInSlice(s: string, sub: string, i: int, lo: int, hi: int)
    requires 0 <= lo <= i && i + |sub| <= hi <= |s| && OccursAt(s, sub, i)
    ensures OccursAt(s[lo..hi], sub, i - lo)
  {
    var t := s[lo..hi];
    forall k | 0 <= k < |sub|
      ensures t[i - lo..i - lo + |sub|][k] == sub[k]
    {
      assert s[i..i + |sub|][k] == sub[k];
    }
  }

  /** An occurrence is a containment. */
  lemma OccursContains(s: string, sub: string, i: int)
    requires OccursAt(s, sub, i)
    ensures Contains(s, sub)
  {
    ContainsAt(s, sub);
  }

  /** Containment is transitive. */
  lemma ContainsTransitive(s: string, mid: string, sub: string)
    requires Contains(s, mid) && Contains(mid, sub)
    ensures Contains(s, sub)
  {
    ContainsAt(s, mid);
    var i :| OccursAt(s, mid, i);
    assert s == s[..i] + mid + s[i + |mid|..];
    ContainsInConcat(s[..i], mid, s[i + |mid|..], sub);
  }

  // ---------------------------------------------------------------------
  // slicing and joining

  /** `s[:n]`: the first `n` elements, or all of `s` when it is shorter. */
  function Take<T>(s: seq<T>, n: nat): (r: seq<T>)
    ensures |r| <= n && |r| <= |s|
    ensures r == s[..|r|]
    ensures |r| == n || r == s
  {
    if |s| <= n then s else s[..n]
  }

  /** `sub` cannot occur in `s` when one of its characters never appears in `s`. */
  lemma NotContainedChar(s: string, sub: string, k: nat)
    requires k < |sub| && forall i :: 0 <= i < |s| ==> s[i] != sub[k]
    ensures !Contains(s, sub)
  {
    forall i | 0 <= i && i + |sub| <= |s|
      ensures !OccursAt(s, sub, i)
    {
      assert s[i..i + |sub|][k] == s[i + k];
    }
    ContainsAt(s, sub);
  }

  /** Taking from a non-empty list keeps its head. */
  lemma TakeCons<T>(x: T, xs: seq<T>, n: nat)
    requires n > 0
    ensures Take([x] + xs, n) == [x] + Take(xs, n - 1)
  {
  }

  lemma AppendAssoc<T>(a: seq<T>, b: seq<T>, c: seq<T>)
    ensures a + (b + c) == (a + b) + c
  {
  }

  /** `s[-n:]`: the last `n` elements, or all of `s` when it is shorter. */
  function TakeLast<T>(s: seq<T>, n: nat): (r: seq<T>)
    ensures |r| <= n && |r| <= |s|
    ensures r == s[|s| - |r|..]
    ensures |r| == n || r == s
  {
    if |s| <= n then s else s[|s| - n..]
  }

  /** `sep.join(parts)`. */
  function Join(sep: string, parts: seq<string>): string {
    if |parts| == 0 then ""
    else if |parts| == 1 then parts[0]
    else parts[0] + sep + Join(sep, parts[1..])
  }

  /** `"".join(parts)`: the parts one after another. */
  function Concat(parts: seq<string>): string {
    if parts == [] then "" else parts[0] + Concat(parts[1..])
  }

  /** Concatenating two lists of parts concatenates their concatenations. */
  lemma {:induction false} ConcatAppend(a: seq<string>, b: seq<string>)
    ensures Concat(a + b) == Concat(a) + Concat(b)
    decreases |a|
  {
    if a != [] {
      assert (a + b)[1..] == a[1..] + b;
      ConcatAppend(a[1..], b);
      AppendAssoc(a[0], Concat(a[1..]), Concat(b));
    } else {
      assert a + b == b;
    }
  }

  /** A join begins with its first part. */
  lemma {:induction false} JoinStartsWith(sep: string, parts: seq<string>)
    requires parts != []
    ensures StartsWith(Join(sep, parts), parts[0])
  {
    if |parts| > 1 {
      assert Join(sep, parts) == parts[0] + (sep + Join(sep, parts[1..]));
    }
  }

  /** A join ends with its last part. */
  lemma {:induction false} JoinEndsWith(sep: string, parts: seq<string>)
    requires parts != []
    ensures EndsWith(Join(sep, parts), parts[|parts| - 1])
  {
    if |parts| > 1 {
      JoinEndsWith(sep, parts[1..]);
      var rest := Join(sep, parts[1..]);
      assert Join(sep, parts) == (parts[0] + sep) + rest;
    }
  }

  // ---------------------------------------------------------------------
  // decimal numbers

  function DigitChar(d: nat): char
    requires d < 10
    ensures IsAsciiDigit(DigitChar(d)) && DigitOf(DigitChar(d)) == d
  {
    ('0' as int + d) as char
  }

  function DigitOf(c: char): nat
    requires IsAsciiDigit(c)
  {
    c as int - '0' as int
  }

  /** `str(n)` for a natural number. */
  function NatToString(n: nat): string
  {
    if n < 10 then [DigitChar(n)] else NatToString(n / 10) + [DigitChar(n % 10)]
  }

  /** `str(i)` for an integer. */
  function IntToString(i: int): string {
    if i < 0 then "-" + NatToString(-i) else NatToString(i)
  }

  /** The value of a run of ASCII digits, read left to right. */
  function DigitsValue(s: string): nat
    requires AllDigits(s)
  {
    if s == [] then 0 else DigitsValue(s[..|s| - 1]) * 10 + DigitOf(s[|s| - 1])
  }

  /**
   * `int(s)` restricted to integer literals: an optional sign and at least
   * one ASCII digit, with surrounding whitespace ignored.  `None` stands for
   * the `ValueError` Python raises on anything else.
   */
  function ParseInt(s: string): Option<int> {
    var t := Strip(s);
    if t == [] then None
    else
      var negative := t[0] == '-';
      var body := if t[0] == '-' || t[0] == '+' then t[1..] else t;
      if body != [] && AllDigits(body) then
        Some(if negative then -(DigitsValue(body) as int) else DigitsValue(body))
      else None
  }

  lemma {:induction false} NatToStringDigits(n: nat)
    ensures NatToString(n) != [] && AllDigits(NatToString(n))
    ensures DigitsValue(NatToString(n)) == n
  {
    if n >= 10 {
      NatToStringDigits(n / 10);
      var s := NatToString(n);
      var d := DigitChar(n % 10);
      assert s == NatToString(n / 10) + [d];
      assert s[..|s| - 1] == NatToString(n / 10);
      assert s[|s| - 1] == d;
      assert DigitsValue(s) == DigitsValue(NatToString(n / 10)) * 10 + DigitOf(d);
    }
  }

  /** Rendering an integer and parsing it back gives the integer. */
  lemma ParseIntToString(i: int)
    ensures ParseInt(IntToString(i)) == Some(i)
  {
    var s := IntToString(i);
    var m: nat := if i < 0 then -i else i;
    NatToStringDigits(m);
    assert s != [] && !IsSpace(s[0]) && !IsSpace(s[|s| - 1]);
    StripNoop(s);
    if i < 0 {
      assert s[1..] == NatToString(m);
    }
  }

  /** The first index at or after `i` whose element satisfies `p`, if any. */
  function FirstWhere<T>(xs: seq<T>, p: T -> bool, i: nat): (k: Option<nat>)
    requires i <= |xs|
    ensures k.None? <==> forall j :: i <= j < |xs| ==> !p(xs[j])
    ensures k.Some? ==> i <= k.value < |xs| && p(xs[k.value]) && forall j :: i <= j < k.value ==> !p(xs[j])
    decreases |xs| - i
  {
    if i == |xs| then None
    else if p(xs[i]) then Some(i)
    else FirstWhere(xs, p, i + 1)
  }
}

=== FILE: wrappers.dfy ===
/** Failure-carrying wrappers shared by every module of the model. */
module Wrappers {

  /** A value that may be absent, standing for Python's `None`. */
  datatype Option<+T> = None | Some(value: T) {

    /** The wrapped value, or `default` when absent. */
    function GetOr(default: T): T {
      match this
      case Some(v) => v
      case None => default
    }
  }

  /** The outcome of an operation that either succeeds or reports an error. */
  datatype Result<+T, +E> = Ok(value: T) | Err(error: E)
}
